=== FILE: README.md ===
# kubeque / sparklespray core in Dafny

This project models the deterministic core of the kubeque/sparklespray batch
runner and proves properties of it. The runner submits jobs of many tasks to
a cloud datastore, and worker nodes claim and run those tasks. A local
command watches a job, recovers tasks whose worker vanished, and lists the
task records.

Modules, one per component of the source:

- `Wrappers`: `Option`, and `Result` with an `Error` naming the kind of
  exception Python would raise at that point.
- `Strings`: the parts of Python's `str` the code relies on.
  - prefix and suffix tests, `find` and `rfind`
  - `split` and `join`
  - `str(int)` and `int(str)`
  - code-point ordering
- `Collections`: `Filter`, and an insertion sort standing in for Python's
  `list.sort()`.
- `Json`: the values of task specs after `json.loads` and of task records
  after `attr.asdict`, floats included. Dictionaries keep insertion order, as
  Python's do, so a dictionary is a sequence of entries.
- `JobQueue` (kubeque/job_queue.py): `Task`, `Job`, the task statuses, and an
  abstract store. The store is a map from task id to task, plus a map from
  job id to job. It covers submission in 300-task batches, `reset`,
  `_reset_task`, `reset_task`, `kill_job`, `get_status_counts`,
  `get_claimed_task_ids`, `get_jobids` and `_update_task_status`.
- `Recovery` (kubeque/main.py):
  - `_update_if_owner_missing`, `_resub_preempted` and `_clean`
  - the status set of `reset_cmd`
  - the per-job part of `kill_cmd`
- `Autoscale` (kubeque/main.py): the `NodeRespawn` restart budget.
- `Summary` (kubeque/main.py):
  - `_is_terminal_status`, `_is_complete` and `_summarize_task_statuses`
  - the `TasksStatus` counters
- `Watch` (kubeque/watch.py):
  - one pass of the `watch` loop as a pure function
  - `_exception_guard`
  - `dump_stdout_if_single_task`
- `Submit` (sparklespray/submit.py):
  - `rewrite_url_with_prefix` and `rewrite_url_in_dict`
  - `expand_task_spec`, `_split_source_dest`, `_parse_resources` and `_obj_path_to_url`
  - `_get_bootDiskSizeGb`
  - the preemptible-attempts rule of the submission path
- `Records` (sparklespray/list.py):
  - `_get`, `_set` and `project`
  - `make_predicate` and `process_records`
  - `flatten`, the rows and columns of `write_csv`
  - the `needs_full_task_def` flag of `list_tasks`

How the outside world appears:

- **Concurrency.** The store's compare-and-set answer to a task write is an
  input. It is either `accepted` for a single write, or `lost`, the set of
  task ids whose write loses its race. A rejected write leaves the record as
  it was.
- **Cluster and time.** Clock readings, the cluster's answers (`get_state`,
  `is_owner_running`, running counts, preempted ids) and the faults raised
  inside guarded blocks are all parameters.
- **Effects.** What a watch pass does to its collaborators is an ordered
  list of effects:
  - a summary log line
  - a reset of a preempted task
  - the resize
  - a log poll

Where the code departs from what its names suggest, the model follows the
code:

- **`_update_task_status` keeps the owner.** A task's owner might be expected
  to be cleared once the task is no longer claimed. The line that would clear
  it when a status is recorded (kubeque/job_queue.py:193) is commented out, so
  a completed task keeps its owner. `JobQueue.UpdateTaskStatusKeepsOwner`
  states this.
- **Killed is not terminal.** `_is_terminal_status` lists only failed and
  complete, so a job with killed tasks never reads as complete.
- **The `submit` signature.** sparklespray/submit.py calls `jq.submit` with
  triples and seven arguments. The `JobQueue.submit` in kubeque/job_queue.py
  takes pairs and five. The model follows kubeque/job_queue.py.

## Model

| member | source | states |
|---|---|---|
| JobQueue.TaskIdInjective | kubeque/job_queue.py:157 | two task indexes of one job that give the same `"<job>.<i>"` id are equal, so ids never collide within a job |
| JobQueue.JobTasksWithStatus | kubeque/job_queue.py:80-81 | `get_tasks(job, status)` lists exactly the job's tasks that have that status |
| JobQueue.ResetRecord | kubeque/job_queue.py:134-139 | the record `_reset_task` writes has no owner and the requested status, its history is the old history plus exactly one "reset" entry, and every other field is unchanged |
| JobQueue.ResetTask | kubeque/job_queue.py:134-139 | `_reset_task` ignores the store's verdict: an accepted write installs the reset record, a rejected one leaves the store as it was, and job records are never touched |
| JobQueue.ResetTaskById | kubeque/job_queue.py:141-143 | `reset_task` fails exactly when the id has no record; otherwise only that task can change, and it is reset when the write is accepted |
| JobQueue.ResetEach | kubeque/job_queue.py:120-124 | the loop of `reset` over the listed tasks neither creates nor removes a task record, and leaves the jobs unchanged |
| JobQueue.ResetEachResets | kubeque/job_queue.py:122-124 | in the loop of `reset`, every listed task whose write is not lost ends up as its reset record |
| JobQueue.ResetEachKeeps | kubeque/job_queue.py:122-124 | a task the loop does not successfully write keeps its stored record |
| JobQueue.Reset | kubeque/job_queue.py:114-132 | `reset` returns the number of the job's tasks that have a status to clear and match the owner filter; it always sets the job back to submitted and creates or removes no task |
| JobQueue.ResetResetsSelected | kubeque/job_queue.py:114-124 | a selected task whose write is accepted becomes pending and unowned, with a "reset" history entry |
| JobQueue.ResetKeepsUnselected | kubeque/job_queue.py:114-124 | a task that is in another job, has a status not to clear, has a different owner, or whose write was lost keeps its record |
| JobQueue.SetJobStatus | kubeque/job_queue.py:100-106 | `update_job` with a status mutator changes that job's status and no other job |
| JobQueue.KillJob | kubeque/job_queue.py:100-106 | `kill_job` fails exactly on an unknown job, otherwise marks it killed, returns the updated job and leaves every task as it was |
| JobQueue.KillJobIdempotent | kubeque/job_queue.py:100-106 | killing a killed job changes nothing |
| JobQueue.StatusCounts | kubeque/job_queue.py:108-112 | `get_status_counts` has a key only for statuses present in the listing, each mapped to the number of tasks with that status (so at least 1) |
| JobQueue.GetStatusCounts | kubeque/job_queue.py:108-112 | `get_status_counts(job_id)` has a key exactly for each status some task of the job's listing is in, mapped to the number of those tasks in it |
| JobQueue.StatusCountsTotal | kubeque/job_queue.py:108-112 | the counts add up to the number of tasks |
| JobQueue.UpdateTaskStatus | kubeque/job_queue.py:186-197 | `_update_task_status` fails on a missing task and raises the concurrent-update error when the write is rejected; on success it appends one history entry with the new status, sets status, failure reason and exit code, and touches nothing else |
| JobQueue.UpdateTaskStatusKeepsOwner | kubeque/job_queue.py:186-197 | completing a claimed task keeps its owner, because the line clearing it is commented out |
| JobQueue.ClaimedTaskIds | kubeque/job_queue.py:73-78 | `get_claimed_task_ids` fails its assertion exactly when some claimed task has no owner; otherwise it lists, in order, the id and owner of every claimed task |
| JobQueue.JobIdsMatching | kubeque/job_queue.py:89-91 | `get_jobids` returns exactly the stored job ids the pattern matches |
| JobQueue.JobIdsMatchingOrder | kubeque/job_queue.py:89-91 | the job-id filter keeps the store's order: it distributes over concatenation |
| JobQueue.NewTask | kubeque/job_queue.py:157-167 | the task created for index i has id `"<job>.<i>"` and index i, is pending, has no owner, and has exactly one history entry, with status pending |
| JobQueue.WriteBatch | kubeque/job_queue.py:156-170 | one `batch_write` scope creates the tasks for its slice of the arguments, with contiguous indexes continuing from the previous batch |
| JobQueue.Submit | kubeque/job_queue.py:145-175 | `submit` over N arguments uses ceil(N/300) batches, each of 1 to 300 tasks; together they hold tasks 0..N-1 in order; the job lists their ids in index order; other tasks and jobs are unchanged |
| JobQueue.StoreJob | kubeque/job_queue.py:173-175 | the final write stores the job listing every new task id, as submitted, and leaves other jobs alone |
| JobQueue.SubmittedJobTasks | kubeque/job_queue.py:145-175 | right after `submit`, `get_tasks(job)` is exactly the N new tasks in index order |
| JobQueue.SubmittedStatusCounts | kubeque/job_queue.py:145-175 | right after `submit` of N > 0 tasks, `get_status_counts` is `{pending: N}` |
| Recovery.RecoveredStatus | kubeque/main.py:370-374 | an orphaned claim goes back to killed when its job is killed and to pending otherwise, never to claimed |
| Recovery.UpdateIfOwnerMissing | kubeque/main.py:366-376 | `_update_if_owner_missing` does nothing unless the task is claimed and its owner is not running. It fails only when the job or task record is missing. On success only that task can change, and an accepted write resets it to the recovered status |
| Recovery.UpdateIfOwnerMissingRestoresOwnership | kubeque/main.py:366-376 | a recovered claim is unowned and not claimed, so owner-iff-claimed holds again for it |
| Recovery.RecoverEach | kubeque/main.py:337-338 | the recovery loop fails exactly when some orphaned entry's job or task record is missing, and never adds or removes records |
| Recovery.RecoverEachKeeps | kubeque/main.py:337-338 | a task that no successful write of the loop touches keeps its record |
| Recovery.RecoverEachRecovers | kubeque/main.py:337-338 | every orphaned entry whose write is accepted ends up unowned, in the status its job's state calls for |
| Recovery.ResubPreempted | kubeque/main.py:335-338 | `_resub_preempted` fails exactly when one of the job's orphaned claims is unrecoverable; it adds and removes no records |
| Recovery.ResubPreemptedEffect | kubeque/main.py:335-338 | afterwards every orphaned claim of the job whose write was accepted is recovered, and every other task is unchanged |
| Recovery.DeleteJob | kubeque/main.py:356-357 | deleting a job removes the job and exactly the tasks it lists, which is what the datastore is assumed to do |
| Recovery.Clean | kubeque/main.py:340-358 | with `force` the job is deleted and True is returned. A True result means the job is gone. A False result leaves every job in place, with a claim still recorded |
| Recovery.CleanDeletesIff | kubeque/main.py:340-358 | without `force`, `_clean` deletes the job and returns True exactly when no claim of the job survives the recovery pass |
| Recovery.CountedClaims | kubeque/main.py:344 | `STATUS_CLAIMED in status_counts` holds exactly when some task of the job is claimed |
| Recovery.SameListing | kubeque/main.py:346-352 | after the recovery pass, some task of the job is claimed exactly when some claim survived it: its owner runs, or its reset was lost |
| Recovery.ResetStatuses | kubeque/main.py:66-69 | `reset_cmd` clears claimed, failed and killed tasks, plus complete ones exactly when `--all` is given, and never pending ones |
| Recovery.ResetCmd | kubeque/main.py:64-73 | `reset_cmd` resets at most the job's tasks and marks the job submitted |
| Recovery.ResetCmdSpares | kubeque/main.py:64-72 | `reset_cmd` never touches a pending task, nor a complete one without `--all` |
| Recovery.ResetEachById | kubeque/main.py:394-396 | a loop of `reset_task` calls fails exactly when some id has no record, and adds or removes no records |
| Recovery.ResetEachByIdEffect | kubeque/main.py:394-396 | every listed id whose write is accepted ends up unowned in the given status; other tasks keep their records |
| Recovery.KillCmd | kubeque/main.py:378-396 | `kill_cmd` fails on an unknown job; otherwise the job is marked killed and no task record is created or removed |
| Recovery.KillPending | kubeque/main.py:393-396 | the killing loop always completes and creates or removes no record |
| Recovery.KillPendingLeavesNoPending | kubeque/main.py:393-396 | after the killing loop, the only pending tasks left in the job are those whose kill write was lost |
| Recovery.KillCmdLeavesNoPending | kubeque/main.py:378-396 | after `kill_cmd`, the job's only pending tasks are those whose kill write was lost |
| Recovery.KillCmdKillsOrphans | kubeque/main.py:385-391 | because the job is marked killed before the recovery pass, an orphaned claim of the job whose write is accepted ends up killed, not pending |
| Recovery.NotPendingNotKilled | kubeque/main.py:394-396 | the killing loop does not visit a task that is not pending |
| Autoscale.Init | kubeque/main.py:250-257 | the restart budget is the active-task count at creation, and nothing has been added yet |
| Autoscale.ResetAddedCount | kubeque/main.py:259-260 | `reset_added_count` makes the whole budget available again and changes nothing else |
| Autoscale.Needed | kubeque/main.py:270-272 | the nodes called for are the active-task count, or `max_nodes` when that is set and smaller: at most each of the two, and equal to one of them |
| Autoscale.Reconcile | kubeque/main.py:262-287 | see the list after this table |
| Autoscale.ReconcileAll | kubeque/main.py:262-287 | across any run of polls the budget invariant holds, and the nodes asked for in total never exceed the budget left at the start |
| Autoscale.SpentBudgetRaises | kubeque/main.py:280-284 | once the budget is spent, a new snapshot that still shows a deficit raises |
| Autoscale.BudgetExample | kubeque/main.py:280-287 | with budget 5, 4 spent and a deficit of 3, one node is added; the next deficit on a new snapshot raises |
| Summary.IsTerminalStatus | kubeque/main.py:237-238 | only failed and complete are terminal; pending, claimed, killed and lost are not |
| Summary.IsCompleteAsWritten | kubeque/main.py:241-246 | `_is_complete` as written returns True for every input |
| Summary.IsComplete | kubeque/main.py:241-246 | corrected `_is_complete`: complete exactly when every counted status is terminal |
| Summary.ScanDecides | kubeque/main.py:241-246 | the loop of `_is_complete`, with False stored on a non-terminal status, decides "every status is terminal" |
| Summary.IsCompleteAsWrittenAcceptsPending | kubeque/main.py:241-246 | a job with one pending task is complete according to the code as written, but not according to the corrected version |
| Summary.ActiveTasks | kubeque/main.py:294-301 | `active_tasks` never exceeds the number of tasks |
| Summary.ActiveTasksFromCounts | kubeque/main.py:294-301 | `active_tasks` is the claimed count plus the pending count |
| Summary.FailedTasks | kubeque/main.py:303-312 | `failed_tasks` never exceeds the number of tasks |
| Summary.FailedTasksExact | kubeque/main.py:303-312 | `failed_tasks` is exactly the failed count of `get_status_counts` plus the number of complete tasks whose `str(exit_code)` is not "0" |
| Summary.FailedTasksFromCounts | kubeque/main.py:303-312 | `failed_tasks` is at least the failed count and at most failed plus complete |
| Summary.FailedTasksExitCode | kubeque/main.py:309-311 | a complete task counts as failed exactly when `str(exit_code)` is not "0" |
| Summary.ActivePlusFailedBound | kubeque/main.py:294-312 | active and failed tasks are disjoint, so together they never exceed the task count |
| Summary.Label | kubeque/main.py:82-87 | a label starts with the task's status name; a complete task's label ends with its exit code and a failed task's with its failure reason, each before a closing parenthesis; any other status is its bare name |
| Summary.LabelDeterminesStatus | kubeque/main.py:82-87 | two tasks filed under the same label have the same status |
| Summary.Tally | kubeque/main.py:81-89 | the label tally has a key for each label that occurs, counting its occurrences |
| Summary.SortedLabels | kubeque/main.py:94-95 | the status line's labels are sorted, distinct, and exactly the labels that occur |
| Summary.SummaryItems | kubeque/main.py:94-96 | the status line lists each label once, in sorted order, with its number of occurrences |
| Summary.SummaryText | kubeque/main.py:96 | the status line is empty exactly when there is no label; otherwise it starts with the first `label: count` entry, and is just that entry when there is one label |
| Summary.SummaryTextAppend | kubeque/main.py:96 | one more label adds its `label: count` entry after a `, ` separator |
| Summary.SummarizeTaskStatuses | kubeque/main.py:78-97 | the completion flag is true exactly when every task is failed or complete, which is the corrected `_is_complete` of the status counts |
| Summary.AllTerminalIsComplete | kubeque/main.py:91-92 | the flag the loop clears agrees with the corrected `_is_complete` over the status counts |
| Summary.CountedStatuses | kubeque/job_queue.py:108-112 | a status is counted exactly when some task has it |
| Summary.SummaryCountsTotal | kubeque/main.py:81-96 | the counts in the status line add up to the number of tasks |
| Watch.ExceptionGuard | kubeque/watch.py:18-33 | a block that raises nothing finishes. An `OSError` or `RetryError` is swallowed, calling `reset` when one is given. Any other exception propagates unchanged |
| Watch.Start | kubeque/watch.py:66-67 | the loop starts with the initial delay, no previous summary and no state |
| Watch.NextDelay | kubeque/watch.py:77-84 | a changed summary resets the delay to the initial one; an unchanged one multiplies it by 1.5, capped at the maximum: at most each of the two, and equal to one of them |
| Watch.NextDelayInRange | kubeque/watch.py:76-84 | with 0 <= initial <= max, one backoff step keeps the delay in [initial, max], and an unchanged summary never shortens it |
| Watch.ResetAll | kubeque/watch.py:86-91 | the preemption step resets the preempted ids in order and stops at the first raise; with no injected fault, it raises only on an id without a record |
| Watch.ResetAllEffect | kubeque/watch.py:86-91 | when the step completes, every preempted id whose write is accepted is pending and unowned, and every other record is untouched |
| Watch.Step | kubeque/watch.py:69-107 | see the list after this table |
| Watch.StepEffects | kubeque/watch.py:69-100 | a pass creates no records. A pass that sleeps has resized, and polled the log exactly when there is a monitor. All resets come before the resize. The resize runs only after the preemption step completed or was swallowed |
| Watch.Proceed | kubeque/watch.py:76-100 | after the exit test the pass records the summary and the next delay, logs a changed summary first, and never exits |
| Watch.Logged | kubeque/watch.py:77-79 | the summary is logged, once, exactly when it differs from the previous one |
| Watch.ProceedEffects | kubeque/watch.py:76-100 | the rest of a pass keeps the store's keys, resets before it resizes, and resizes only after the preemption step completed or its fault was swallowed |
| Watch.AfterPreemption | kubeque/watch.py:93-100 | the guarded resize follows the earlier effects and is followed only by log polls; a sleeping pass polls the log exactly when there is a monitor |
| Watch.Run | kubeque/watch.py:69-100 | the loop goes round only after a sleep, and each sleep uses the delay just computed |
| Watch.RunKeepsDelayInRange | kubeque/watch.py:66-84 | if 0 <= initial <= max, the delay stays within [initial, max] over any sequence of passes |
| Watch.RunFromStartSleepsInRange | kubeque/watch.py:66-100 | from the start of `watch`, every sleep of every run lasts between the initial and the maximum delay |
| Watch.StepResetsPreemptedBeforeResize | kubeque/watch.py:86-94 | when the resize runs and the preemption step had no fault, every preempted task whose write is accepted is already pending and unowned |
| Watch.BackoffExample | kubeque/watch.py:76-84 | with unchanged summaries, initial 1 and max 30, the delays are 1, 1.5 and 2.25, and a changed summary resets the delay to 1 |
| Watch.FirstFetchFailureIsFatal | kubeque/watch.py:70-73 | a swallowed `get_state` failure on the first pass leaves `state` unbound, so the loop raises instead of retrying |
| Watch.LastLines | kubeque/watch.py:47 | `lines[-100:]` is the last at most 100 lines, and all of them when there are no more |
| Watch.DumpStdoutIfSingleTask | kubeque/watch.py:40-48 | lines are printed exactly when the job has one task. They are 1 to 100 newline-free lines that end the output, and the whole output when it has at most 100 lines |
| Submit.RewriteUrlWithPrefix | sparklespray/submit.py:79-91 | see the list after this table |
| Submit.Rooted | sparklespray/submit.py:82-89 | a relative url rooted under an absolute prefix is absolute |
| Submit.RewriteUrlIdempotent | sparklespray/submit.py:79-91 | with a prefix containing ':', rewriting a rewritten url changes nothing |
| Submit.RewriteUrlExample | sparklespray/submit.py:79-91 | "/x" under "gs://b" is "gs://b/x"; an absolute url is kept; "a//b" fails the assertion |
| Submit.RewriteUrlInDict | sparklespray/submit.py:94-101 | the dictionary comes back unchanged without the key. Otherwise only that key's value changes, to the rewritten url, and the call fails exactly when the rewrite fails or the value is not a string |
| Submit.Override | sparklespray/submit.py:72-74 | each of the listed attributes is the task's value when the task has one and the common value otherwise; other keys keep the common value |
| Submit.ExpandTaskSpec | sparklespray/submit.py:68-76 | see the list after this table |
| Submit.ColonIndex | sparklespray/submit.py:276-279 | the separator found is a ':', searched from index 5 in a `gs://` path |
| Submit.LocalDest | sparklespray/submit.py:286-287 | a destination starting with '/' or `gs://` is replaced by its last path component; any other is kept |
| Submit.SplitSourceDest | sparklespray/submit.py:275-289 | with a separating ':', the source is the text before it and the destination the (basenamed) text after; without one, both are the whole input (the destination basenamed) |
| Submit.SplitSourceDestRoundTrip | sparklespray/submit.py:275-289 | a colon-free source and a relative destination joined by ':' come back apart |
| Submit.ParseResource | sparklespray/submit.py:339-345 | a piece is split at its first '=', fails as malformed without '=' or with an empty name, and fails the assertion for a name other than memory or cpu |
| Submit.ParseResourceList | sparklespray/submit.py:337-346 | the loop succeeds exactly when every piece parses, and otherwise fails with the error of a piece that does not |
| Submit.ParseResourceListKeys | sparklespray/submit.py:337-346 | the parsed map holds exactly the names of the pieces |
| Submit.ParseResourceListLastWins | sparklespray/submit.py:337-346 | each name maps to the value of the last piece naming it |
| Submit.ParseResources | sparklespray/submit.py:332-346 | `None` gives `{}`; the empty string fails as malformed; every parsed name is memory or cpu |
| Submit.ParseResourcesRoundTrip | sparklespray/submit.py:332-346 | writing constraints as `name=value,...` and parsing the text gives back the map they write, later ones winning |
| Submit.ObjPathToUrl | sparklespray/submit.py:349-353 | an accepted path is a `gs://` path of the matched shape and maps to `https://<bucket>.storage.googleapis.com/<key>`; any other path fails the assertion |
| Submit.ObjPathShape | sparklespray/submit.py:349-353 | an accepted path is exactly `gs://B/K`, or that followed by one newline (where the regular expression's `$` also matches), with B free of '/' |
| Submit.ObjPathToUrlAccepts | sparklespray/submit.py:349-353 | every `gs://B/K` with B non-empty and free of '/' and K non-empty maps to `https://B.storage.googleapis.com/K` |
| Submit.ObjPathToUrlNeedsScheme | sparklespray/submit.py:350-351 | a path not starting with `gs://` fails the assertion |
| Submit.ObjPathToUrlNeedsKey | sparklespray/submit.py:350-351 | a path naming only a bucket, with or without the '/', fails |
| Submit.ObjPathToUrlNeedsBucket | sparklespray/submit.py:350-351 | a path with an empty bucket fails |
| Submit.ParseInt | sparklespray/submit.py:429 | `int(s)` on a plain digit string is its decimal value |
| Submit.GetBootDiskSizeGb | sparklespray/submit.py:427-431 | the size defaults to 20, is the configured number otherwise, and is always at least 10: a smaller or unparsable value fails |
| Submit.BootDiskSizeRoundTrip | sparklespray/submit.py:427-431 | any configured size of at least 10, written as a number, is taken as given, and a smaller one fails |
| Submit.Preemptible | sparklespray/submit.py:437-444 | the command-line flag wins. Otherwise the configured value, lower-cased, must be 'y' or 'n' (default 'n'), and anything else fails |
| Submit.MaxPreemptibleAttempts | sparklespray/submit.py:257-259 | the attempts are 0 without preemptible nodes and twice the target node count with them |
| Submit.SubmitAttempts | sparklespray/submit.py:257-259 | the attempts passed on are even and non-negative, and positive exactly when nodes are preemptible and the target count is positive; a bad preemptible setting fails first |
| Records.GetPath | sparklespray/list.py:109-117 | `_get` returns None as soon as a step reads None; a non-dictionary step fails the assertion; a dictionary step reads the key, None when missing |
| Records.GetPlainField | sparklespray/list.py:109-117 | for a path without dots `_get(d, p)` is `d.get(p)` |
| Records.GetStopsAtNull | sparklespray/list.py:112-114 | once a prefix of the path reads None, the whole path reads None |
| Records.FindGet | sparklespray/list.py:109-117 | `_get` reads every value stored at a path |
| Records.SetPath | sparklespray/list.py:120-126 | `_set` succeeds exactly when every existing intermediate step is a dictionary, and otherwise raises a type error |
| Records.CanSetEmpty | sparklespray/list.py:120-126 | every path can be written into an empty dictionary |
| Records.GetAfterSet | sparklespray/list.py:120-126 | reading back a path just written gives the value written |
| Records.SetFieldGet | sparklespray/list.py:120-126 | `_set(d, f, v)` followed by `_get(d, f)` reads v whenever the write can go through |
| Records.SetKeepsIndependent | sparklespray/list.py:120-126 | writing one path leaves the reading of every independent path as it was |
| Records.SetKeepsCanSet | sparklespray/list.py:120-126 | writing one path does not block writing an independent one |
| Records.ProjectGets | sparklespray/list.py:129-133 | `project` is the loop `ProjectInto` run from `{}` with nothing shared. For fields none of which is a dotted prefix of another, `project` fails exactly when reading a field fails, and otherwise `_get(result, f) == _get(d, f)` for each field |
| Records.ProjectIntoGets | sparklespray/list.py:130-132 | over fields none of which is a dotted prefix of another, the loop that reads each field from the record as passed in keeps "the result reads each done field as the record does" |
| Records.ProjectIntoCopies | sparklespray/list.py:109-133 | when no field is a dotted prefix of another, no write goes through a dictionary the result shares with the record, so the record never changes. `project`, with its aliasing, then gives the same result as a loop that reads copies |
| Records.ProjectAliasExample | sparklespray/list.py:120-133 | on `{"a": {}}` with fields `a`, `a.x.y`, `a.x`, the write of `a.x.y` goes into the record's own `a`, and `project` returns `{"a": {"x": {"y": None}}}`. Reading copies would give `{"a": {"x": None}}` |
| Records.ProjectPrefixReadExample | sparklespray/list.py:120-133 | on `{"a": {"b": {}}}` with fields `a.b`, `a.b.c`, `a`, the write of `a.b.c` goes into the record's own `b`. Reading `a` afterwards sees it, and `project` returns `{"a": {"b": {"c": None}}}` |
| Records.PathLength | sparklespray/list.py:137 | the variable of a filter is the longest run of `[A-Za-z0-9.]` at the start |
| Records.MakePredicate | sparklespray/list.py:136-146 | an unparsable expression fails the assertion; a parsed one starts with its variable, its operator and its value, and the value holds no newline |
| Records.ParseCondition | sparklespray/list.py:136-146 | writing a condition out, followed by a newline and any text, and parsing it gives the condition back |
| Records.ParseFilterText | sparklespray/list.py:136-146 | writing a condition out as the plain filter text `path + op + value` and parsing it gives the condition back |
| Records.Holds | sparklespray/list.py:142-146 | a condition fails when the read fails, and otherwise holds exactly when the value read equals the raw string (for `=`) or differs from it (for `!=`) |
| Records.NotEqualsComplements | sparklespray/list.py:142-146 | `var!=value` holds exactly on the records where `var=value` does not |
| Records.MakePredicates | sparklespray/list.py:90 | the filters parse exactly when every expression does, each to its own condition |
| Records.AllHold | sparklespray/list.py:93-97 | a record passes exactly when every filter holds on it; a rejection or failure comes from some filter |
| Records.Keep | sparklespray/list.py:99-100 | filtering fails exactly when checking some record fails, and otherwise keeps, in order, the records every filter holds on |
| Records.ProjectAll | sparklespray/list.py:103-104 | projection succeeds exactly when each record projects, giving one result per record in order |
| Records.ProcessRecords | sparklespray/list.py:89-106 | an unparsable filter fails the assertion; otherwise the result is the records every filter holds on, in order, projected when fields are given |
| Records.ProcessRecordsIdentity | sparklespray/list.py:89-106 | with no filters and no fields the records come back unchanged |
| Records.ProcessRecordsKeeps | sparklespray/list.py:89-100 | a record is kept exactly when every filter holds on it |
| Records.Flatten | sparklespray/list.py:149-157 | every value of a flattened record is a string |
| Records.FlattenLeaves | sparklespray/list.py:149-157 | every flattened item's dotted key leads, through the nested dictionaries, to a non-dictionary value whose string it holds |
| Records.FlattenSkipsEmpty | sparklespray/list.py:149-157 | an empty nested dictionary contributes no column: neither its own key nor any key under it |
| Records.Columns | sparklespray/list.py:164-170 | the columns are sorted, distinct, and exactly the keys of the flattened records |
| Records.Text | sparklespray/list.py:156 | `str(v)`: a string is its own text; an integer's text reads back as the integer (after a `-` for a negative one); a list's text is bracketed and a dictionary's braced |
| Records.Row | sparklespray/list.py:175 | a row has one cell per column: the string of the record's value, or '' for a missing key |
| Records.WriteCsv | sparklespray/list.py:160-175 | `write_csv` writes the header of columns and then one row per record |
| Records.CsvColumns | sparklespray/list.py:160-170 | a key is a column exactly when some flattened record has it |
| Records.NeedsFullTaskDef | sparklespray/list.py:53-67 | the full task definition is fetched exactly when fields are not given, some field or filter starts with "args.", or only parameters are wanted |

The longer "states" cells:

- **Autoscale.Reconcile** (`reconcile_node_count`):
  - It keeps 0 <= nodes_added <= max_restarts.
  - The same snapshot object changes nothing.
  - A new snapshot is always recorded.
  - `needed` is `min(max_nodes, active_tasks)` when `max_nodes` is set.
  - Pending node requests count as running.
  - A new snapshot with a deficit and budget left always adds `min(deficit, budget left)` nodes and counts them. Any `Added` outcome is of that size.
  - A new snapshot without a deficit records the snapshot, reports no deficit and changes nothing else.
  - It raises exactly when a deficit meets a spent budget.
- **Watch.Step** (one pass of the `watch` loop):
  - A fetch failure other than OSError or RetryError propagates.
  - A swallowed failure with no earlier state raises.
  - The loop exits exactly when the state reports done. It then returns "no failed tasks", and dumps the single task's output on failure.
  - The delay resets on a changed summary, and otherwise becomes `min(delay * 1.5, max)`.
  - Each sleep uses the new delay.
- **Submit.RewriteUrlWithPrefix** (`rewrite_url_with_prefix`):
  - A url containing ':' is kept.
  - Any other url gets the prefix with one '/', minus one leading '/' of the url and one trailing '/' of the result.
  - An absolute prefix gives an absolute result.
  - It fails exactly when the result has "//" after index 4.
- **Submit.ExpandTaskSpec** (`expand_task_spec`):
  - It fails when a `downloads` value is missing or not a list.
  - Otherwise the result is `common`, with `helper_log`, `command` and `uploads` taken from the task when present.
  - `downloads` is the common list followed by the task's list.
  - `common` itself is a value, so it is never changed.

## Left out

- owner_lost (kubeque/job_queue.py:199-202): it calls `self.Task.scan`, which `JobQueue` does not have, and passes `_update_task_status` two of its four arguments. Every call raises before it writes anything.
- The thin delegations of `JobQueue` to the datastore: `add_node`, `get_node_reqs`, `update_node_reqs`, `get_pending_node_req_count`, `get_tasks_for_cluster`, `get_job`, `get_last_job`, `get_kube_job_spec` and `test_datastore_api`. The datastore is not part of this model. Where the modelled code reads the store, it reads the two maps directly.
- JobQueue.KillJob: `kill_job` and `reset` hand a mutator to the datastore's `update_job` (kubeque/job_queue.py:100-106, 126-130), which is not part of this model. The model assumes that on an unknown job `update_job` returns `(False, _)` and applies no mutator, and that otherwise it writes the mutated job. So `kill_job` fails (`assert ok` in `kill_cmd`), and `JobQueue.SetJobStatus` leaves the store as it was.
- Recovery.DeleteJob: `delete_job` (kubeque/job_queue.py:97-98) only hands the job id to the datastore. The model assumes that the datastore removes the job record and exactly the task records the job lists, and nothing else.
- `get_tasks_for_cluster` inside `kill_cmd` is an input: `clusterClaimed`, the claimed tasks the datastore reports for the job's cluster. `cluster.stop_cluster` is left out.
- `get_jobids` uses `fnmatch`. It is an abstract predicate on job ids; glob matching itself is not modelled.
- The job-pattern loops of `reset_cmd`, `kill_cmd` and `clean_cmd` are modelled one job at a time. `reset_cmd --resubmit` is left out (`_resubmit` is not part of this model).
- JobQueue.Reset: `reset` gathers the tasks status by status, in the order of `statuses_to_clear`. The model lists them in job order instead. The set reset and the count are the same either way, but the order of the writes is not modelled. `statuses_to_clear` is a list in Python, and a status named twice would list, reset and count its tasks twice. The model takes a set, so such duplicates are not modelled. Every caller (kubeque/main.py:66-69) passes distinct statuses.
- `ResizeCluster` and `GetPreempted` (kubeque/resize_cluster.py) are not part of this model. Their answers and faults are inputs of a pass.
- `log_monitor.poll` is an opaque effect. The log client and its gRPC streaming are I/O.
- `time.sleep` becomes the delay carried by the `Sleep` action. `time.time` readings are parameters.
- Watch.Step: `poll_delay` is a Python float (kubeque/watch.py:66, 84), but `Watch.NextDelay` and every delay of a pass are exact reals. The binary rounding of `poll_delay * 1.5` is not modelled: with an initial delay of 0.1, Python's second delay is 0.15000000000000002 and the model's is 0.15. No branch of the loop depends on the delay's value.
- The `KeyboardInterrupt` handler of `watch` and its `sys.exit(1)` are left out, and so is all logging except the summary line, which the loop's state depends on.
- Watch.ResetAll: a fault inside the preemption step is injected after a chosen number of resets. Where exactly a real exception would arise inside `reset_task` is not modelled.
- Submit.ParseInt: `int()` here accepts an optional sign and decimal digits. Python's acceptance of surrounding whitespace and of `_` between digits is not modelled.
- Submit.Preemptible: `lower()` is modelled only for the values that matter ('y', 'n', 'Y', 'N'). Other text is compared unfolded, and it fails either way.
- Submit.ExpandTaskSpec: `list.extend` accepts any iterable. The model accepts only a list and reports anything else as a type error.
- Submit.RewriteUrlInDict: a value under the key that is not a string is reported as a type error. Python would fail on it later, or behave differently.
- `rewrite_downloads`, `os.path.normpath`, `_add_name_pair_to_list` and `expand_files_to_upload` are left out: file system and CAS uploads.
- Json.Value: a float is carried by its `repr` text, which is also what `str` prints. Two floats compare equal exactly when their texts are equal, so `0.0 == -0.0` and a NaN's inequality with itself are not modelled. No modelled code compares two floats.
- Records.Flatten: `str(v)` of a value inside a list is rendered with simplified `repr` quoting. Escape sequences are not modelled.
- The CSV writer's quoting and the JSON writer are serialisation, and are left out. `Records.WriteCsv` gives the header and cell strings handed to `csv.writer`.
- Records.ProjectInto: `project` shares the record's nested dictionaries with its result, so a later `_set` through a copied dictionary writes into the record too. The model keeps the paths of the shared dictionaries and applies each such write to its copy of the record as well. Every field is read from the record as the writes have left it. `project` does not return that record, because `process_records` never reads the records again.
- `to_record` (`attr.asdict` plus the fetch of the task spec), `write`, `list_params_cmd`, `status_cmd`, `fetch_cmd_` and `dumpjob_cmd` are I/O.
- The `params_only` projection in `list_tasks` is dead code. It assigns `records` at sparklespray/list.py:84, but sparklespray/list.py:86 writes `filtered`.
- `_parse_mem_limit` and `_parse_cpu_request` parse floats. `_make_cluster_name` and `new_job_id` use hashing, randomness and the clock.
- Records.FlattenLeaves: only one direction is proved, that every flattened item comes from a leaf. The converse, that every leaf under a non-empty path yields an item, is not stated.
- The Go consumer, the protobuf definitions and the certificate handling are outside the modelled core.

## Findings

| source | as written | input that shows it | evidently intended | confidence | as-written member | corrected member |
|---|---|---|---|---|---|---|
| kubeque/main.py:241-246 | `_is_complete` sets `all_terminal = True` when it meets a non-terminal status, so it returns True for every input | `{"pending": 1}`: a job with one pending task reads as complete | `all_terminal = False` on a non-terminal status, so complete exactly when every counted status is failed or complete | not executed | Summary.IsCompleteAsWrittenAcceptsPending | Summary.IsComplete |

=== FILE: autoscale.dfy ===
/** `NodeRespawn` of kubeque/main.py: tops the cluster up to the number of
    active tasks, within a budget of node restarts fixed when it is created.

    The three callbacks become inputs: the `TasksStatus` snapshot of the tick,
    the cluster's running count and the number of pending node requests. The
    add-node callback becomes the `Added(n)` outcome. */
module Autoscale {
  import opened Wrappers

  /** A `TasksStatus` object. `TasksStatus` defines no `__eq__`, so the source's
      `==` on snapshots is object identity: `ref` names the object. */
  datatype Snapshot = Snapshot(ref: nat, activeTasks: nat)

  datatype NodeRespawn = NodeRespawn(maxRestarts: nat, nodesAdded: int, maxNodes: Option<int>, last: Option<Snapshot>)

  /** What one `reconcile_node_count` call did, when it did not raise. */
  datatype Outcome =
    | SameSnapshot        // the snapshot is the one seen last time: nothing to do
    | NoDeficit           // enough nodes run or are requested
    | Added(count: int)   // `add_node_callback(count)` was called

  /** The restart budget: nodes added so far never exceed `max_restarts`. */
  predicate WithinBudget(n: NodeRespawn) {
    0 <= n.nodesAdded <= n.maxRestarts
  }

  function Min(a: int, b: int): int {
    if a <= b then a else b
  }

  /** `NodeRespawn(...)`: the budget is the active-task count at creation. */
  function Init(initial: Snapshot, maxNodes: Option<int>): (r: NodeRespawn)
    ensures WithinBudget(r) && r.nodesAdded == 0
    ensures r.maxRestarts == initial.activeTasks && r.maxNodes == maxNodes && r.last == None
  {
    NodeRespawn(initial.activeTasks, 0, maxNodes, None)
  }

  /** `reset_added_count()`: the whole budget is available again. */
  function ResetAddedCount(n: NodeRespawn): (r: NodeRespawn)
    ensures WithinBudget(r) && r.nodesAdded == 0
    ensures r.maxRestarts == n.maxRestarts && r.maxNodes == n.maxNodes && r.last == n.last
  {
    n.(nodesAdded := 0)
  }

  /** The nodes the snapshot calls for: its active tasks, capped by `max_nodes` when set. */
  function Needed(n: NodeRespawn, snapshot: Snapshot): (r: int)
    ensures r <= snapshot.activeTasks
    ensures n.maxNodes.Some? ==> r <= n.maxNodes.value
    ensures r == snapshot.activeTasks || (n.maxNodes.Some? && r == n.maxNodes.value)
  {
    match n.maxNodes
    case None => snapshot.activeTasks
    case Some(m) => Min(m, snapshot.activeTasks)
  }

  /** `reconcile_node_count(add_node_callback)`. The new state comes back even
      when the call raises, because `last_cluster_status` is stored first. */
  function Reconcile(n: NodeRespawn, snapshot: Snapshot, running: int, pendingRequests: int): (r: (NodeRespawn, Result<Outcome>))
    ensures WithinBudget(n) ==> WithinBudget(r.0)
    ensures n.last == Some(snapshot) ==> r == (n, Success(SameSnapshot))
    ensures n.last != Some(snapshot) ==> r.0.last == Some(snapshot)
    ensures r.0.maxRestarts == n.maxRestarts && r.0.maxNodes == n.maxNodes
    ensures r.1.Success? && r.1.value.Added? ==>
      var deficit := Needed(n, snapshot) - (running + pendingRequests);
      && deficit > 0
      && r.1.value.count == Min(deficit, n.maxRestarts - n.nodesAdded)
      && r.0.nodesAdded == n.nodesAdded + r.1.value.count
    ensures WithinBudget(n) && r.1.Success? && r.1.value.Added? ==> r.1.value.count > 0
    ensures !(r.1.Success? && r.1.value.Added?) ==> r.0.nodesAdded == n.nodesAdded
    ensures WithinBudget(n) ==> (r.1.Failure? <==>
      n.last != Some(snapshot) && Needed(n, snapshot) > running + pendingRequests && n.nodesAdded == n.maxRestarts)
    ensures r.1.Failure? ==> r.1.error == RestartBudgetExhausted(Needed(n, snapshot) - (running + pendingRequests), n.maxRestarts)
    ensures WithinBudget(n) && n.last != Some(snapshot) && Needed(n, snapshot) > running + pendingRequests && n.nodesAdded < n.maxRestarts ==>
      r.1 == Success(Added(Min(Needed(n, snapshot) - (running + pendingRequests), n.maxRestarts - n.nodesAdded)))
    ensures n.last != Some(snapshot) && Needed(n, snapshot) <= running + pendingRequests ==>
      r == (n.(last := Some(snapshot)), Success(NoDeficit))
  {
    if n.last == Some(snapshot) then (n, Success(SameSnapshot))
    else
      var needed := Needed(n, snapshot);
      var runningCount := running + pendingRequests;
      var n1 := n.(last := Some(snapshot));
      if needed > runningCount then
        var toAdd := needed - runningCount;
        var capped := Min(toAdd, n.maxRestarts - n.nodesAdded);
        if capped == 0 then (n1, Failure(RestartBudgetExhausted(toAdd, n.maxRestarts)))
        else (n1.(nodesAdded := n.nodesAdded + capped), Success(Added(capped)))
      else (n1, Success(NoDeficit))
  }

  /** The inputs of one tick: the snapshot, the running count and the pending requests. */
  datatype Poll = Poll(snapshot: Snapshot, running: int, pendingRequests: int)

  function AddedBy(o: Result<Outcome>): nat {
    if o.Success? && o.value.Added? && o.value.count > 0 then o.value.count else 0
  }

  /** A run of reconciles, one per poll, as the watch loop makes them: the
      final state and the outcome of every call. */
  method ReconcileAll(n0: NodeRespawn, polls: seq<Poll>) returns (n: NodeRespawn, outcomes: seq<Result<Outcome>>)
    requires WithinBudget(n0)
    ensures WithinBudget(n)
    ensures |outcomes| == |polls|
    ensures n.maxRestarts == n0.maxRestarts
    ensures n.nodesAdded == n0.nodesAdded + TotalAdded(outcomes)
    ensures TotalAdded(outcomes) <= n0.maxRestarts - n0.nodesAdded
  {
    n := n0;
    outcomes := [];
    var i := 0;
    while i < |polls|
      invariant 0 <= i <= |polls| && |outcomes| == i
      invariant WithinBudget(n) && n.maxRestarts == n0.maxRestarts
      invariant n.nodesAdded == n0.nodesAdded + TotalAdded(outcomes)
    {
      var p := polls[i];
      var r := Reconcile(n, p.snapshot, p.running, p.pendingRequests);
      TotalAddedAppend(outcomes, r.1);
      n := r.0;
      outcomes := outcomes + [r.1];
      i := i + 1;
    }
  }

  /** The nodes a run of calls asked for in total. */
  function TotalAdded(outcomes: seq<Result<Outcome>>): nat {
    if |outcomes| == 0 then 0 else TotalAdded(outcomes[..|outcomes| - 1]) + AddedBy(outcomes[|outcomes| - 1])
  }

  lemma TotalAddedAppend(outcomes: seq<Result<Outcome>>, o: Result<Outcome>)
    ensures TotalAdded(outcomes + [o]) == TotalAdded(outcomes) + AddedBy(o)
  {
    assert (outcomes + [o])[..|outcomes|] == outcomes;
  }

  /** Once the budget is spent, a fresh snapshot that still shows a deficit raises. */
  lemma SpentBudgetRaises(n: NodeRespawn, snapshot: Snapshot, running: int, pendingRequests: int)
    requires WithinBudget(n) && n.nodesAdded == n.maxRestarts
    requires n.last != Some(snapshot) && Needed(n, snapshot) > running + pendingRequests
    ensures Reconcile(n, snapshot, running, pendingRequests).1.Failure?
  {
  }

  /** With budget 5 of which 4 are spent, a deficit of 3 adds one node and
      spends the budget; the next deficit raises. */
  lemma BudgetExample()
    ensures var n := NodeRespawn(5, 4, None, None);
      var r := Reconcile(n, Snapshot(1, 3), 0, 0);
      && r.1 == Success(Added(1)) && r.0.nodesAdded == 5
      && Reconcile(r.0, Snapshot(2, 1), 0, 0).1.Failure?
  {
  }
}

=== FILE: collections.dfy ===
/** Sequence utilities the modelled code uses implicitly: list
    comprehensions with an `if` (filter), `sort()` on strings or on records
    keyed by a string, and `set(...)` collapsing duplicates. */
module Collections {
  import opened Strings

  /** `[x for x in s if p(x)]`. */
  function Filter<T>(s: seq<T>, p: T -> bool): (r: seq<T>)
    ensures |r| <= |s|
    ensures forall k :: 0 <= k < |r| ==> p(r[k]) && r[k] in s
    ensures forall x :: x in s && p(x) ==> x in r
  {
    if |s| == 0 then []
    else (if p(s[0]) then [s[0]] else []) + Filter(s[1..], p)
  }

  /** Filtering keeps the relative order: it distributes over concatenation. */
  lemma {:induction false} FilterConcat<T>(a: seq<T>, b: seq<T>, p: T -> bool)
    ensures Filter(a + b, p) == Filter(a, p) + Filter(b, p)
  {
    if |a| > 0 {
      FilterConcat(a[1..], b, p);
      assert (a + b)[0] == a[0] && (a + b)[1..] == a[1..] + b;
    } else {
      assert a + b == b;
    }
  }

  /** A filter that keeps everything is the identity. */
  lemma {:induction false} FilterAll<T>(s: seq<T>, p: T -> bool)
    requires forall k :: 0 <= k < |s| ==> p(s[k])
    ensures Filter(s, p) == s
  {
    if |s| > 0 {
      FilterAll(s[1..], p);
    }
  }

  predicate SortedBy<T>(s: seq<T>, key: T -> string) {
    forall i, j :: 0 <= i < j < |s| ==> LessEq(key(s[i]), key(s[j]))
  }

  predicate NoDuplicates<T(==)>(s: seq<T>) {
    forall x | x in s :: multiset(s)[x] == 1
  }

  /** One insertion step of an insertion sort. */
  function Insert<T>(x: T, s: seq<T>, key: T -> string): (r: seq<T>)
    ensures multiset(r) == multiset(s) + multiset{x}
    ensures |r| == |s| + 1
  {
    if |s| == 0 then [x]
    else if LessEq(key(x), key(s[0])) then [x] + s
    else
      assert s == [s[0]] + s[1..];
      [s[0]] + Insert(x, s[1..], key)
  }

  /** `sorted(s, key=key)`. */
  function SortBy<T>(s: seq<T>, key: T -> string): (r: seq<T>)
    ensures multiset(r) == multiset(s)
    ensures |r| == |s|
  {
    if |s| == 0 then []
    else
      assert s == [s[0]] + s[1..];
      Insert(s[0], SortBy(s[1..], key), key)
  }

  lemma {:induction false} InsertSorted<T>(x: T, s: seq<T>, key: T -> string)
    requires SortedBy(s, key)
    ensures SortedBy(Insert(x, s, key), key)
  {
    if |s| > 0 {
      if LessEq(key(x), key(s[0])) {
        InsertAtFront(x, s, key);
      } else {
        LessEqTotal(key(x), key(s[0]));
        SortedTail(s, key);
        InsertSorted(x, s[1..], key);
        InsertBehind(x, s, key);
      }
    }
  }

  lemma InsertAtFront<T>(x: T, s: seq<T>, key: T -> string)
    requires SortedBy(s, key) && |s| > 0 && LessEq(key(x), key(s[0]))
    ensures SortedBy([x] + s, key)
  {
    forall j | 0 < j < |s|
      ensures LessEq(key(x), key(s[j]))
    {
      LessEqTransitive(key(x), key(s[0]), key(s[j]));
    }
    var r := [x] + s;
    forall i, j | 0 <= i < j < |r|
      ensures LessEq(key(r[i]), key(r[j]))
    {
      assert r[j] == s[j - 1];
      if i > 0 {
        assert r[i] == s[i - 1];
      }
    }
  }

  lemma InsertBehind<T>(x: T, s: seq<T>, key: T -> string)
    requires SortedBy(s, key) && |s| > 0 && LessEq(key(s[0]), key(x))
    requires SortedBy(Insert(x, s[1..], key), key)
    ensures SortedBy([s[0]] + Insert(x, s[1..], key), key)
  {
    var tail := s[1..];
    var t := Insert(x, tail, key);
    forall k | 0 <= k < |t|
      ensures LessEq(key(s[0]), key(t[k]))
    {
      assert t[k] in multiset(t);
      if t[k] != x {
        assert t[k] in multiset(tail);
        var j :| 0 <= j < |tail| && tail[j] == t[k];
        assert s[j + 1] == t[k];
      }
    }
    var r := [s[0]] + t;
    forall i, j | 0 <= i < j < |r|
      ensures LessEq(key(r[i]), key(r[j]))
    {
      if i > 0 {
        assert r[i] == t[i - 1] && r[j] == t[j - 1];
      }
    }
  }

  lemma {:induction false} SortBySorted<T>(s: seq<T>, key: T -> string)
    ensures SortedBy(SortBy(s, key), key)
  {
    if |s| > 0 {
      SortBySorted(s[1..], key);
      InsertSorted(s[0], SortBy(s[1..], key), key);
    }
  }

  /** Sorting a duplicate-free sequence keeps it duplicate-free. */
  lemma SortByNoDuplicates<T>(s: seq<T>, key: T -> string)
    requires NoDuplicates(s)
    ensures NoDuplicates(SortBy(s, key))
  {
    var r := SortBy(s, key);
    forall x | x in r
      ensures multiset(r)[x] == 1
    {
      assert x in multiset(r);
    }
  }

  /** `list(set(s))` in first-occurrence order. */
  function Dedup<T(==)>(s: seq<T>): (r: seq<T>)
    ensures forall x | x in s :: x in r
    ensures forall x | x in r :: x in s
    ensures NoDuplicates(r)
  {
    if |s| == 0 then []
    else
      var r := Dedup(s[..|s| - 1]);
      var y := s[|s| - 1];
      assert s == s[..|s| - 1] + [y];
      if y in r then r
      else
        r + [y]
  }

  /** Sorting keeps exactly the elements it was given. */
  lemma SortByKeepsElements<T>(s: seq<T>, key: T -> string)
    ensures forall x :: x in SortBy(s, key) <==> x in s
  {
    forall x
      ensures x in SortBy(s, key) <==> x in s
    {
      assert x in SortBy(s, key) <==> x in multiset(SortBy(s, key));
      assert x in s <==> x in multiset(s);
    }
  }

  /** The identity key: strings sort as themselves. */
  function Self(l: string): string {
    l
  }

  /** `l = list(set(s)); l.sort()`: the distinct strings of `s` in order. */
  function SortedSet(s: seq<string>): (r: seq<string>)
    ensures SortedBy(r, Self)
    ensures NoDuplicates(r)
    ensures forall l :: l in r <==> l in s
  {
    var keys := Dedup(s);
    SortBySorted(keys, Self);
    SortByNoDuplicates(keys, Self);
    SortByKeepsElements(keys, Self);
    SortBy(keys, Self)
  }

  /** Sorted sequences with the same elements and distinct keys are equal:
      whatever algorithm Python's `sort()` uses, its result is this one. */
  lemma {:induction false} SortedUnique<T>(a: seq<T>, b: seq<T>, key: T -> string)
    requires SortedBy(a, key) && SortedBy(b, key)
    requires multiset(a) == multiset(b)
    requires forall x, y | x in a && y in a && key(x) == key(y) :: x == y
    ensures a == b
    decreases |a|
  {
    assert |b| == |multiset(b)| == |a|;
    if |a| > 0 {
      SameHead(a, b, key);
      SameTails(a, b);
      SortedTail(a, key);
      SortedTail(b, key);
      DistinctKeysTail(a, key);
      SortedUnique(a[1..], b[1..], key);
      assert a == [a[0]] + a[1..] && b == [b[0]] + b[1..];
    }
  }

  lemma SameTails<T>(a: seq<T>, b: seq<T>)
    requires |a| > 0 && |b| > 0 && a[0] == b[0] && multiset(a) == multiset(b)
    ensures multiset(a[1..]) == multiset(b[1..])
  {
    var h := [a[0]];
    assert a == h + a[1..];
    assert b == h + b[1..];
    assert multiset(a) == multiset(h) + multiset(a[1..]);
    assert multiset(b) == multiset(h) + multiset(b[1..]);
    forall x
      ensures multiset(a[1..])[x] == multiset(b[1..])[x]
    {
      assert multiset(a)[x] == multiset(h)[x] + multiset(a[1..])[x];
      assert multiset(b)[x] == multiset(h)[x] + multiset(b[1..])[x];
    }
  }

  lemma SortedTail<T>(a: seq<T>, key: T -> string)
    requires |a| > 0 && SortedBy(a, key)
    ensures SortedBy(a[1..], key)
  {
    assert forall i, j :: 0 <= i < j < |a| - 1 ==> a[1..][i] == a[i + 1] && a[1..][j] == a[j + 1];
  }

  lemma DistinctKeysTail<T>(a: seq<T>, key: T -> string)
    requires |a| > 0 && forall x, y | x in a && y in a && key(x) == key(y) :: x == y
    ensures forall x, y | x in a[1..] && y in a[1..] && key(x) == key(y) :: x == y
  {
    assert forall x | x in a[1..] :: x in a;
  }

  /** Sorted sequences with the same elements and distinct keys start alike. */
  lemma SameHead<T>(a: seq<T>, b: seq<T>, key: T -> string)
    requires SortedBy(a, key) && SortedBy(b, key)
    requires multiset(a) == multiset(b) && |a| > 0
    requires forall x, y | x in a && y in a && key(x) == key(y) :: x == y
    ensures |b| > 0 && a[0] == b[0]
  {
    assert |b| == |multiset(b)| == |a|;
    assert a[0] in multiset(b);
    assert b[0] in multiset(a);
    var i :| 0 <= i < |b| && b[i] == a[0];
    var j :| 0 <= j < |a| && a[j] == b[0];
    if i != 0 && j != 0 {
      assert LessEq(key(a[0]), key(a[j]));
      assert LessEq(key(b[0]), key(b[i]));
      LessEqAntisymmetric(key(a[0]), key(b[0]));
    }
  }
}

=== FILE: job_queue.dfy ===
/** The task/job records and the `JobQueue` operations of
    kubeque/job_queue.py over an abstract store.

    The datastore is a pair of maps (task id -> Task, job id -> Job). A query
    for the tasks of a job yields the tasks the job lists, in its order. The
    store's optimistic-concurrency answer to a task write is a parameter:
    `accepted` for one write, or the set `lost` of task ids whose write loses
    its race. A rejected write leaves the stored record as it was. */
module JobQueue {
  import opened Wrappers
  import opened Strings
  import opened Collections

  datatype TaskStatus = Pending | Claimed | Complete | Failed | Killed | Lost

  /** The string the datastore holds for a status. */
  function StatusName(s: TaskStatus): string {
    match s
    case Pending => "pending"
    case Claimed => "claimed"
    case Complete => "complete"
    case Failed => "failed"
    case Killed => "killed"
    case Lost => "lost"
  }

  datatype JobStatus = Submitted | JobKilled

  /** What a history entry records: a status the task entered, or the "reset" marker. */
  datatype Mark = Entered(status: TaskStatus) | ResetMark

  datatype HistoryEntry = HistoryEntry(timestamp: int, mark: Mark, failureReason: Option<string>)

  /** `exitCode` holds `str(exit_code)` of a recorded exit code. */
  datatype Task = Task(
    taskId: string,
    taskIndex: nat,
    jobId: string,
    status: TaskStatus,
    owner: Option<string>,
    args: string,
    history: seq<HistoryEntry>,
    commandResultUrl: string,
    cluster: string,
    monitorAddress: Option<string>,
    exitCode: Option<string>,
    failureReason: Option<string>)

  datatype Job = Job(
    jobId: string,
    tasks: seq<string>,
    spec: string,
    metadata: map<string, string>,
    cluster: string,
    status: JobStatus,
    submitTime: int)

  datatype StoreState = Store(jobs: map<string, Job>, tasks: map<string, Task>)

  /** The datastore keys every task record by its own id. */
  predicate Keyed(s: StoreState) {
    forall id | id in s.tasks :: s.tasks[id].taskId == id
  }

  type Store = s: StoreState | Keyed(s) witness Store(map[], map[])

  /** Tasks are written in transactions of at most this many records. */
  const BatchSize: nat := 300

  /** `"{}.{}".format(job_id, task_index)`. */
  function TaskId(jobId: string, index: nat): string {
    jobId + "." + NatToString(index)
  }

  /** Two tasks of one job never share an id. */
  lemma TaskIdInjective(jobId: string, i: nat, k: nat)
    requires TaskId(jobId, i) == TaskId(jobId, k)
    ensures i == k
  {
    var n := |jobId| + 1;
    assert NatToString(i) == TaskId(jobId, i)[n..];
    assert NatToString(k) == TaskId(jobId, k)[n..];
    NatToStringInjective(i, k);
  }

  /** The ownership invariant the recovery code restores: a task has an owner
      exactly while it is claimed. */
  predicate OwnerMatchesClaim(t: Task) {
    t.owner.Some? <==> t.status == Claimed
  }

  /** The tasks with the given ids, in that order, skipping ids the store lacks. */
  function TasksByIds(s: Store, ids: seq<string>): (r: seq<Task>)
    ensures |r| <= |ids|
    ensures forall k :: 0 <= k < |r| ==> r[k].taskId in s.tasks && s.tasks[r[k].taskId] == r[k]
    ensures forall id | id in ids && id in s.tasks :: s.tasks[id] in r
    ensures (forall id | id in ids :: id in s.tasks) ==>
      |r| == |ids| && forall k :: 0 <= k < |r| ==> r[k] == s.tasks[ids[k]]
  {
    if |ids| == 0 then []
    else
      var rest := TasksByIds(s, ids[1..]);
      assert forall id | id in ids :: id == ids[0] || id in ids[1..];
      if ids[0] in s.tasks then
        var r := [s.tasks[ids[0]]] + rest;
        assert forall k :: 1 <= k < |r| ==> r[k] == rest[k - 1];
        r
      else rest
  }

  /** `storage.get_tasks(job_id)`: the job's tasks in submission order. */
  function JobTasks(s: Store, jobId: string): seq<Task> {
    if jobId in s.jobs then TasksByIds(s, s.jobs[jobId].tasks) else []
  }

  /** `storage.get_tasks(job_id, status=st)`. */
  function JobTasksWithStatus(s: Store, jobId: string, st: TaskStatus): (r: seq<Task>)
    ensures forall k :: 0 <= k < |r| ==> r[k].status == st && r[k] in JobTasks(s, jobId)
    ensures forall t | t in JobTasks(s, jobId) && t.status == st :: t in r
  {
    Filter(JobTasks(s, jobId), (t: Task) => t.status == st)
  }

  /** Writes a task record through the compare-and-set primitive. */
  function Write(s: Store, t: Task, accepted: bool): Store {
    if accepted then s.(tasks := s.tasks[t.taskId := t]) else s
  }

  /** Every field except owner, status and history. */
  predicate SameButState(a: Task, b: Task) {
    && a.taskId == b.taskId && a.taskIndex == b.taskIndex && a.jobId == b.jobId
    && a.args == b.args && a.commandResultUrl == b.commandResultUrl && a.cluster == b.cluster
    && a.monitorAddress == b.monitorAddress && a.exitCode == b.exitCode
    && a.failureReason == b.failureReason
  }

  /** The record `_reset_task` writes for the task `t` it was handed. */
  function ResetRecord(t: Task, status: TaskStatus, now: int): (r: Task)
    ensures r.owner == None && r.status == status
    ensures |r.history| == |t.history| + 1 && r.history[..|t.history|] == t.history
    ensures r.history[|t.history|].mark == ResetMark
    ensures SameButState(r, t)
  {
    t.(owner := None, status := status, history := t.history + [HistoryEntry(now, ResetMark, None)])
  }

  /** `_reset_task(task, status)`: the store's verdict on the write is ignored. */
  function ResetTask(s: Store, t: Task, status: TaskStatus, now: int, accepted: bool): (r: Store)
    ensures r.jobs == s.jobs
    ensures accepted ==> r.tasks == s.tasks[t.taskId := ResetRecord(t, status, now)]
    ensures !accepted ==> r == s
  {
    Write(s, ResetRecord(t, status, now), accepted)
  }

  /** Resetting a stored task keeps the set of task ids. */
  lemma ResetTaskKeys(s: Store, taskId: string, status: TaskStatus, now: int, accepted: bool)
    requires taskId in s.tasks
    ensures ResetTask(s, s.tasks[taskId], status, now, accepted).tasks.Keys == s.tasks.Keys
  {
  }

  /** `reset_task(task_id, status)`: reads the current record, then resets it. */
  function ResetTaskById(s: Store, taskId: string, status: TaskStatus, now: int, accepted: bool): (r: Result<Store>)
    ensures r.Failure? <==> taskId !in s.tasks
    ensures r.Failure? ==> r.error == NoSuchTask(taskId)
    ensures r.Success? ==> r.value.jobs == s.jobs && r.value.tasks.Keys == s.tasks.Keys
    ensures r.Success? && accepted ==>
      r.value.tasks[taskId] == ResetRecord(s.tasks[taskId], status, now)
    ensures r.Success? ==> forall id | id in s.tasks && id != taskId :: r.value.tasks[id] == s.tasks[id]
  {
    if taskId !in s.tasks then Failure(NoSuchTask(taskId))
    else Success(ResetTask(s, s.tasks[taskId], status, now, accepted))
  }

  /** A task listing read from `s`: every entry is the stored record under its id. */
  predicate ReadFrom(s: Store, ts: seq<Task>) {
    forall k :: 0 <= k < |ts| ==> ts[k].taskId in s.tasks && s.tasks[ts[k].taskId] == ts[k]
  }

  /** Whether the loop over `ts` writes task `id` (its write not lost). */
  predicate Touches(ts: seq<Task>, lost: set<string>, id: string) {
    id !in lost && exists k :: 0 <= k < |ts| && ts[k].taskId == id
  }

  /** Copies read from one store: entries with the same id are the same record. */
  predicate Consistent(ts: seq<Task>) {
    forall i, j :: 0 <= i < |ts| && 0 <= j < |ts| && ts[i].taskId == ts[j].taskId ==> ts[i] == ts[j]
  }

  lemma ConsistentTail(ts: seq<Task>)
    requires |ts| > 0 && Consistent(ts)
    ensures Consistent(ts[1..])
  {
    assert forall j | 0 <= j < |ts| - 1 :: ts[1..][j] == ts[j + 1];
  }

  lemma ReadFromConsistent(s: Store, ts: seq<Task>)
    requires ReadFrom(s, ts)
    ensures Consistent(ts)
  {
  }

  /** `for task in ts: self._reset_task(task, status)`. */
  function ResetEach(s: Store, ts: seq<Task>, status: TaskStatus, now: int, lost: set<string>): (r: Store)
    requires forall k :: 0 <= k < |ts| ==> ts[k].taskId in s.tasks
    ensures r.jobs == s.jobs && r.tasks.Keys == s.tasks.Keys
    decreases |ts|
  {
    if |ts| == 0 then s
    else
      var t := ts[0];
      ResetEach(ResetTask(s, t, status, now, t.taskId !in lost), ts[1..], status, now, lost)
  }

  /** A task of the listing whose write is accepted ends up reset. */
  lemma {:induction false} ResetEachResets(s: Store, ts: seq<Task>, status: TaskStatus, now: int, lost: set<string>, k: nat)
    requires forall j :: 0 <= j < |ts| ==> ts[j].taskId in s.tasks
    requires Consistent(ts)
    requires k < |ts| && ts[k].taskId !in lost
    ensures ResetEach(s, ts, status, now, lost).tasks[ts[k].taskId] == ResetRecord(ts[k], status, now)
    decreases |ts|
  {
    var t := ts[0];
    var s1 := ResetTask(s, t, status, now, t.taskId !in lost);
    var rest := ts[1..];
    if k > 0 {
      ResetEachResets(s1, rest, status, now, lost, k - 1);
    } else if Touches(rest, lost, t.taskId) {
      var j :| 0 <= j < |rest| && rest[j].taskId == t.taskId;
      assert rest[j] == ts[j + 1] == t;
      ResetEachResets(s1, rest, status, now, lost, j);
    } else {
      ResetEachKeeps(s1, rest, status, now, lost, t.taskId);
    }
  }

  /** A task the listing does not (successfully) write keeps its record. */
  lemma {:induction false} ResetEachKeeps(s: Store, ts: seq<Task>, status: TaskStatus, now: int, lost: set<string>, id: string)
    requires forall j :: 0 <= j < |ts| ==> ts[j].taskId in s.tasks
    requires id in s.tasks && !Touches(ts, lost, id)
    ensures ResetEach(s, ts, status, now, lost).tasks[id] == s.tasks[id]
    decreases |ts|
  {
    if |ts| > 0 {
      var t := ts[0];
      var s1 := ResetTask(s, t, status, now, t.taskId !in lost);
      var rest := ts[1..];
      forall j | 0 <= j < |rest|
        ensures id in lost || rest[j].taskId != id
      {
        assert rest[j] == ts[j + 1];
      }
      assert s1.tasks[id] == s.tasks[id];
      ResetEachKeeps(s1, rest, status, now, lost, id);
    }
  }

  /** Whether `reset` picks task `t`: its status is one to clear and, when an
      owner filter is given, the task has that owner. */
  predicate ResetSelects(t: Task, owner: Option<string>, statuses: set<TaskStatus>) {
    t.status in statuses && (owner.None? || owner == t.owner)
  }

  /** The statuses `reset` clears when the caller names none. */
  const DefaultStatusesToClear: set<TaskStatus> := {Claimed, Failed}

  /** The job record after `update_job(job_id, mutator)` sets its status. */
  function SetJobStatus(jobs: map<string, Job>, jobId: string, status: JobStatus): (r: map<string, Job>)
    ensures r.Keys == jobs.Keys
    ensures jobId in jobs ==> r[jobId] == jobs[jobId].(status := status)
    ensures forall j | j in jobs && j != jobId :: r[j] == jobs[j]
  {
    if jobId in jobs then jobs[jobId := jobs[jobId].(status := status)] else jobs
  }

  /** `reset(jobid, owner, statuses_to_clear)`: the new store and the number
      of tasks it reset (counted whether or not the store accepted each write). */
  function Reset(s: Store, jobId: string, owner: Option<string>, statuses: set<TaskStatus>, now: int, lost: set<string>): (r: (Store, nat))
    ensures r.1 == |Filter(JobTasks(s, jobId), (t: Task) => ResetSelects(t, owner, statuses))|
    ensures r.1 <= |JobTasks(s, jobId)|
    ensures r.0.tasks.Keys == s.tasks.Keys
    ensures r.0.jobs == SetJobStatus(s.jobs, jobId, Submitted)
  {
    var selected := Filter(JobTasks(s, jobId), (t: Task) => ResetSelects(t, owner, statuses));
    var s1 := ResetEach(s, selected, Pending, now, lost);
    (s1.(jobs := SetJobStatus(s1.jobs, jobId, Submitted)), |selected|)
  }

  /** After `reset`, a selected task whose write was accepted is pending, unowned,
      and carries one more history entry, a "reset". */
  lemma ResetResetsSelected(s: Store, jobId: string, owner: Option<string>, statuses: set<TaskStatus>, now: int, lost: set<string>, t: Task)
    requires t in JobTasks(s, jobId) && ResetSelects(t, owner, statuses) && t.taskId !in lost
    ensures Reset(s, jobId, owner, statuses, now, lost).0.tasks[t.taskId] == ResetRecord(t, Pending, now)
  {
    var selected := Filter(JobTasks(s, jobId), (t: Task) => ResetSelects(t, owner, statuses));
    assert ReadFrom(s, selected);
    var k :| 0 <= k < |selected| && selected[k] == t;
    ResetEachResets(s, selected, Pending, now, lost, k);
  }

  /** `reset` leaves alone every task it does not select (another job's, one with
      a status it does not clear, one with a different owner) and every task
      whose write the store rejected. */
  lemma ResetKeepsUnselected(s: Store, jobId: string, owner: Option<string>, statuses: set<TaskStatus>, now: int, lost: set<string>, id: string)
    requires id in s.tasks
    requires id in lost || s.tasks[id] !in JobTasks(s, jobId) || !ResetSelects(s.tasks[id], owner, statuses)
    ensures Reset(s, jobId, owner, statuses, now, lost).0.tasks[id] == s.tasks[id]
  {
    var selected := Filter(JobTasks(s, jobId), (t: Task) => ResetSelects(t, owner, statuses));
    forall k | 0 <= k < |selected|
      ensures id in lost || selected[k].taskId != id
    {
      assert selected[k] in JobTasks(s, jobId);
    }
    ResetEachKeeps(s, selected, Pending, now, lost, id);
  }

  /** `kill_job(job_id)`: flips the job's status; tasks are untouched. */
  function KillJob(s: Store, jobId: string): (r: Result<(Store, Job)>)
    ensures r.Failure? <==> jobId !in s.jobs
    ensures r.Success? ==> r.value.0.tasks == s.tasks && r.value.1.status == JobKilled
    ensures r.Success? ==> r.value.0.jobs == SetJobStatus(s.jobs, jobId, JobKilled)
    ensures r.Success? ==> r.value.1 == r.value.0.jobs[jobId]
  {
    if jobId !in s.jobs then Failure(NoSuchJob(jobId))
    else
      var jobs := SetJobStatus(s.jobs, jobId, JobKilled);
      Success((s.(jobs := jobs), jobs[jobId]))
  }

  /** Killing an already killed job changes nothing. */
  lemma KillJobIdempotent(s: Store, jobId: string)
    requires jobId in s.jobs
    ensures KillJob(KillJob(s, jobId).value.0, jobId).value.0 == KillJob(s, jobId).value.0
  {
  }

  /** The statuses of a task listing, in order. */
  function Statuses(ts: seq<Task>): (r: seq<TaskStatus>)
    ensures |r| == |ts| && forall k :: 0 <= k < |ts| ==> r[k] == ts[k].status
  {
    seq(|ts|, k requires 0 <= k < |ts| => ts[k].status)
  }

  /** The `defaultdict` tally of `get_status_counts` over a task listing. */
  function StatusCounts(ts: seq<Task>): (counts: map<TaskStatus, nat>)
    ensures forall st :: st in counts <==> st in Statuses(ts)
    ensures forall st | st in counts :: counts[st] == multiset(Statuses(ts))[st] >= 1
  {
    if |ts| == 0 then map[]
    else
      var init := ts[..|ts| - 1];
      var c := StatusCounts(init);
      var st := ts[|ts| - 1].status;
      assert Statuses(ts) == Statuses(init) + [st];
      c[st := (if st in c then c[st] else 0) + 1]
  }

  /** `get_status_counts(job_id)`: one key per status some task of the job's
      listing has, mapped to the number of its tasks in that status. */
  function GetStatusCounts(s: Store, jobId: string): (r: map<TaskStatus, nat>)
    ensures forall st :: st in r <==> exists k :: 0 <= k < |JobTasks(s, jobId)| && JobTasks(s, jobId)[k].status == st
    ensures forall st | st in r :: r[st] == multiset(Statuses(JobTasks(s, jobId)))[st] >= 1
  {
    StatusCounts(JobTasks(s, jobId))
  }

  function CountOf(counts: map<TaskStatus, nat>, st: TaskStatus): nat {
    if st in counts then counts[st] else 0
  }

  function TotalCount(counts: map<TaskStatus, nat>): nat {
    CountOf(counts, Pending) + CountOf(counts, Claimed) + CountOf(counts, Complete)
    + CountOf(counts, Failed) + CountOf(counts, Killed) + CountOf(counts, Lost)
  }

  /** The counts add up to the number of tasks. */
  lemma StatusCountsTotal(ts: seq<Task>)
    ensures TotalCount(StatusCounts(ts)) == |ts|
  {
    var c := StatusCounts(ts);
    var m := multiset(Statuses(ts));
    assert forall st :: CountOf(c, st) == m[st];
    MultisetOfStatusesSize(Statuses(ts));
  }

  /** A multiset of statuses is as large as its six counts together. */
  lemma {:induction false} MultisetOfStatusesSize(xs: seq<TaskStatus>)
    ensures var m := multiset(xs);
      m[Pending] + m[Claimed] + m[Complete] + m[Failed] + m[Killed] + m[Lost] == |xs|
  {
    if |xs| > 0 {
      var init := xs[..|xs| - 1];
      MultisetOfStatusesSize(init);
      assert xs == init + [xs[|xs| - 1]];
      var x := xs[|xs| - 1];
      assert multiset(xs) == multiset(init) + multiset{x};
      match x
      case Pending =>
      case Claimed =>
      case Complete =>
      case Failed =>
      case Killed =>
      case Lost =>
    }
  }

  /** `_update_task_status(task_id, new_status, failure_reason, retcode)`. */
  function UpdateTaskStatus(s: Store, taskId: string, newStatus: TaskStatus, failureReason: Option<string>,
                            retcode: Option<string>, now: int, accepted: bool): (r: Result<Store>)
    ensures r.Success? <==> taskId in s.tasks && accepted
    ensures taskId !in s.tasks ==> r == Failure(NoSuchTask(taskId))
    ensures taskId in s.tasks && !accepted ==> r == Failure(ConcurrentUpdate(taskId))
    ensures r.Success? ==> r.value.jobs == s.jobs && r.value.tasks.Keys == s.tasks.Keys
    ensures r.Success? ==> forall id | id in s.tasks && id != taskId :: r.value.tasks[id] == s.tasks[id]
    ensures r.Success? ==>
      var was := s.tasks[taskId];
      var t := r.value.tasks[taskId];
      && t.owner == was.owner
      && t.status == newStatus && t.failureReason == failureReason && t.exitCode == retcode
      && t.history == was.history + [HistoryEntry(now, Entered(newStatus), failureReason)]
      && t.taskId == was.taskId && t.taskIndex == was.taskIndex && t.jobId == was.jobId
      && t.args == was.args && t.commandResultUrl == was.commandResultUrl
      && t.cluster == was.cluster && t.monitorAddress == was.monitorAddress
  {
    if taskId !in s.tasks then Failure(NoSuchTask(taskId))
    else
      var t := s.tasks[taskId];
      var t' := t.(history := t.history + [HistoryEntry(now, Entered(newStatus), failureReason)],
                   status := newStatus, failureReason := failureReason, exitCode := retcode);
      if accepted then Success(Write(s, t', true)) else Failure(ConcurrentUpdate(taskId))
  }

  /** The owner is not cleared on completion, so a completed task keeps its
      owner: the "owner iff claimed" invariant does not survive this path. */
  lemma UpdateTaskStatusKeepsOwner(s: Store, taskId: string, rc: Option<string>, now: int)
    requires taskId in s.tasks && s.tasks[taskId].status == Claimed && s.tasks[taskId].owner.Some?
    ensures var r := UpdateTaskStatus(s, taskId, Complete, None, rc, now, true);
      r.Success? && !OwnerMatchesClaim(r.value.tasks[taskId])
  {
  }

  predicate IsClaimed(t: Task) {
    t.status == Claimed
  }

  /** Every claimed task of the listing names its owner. */
  predicate OwnersKnown(listing: seq<Task>) {
    forall k :: 0 <= k < |listing| && IsClaimed(listing[k]) ==> listing[k].owner.Some?
  }

  /** `pairs` lists, in order, the id and the owner of each task of `claimed`. */
  predicate ListsClaims(pairs: seq<(string, string)>, claimed: seq<Task>) {
    |pairs| == |claimed| &&
    forall k :: 0 <= k < |claimed| ==> pairs[k].0 == claimed[k].taskId && claimed[k].owner == Some(pairs[k].1)
  }

  /** `get_claimed_task_ids()` over the store's listing of claimed tasks:
      (task id, owner) pairs; a claimed task without owner fails the assertion.
      So the listing succeeds exactly when every claimed task has an owner,
      and then pairs each claimed task, in order, with its owner. */
  function ClaimedTaskIds(listing: seq<Task>): (r: Result<seq<(string, string)>>)
    ensures r.Success? <==> OwnersKnown(listing)
    ensures r.Success? ==> ListsClaims(r.value, Filter(listing, IsClaimed))
  {
    if |listing| == 0 then Success([])
    else
      var rest := ClaimedTaskIds(listing[1..]);
      ClaimedConsSucceeds(listing, rest);
      var r := ClaimedCons(listing[0], rest);
      if r.Success? then
        ClaimedConsLists(listing, rest);
        r
      else r
  }

  /** One task in front of the pairs of the rest of the listing. */
  function ClaimedCons(t: Task, rest: Result<seq<(string, string)>>): Result<seq<(string, string)>> {
    var pairs :- rest;
    if !IsClaimed(t) then Success(pairs)
    else if t.owner.None? then Failure(AssertionFailed("claimed task has an owner"))
    else Success([(t.taskId, t.owner.value)] + pairs)
  }

  lemma ClaimedConsSucceeds(listing: seq<Task>, rest: Result<seq<(string, string)>>)
    requires |listing| > 0
    requires rest.Success? <==> OwnersKnown(listing[1..])
    ensures ClaimedCons(listing[0], rest).Success? <==> OwnersKnown(listing)
  {
    OwnersKnownCons(listing);
  }

  lemma ClaimedConsLists(listing: seq<Task>, rest: Result<seq<(string, string)>>)
    requires |listing| > 0 && ClaimedCons(listing[0], rest).Success?
    requires rest.Success? ==> ListsClaims(rest.value, Filter(listing[1..], IsClaimed))
    ensures ListsClaims(ClaimedCons(listing[0], rest).value, Filter(listing, IsClaimed))
  {
    var t := listing[0];
    if !IsClaimed(t) {
      assert ClaimedCons(t, rest) == rest;
      assert Filter(listing, IsClaimed) == Filter(listing[1..], IsClaimed);
    } else {
      var tail := Filter(listing[1..], IsClaimed);
      assert Filter(listing, IsClaimed) == [t] + tail;
      assert ClaimedCons(t, rest) == Success([(t.taskId, t.owner.value)] + rest.value);
      ListsClaimsCons(t, rest.value, tail);
    }
  }

  lemma OwnersKnownCons(listing: seq<Task>)
    requires |listing| > 0
    ensures OwnersKnown(listing) <==>
      (IsClaimed(listing[0]) ==> listing[0].owner.Some?) && OwnersKnown(listing[1..])
  {
    assert forall k :: 1 <= k < |listing| ==> listing[k] == listing[1..][k - 1];
  }

  lemma ListsClaimsCons(t: Task, pairs: seq<(string, string)>, claimed: seq<Task>)
    requires t.owner.Some? && ListsClaims(pairs, claimed)
    ensures ListsClaims([(t.taskId, t.owner.value)] + pairs, [t] + claimed)
  {
    assert forall k :: 1 <= k < |claimed| + 1 ==>
      ([(t.taskId, t.owner.value)] + pairs)[k] == pairs[k - 1] && ([t] + claimed)[k] == claimed[k - 1];
  }

  /** `get_jobids(pattern)`: the stored job ids the abstract `fnmatch` test accepts, in order. */
  function JobIdsMatching(ids: seq<string>, matches: string -> bool): (r: seq<string>)
    ensures forall x :: x in r <==> x in ids && matches(x)
  {
    Filter(ids, matches)
  }

  /** The job-id filter keeps the store's order: it distributes over concatenation. */
  lemma JobIdsMatchingOrder(a: seq<string>, b: seq<string>, matches: string -> bool)
    ensures JobIdsMatching(a + b, matches) == JobIdsMatching(a, matches) + JobIdsMatching(b, matches)
  {
    FilterConcat(a, b, matches);
  }

  /** The record `submit` creates for the task at `index`; `arg` is the pair
      (task spec url, command result url). */
  function NewTask(jobId: string, index: nat, arg: (string, string), cluster: string, now: int): (t: Task)
    ensures t.taskId == TaskId(jobId, index) && t.taskIndex == index && t.jobId == jobId
    ensures t.status == Pending && t.owner == None && OwnerMatchesClaim(t)
    ensures t.history == [HistoryEntry(now, Entered(Pending), None)]
    ensures t.args == arg.0 && t.commandResultUrl == arg.1 && t.cluster == cluster
  {
    Task(TaskId(jobId, index), index, jobId, Pending, None, arg.0,
         [HistoryEntry(now, Entered(Pending), None)], arg.1, cluster, None, None, None)
  }

  /** The tasks written by a sequence of batches, in order. */
  function Concat(bs: seq<seq<Task>>): seq<Task> {
    if |bs| == 0 then [] else Concat(bs[..|bs| - 1]) + bs[|bs| - 1]
  }

  /** The ids of the first `n` tasks of a job. */
  function NewIds(jobId: string, n: nat): set<string> {
    set i | 0 <= i < n :: TaskId(jobId, i)
  }

  /** What a completed `submit` leaves in the store for the job. */
  predicate SubmitDone(s: Store, jobId: string, args: seq<(string, string)>, spec: string,
                      metadata: map<string, string>, cluster: string, now: int, submitTime: int)
  {
    && jobId in s.jobs
    && var job := s.jobs[jobId];
    && job.jobId == jobId && job.spec == spec && job.metadata == metadata && job.cluster == cluster
    && job.status == Submitted && job.submitTime == submitTime
    && |job.tasks| == |args|
    && (forall i | 0 <= i < |args| :: job.tasks[i] == TaskId(jobId, i))
    && (forall i | 0 <= i < |args| ::
          TaskId(jobId, i) in s.tasks && s.tasks[TaskId(jobId, i)] == NewTask(jobId, i, args[i], cluster, now))
  }

  /** The task map after the first `n` tasks of a submission were written over `base`. */
  predicate Wrote(base: map<string, Task>, tasks: map<string, Task>, jobId: string,
                  args: seq<(string, string)>, n: nat, cluster: string, now: int)
  {
    && n <= |args|
    && tasks.Keys == base.Keys + NewIds(jobId, n)
    && (forall i | 0 <= i < n :: TaskId(jobId, i) in tasks && tasks[TaskId(jobId, i)] == NewTask(jobId, i, args[i], cluster, now))
    && (forall id | id in base && id !in NewIds(jobId, n) :: tasks[id] == base[id])
    && (forall id | id in tasks :: tasks[id].taskId == id)
  }

  /** Writing task `n` extends what has been written; earlier tasks keep their records. */
  lemma WroteStep(base: map<string, Task>, tasks: map<string, Task>, jobId: string,
                  args: seq<(string, string)>, n: nat, cluster: string, now: int)
    requires n < |args| && Wrote(base, tasks, jobId, args, n, cluster, now)
    ensures Wrote(base, tasks[TaskId(jobId, n) := NewTask(jobId, n, args[n], cluster, now)], jobId, args, n + 1, cluster, now)
  {
    var t := NewTask(jobId, n, args[n], cluster, now);
    NewIdsStep(jobId, n);
    WroteNewStep(tasks, jobId, args, n, cluster, now);
    WroteKeptStep(base, tasks, jobId, n, t);
  }

  /** The first `n + 1` new tasks are in place once task `n` is written. */
  lemma WroteNewStep(tasks: map<string, Task>, jobId: string, args: seq<(string, string)>, n: nat, cluster: string, now: int)
    requires n < |args|
    requires forall i | 0 <= i < n :: TaskId(jobId, i) in tasks && tasks[TaskId(jobId, i)] == NewTask(jobId, i, args[i], cluster, now)
    ensures var tasks' := tasks[TaskId(jobId, n) := NewTask(jobId, n, args[n], cluster, now)];
      forall i | 0 <= i < n + 1 :: TaskId(jobId, i) in tasks' && tasks'[TaskId(jobId, i)] == NewTask(jobId, i, args[i], cluster, now)
  {
    NewIdsStep(jobId, n);
    assert forall i | 0 <= i < n :: TaskId(jobId, i) in NewIds(jobId, n);
  }

  /** Writing task `n` leaves every record that is not one of the new tasks as it was. */
  lemma WroteKeptStep(base: map<string, Task>, tasks: map<string, Task>, jobId: string, n: nat, t: Task)
    requires tasks.Keys == base.Keys + NewIds(jobId, n)
    requires forall id | id in base && id !in NewIds(jobId, n) :: tasks[id] == base[id]
    ensures forall id | id in base && id !in NewIds(jobId, n + 1) :: tasks[TaskId(jobId, n) := t][id] == base[id]
  {
    NewIdsStep(jobId, n);
  }

  /** The ids of a job's first `n + 1` tasks add one id, new among the first `n`. */
  lemma NewIdsStep(jobId: string, n: nat)
    ensures NewIds(jobId, n + 1) == NewIds(jobId, n) + {TaskId(jobId, n)}
    ensures TaskId(jobId, n) !in NewIds(jobId, n)
  {
    forall i | 0 <= i < n
      ensures TaskId(jobId, i) != TaskId(jobId, n)
    {
      if TaskId(jobId, i) == TaskId(jobId, n) {
        TaskIdInjective(jobId, i, n);
      }
    }
    assert forall x :: x in NewIds(jobId, n + 1) <==> x in NewIds(jobId, n) || x == TaskId(jobId, n);
  }

  /** One transaction of `submit`: writes the tasks for `args[start..end]`
      and returns them in index order. */
  method WriteBatch(base: map<string, Task>, tasks: map<string, Task>, jobId: string,
                    args: seq<(string, string)>, start: nat, end: nat, cluster: string, now: int)
    returns (tasks': map<string, Task>, batch: seq<Task>)
    requires start <= end <= |args|
    requires Wrote(base, tasks, jobId, args, start, cluster, now)
    ensures Wrote(base, tasks', jobId, args, end, cluster, now)
    ensures |batch| == end - start
    ensures forall j | 0 <= j < |batch| :: batch[j] == NewTask(jobId, start + j, args[start + j], cluster, now)
  {
    tasks' := tasks;
    batch := [];
    var taskIndex := start;
    while taskIndex < end
      invariant start <= taskIndex <= end
      invariant |batch| == taskIndex - start
      invariant forall j | 0 <= j < |batch| :: batch[j] == NewTask(jobId, start + j, args[start + j], cluster, now)
      invariant Wrote(base, tasks', jobId, args, taskIndex, cluster, now)
    {
      var task := NewTask(jobId, taskIndex, args[taskIndex], cluster, now);
      WroteStep(base, tasks', jobId, args, taskIndex, cluster, now);
      tasks' := tasks'[task.taskId := task];
      batch := batch + [task];
      taskIndex := taskIndex + 1;
    }
  }

  /** The batches written so far hold the first `n` new tasks, in index order. */
  predicate Chunked(batches: seq<seq<Task>>, jobId: string, args: seq<(string, string)>, n: nat, cluster: string, now: int)
  {
    && n <= |args|
    && |Concat(batches)| == n
    && forall i | 0 <= i < n :: Concat(batches)[i] == NewTask(jobId, i, args[i], cluster, now)
  }

  /** Appending the batch for `args[n..m]` extends the chunked prefix to `m`. */
  lemma ChunkedStep(batches: seq<seq<Task>>, batch: seq<Task>, jobId: string, args: seq<(string, string)>,
                    n: nat, m: nat, cluster: string, now: int)
    requires n <= m <= |args|
    requires Chunked(batches, jobId, args, n, cluster, now)
    requires |batch| == m - n
    requires forall j | 0 <= j < |batch| :: batch[j] == NewTask(jobId, n + j, args[n + j], cluster, now)
    ensures Chunked(batches + [batch], jobId, args, m, cluster, now)
  {
    assert (batches + [batch])[..|batches|] == batches;
    assert Concat(batches + [batch]) == Concat(batches) + batch;
  }

  /** `submit(job_id, args, spec, metadata, cluster)`: creates the tasks in
      transactions of at most `BatchSize` records, then stores the job.
      Returns the new store and the batches in the order they were written. */
  method Submit(s: Store, jobId: string, args: seq<(string, string)>, spec: string,
                metadata: map<string, string>, cluster: string, now: int, submitTime: int)
    returns (r: Store, batches: seq<seq<Task>>)
    ensures |batches| == (|args| + BatchSize - 1) / BatchSize
    ensures forall k | 0 <= k < |batches| :: 0 < |batches[k]| <= BatchSize
    ensures |Concat(batches)| == |args|
    ensures forall i | 0 <= i < |args| :: Concat(batches)[i] == NewTask(jobId, i, args[i], cluster, now)
    ensures SubmitDone(r, jobId, args, spec, metadata, cluster, now, submitTime)
    ensures r.tasks.Keys == s.tasks.Keys + NewIds(jobId, |args|)
    ensures forall id | id in s.tasks && id !in NewIds(jobId, |args|) :: r.tasks[id] == s.tasks[id]
    ensures forall j | j in s.jobs && j != jobId :: j in r.jobs && r.jobs[j] == s.jobs[j]
  {
    var tasks := s.tasks;
    batches := [];
    var chunkStart := 0;
    while chunkStart < |args|
      invariant chunkStart == BatchSize * |batches|
      invariant chunkStart < |args| + BatchSize
      invariant forall k | 0 <= k < |batches| :: 0 < |batches[k]| <= BatchSize
      invariant Chunked(batches, jobId, args, if chunkStart < |args| then chunkStart else |args|, cluster, now)
      invariant Wrote(s.tasks, tasks, jobId, args, if chunkStart < |args| then chunkStart else |args|, cluster, now)
    {
      var end := if chunkStart + BatchSize < |args| then chunkStart + BatchSize else |args|;
      var batch;
      tasks, batch := WriteBatch(s.tasks, tasks, jobId, args, chunkStart, end, cluster, now);
      ChunkedStep(batches, batch, jobId, args, chunkStart, end, cluster, now);
      batches := batches + [batch];
      chunkStart := chunkStart + BatchSize;
    }
    BatchCount(|args|, |batches|);
    r := StoreJob(s, tasks, jobId, args, spec, metadata, cluster, now, submitTime);
  }

  /** The final write of `submit`: the job record listing every new task id. */
  function StoreJob(s: Store, tasks: map<string, Task>, jobId: string, args: seq<(string, string)>, spec: string,
                    metadata: map<string, string>, cluster: string, now: int, submitTime: int): (r: Store)
    requires Wrote(s.tasks, tasks, jobId, args, |args|, cluster, now)
    ensures SubmitDone(r, jobId, args, spec, metadata, cluster, now, submitTime)
    ensures r.tasks == tasks
    ensures forall j | j in s.jobs && j != jobId :: j in r.jobs && r.jobs[j] == s.jobs[j]
  {
    var ids := seq(|args|, i requires 0 <= i < |args| => TaskId(jobId, i));
    Store(s.jobs[jobId := Job(jobId, ids, spec, metadata, cluster, Submitted, submitTime)], tasks)
  }

  /** The number of batches the chunking loop produces. */
  lemma BatchCount(n: nat, b: nat)
    requires BatchSize * b < n + BatchSize
    requires n <= BatchSize * b
    ensures b == (n + BatchSize - 1) / BatchSize
  {
  }

  /** Right after `submit`, the job's tasks are exactly the new ones, in index order. */
  lemma SubmittedJobTasks(s: Store, jobId: string, args: seq<(string, string)>, spec: string,
                          metadata: map<string, string>, cluster: string, now: int, submitTime: int)
    requires SubmitDone(s, jobId, args, spec, metadata, cluster, now, submitTime)
    ensures |JobTasks(s, jobId)| == |args|
    ensures forall i | 0 <= i < |args| :: JobTasks(s, jobId)[i] == NewTask(jobId, i, args[i], cluster, now)
  {
  }

  /** A non-empty listing of pending tasks counts as {pending: size}. */
  lemma {:induction false} AllPendingCounts(ts: seq<Task>)
    requires |ts| > 0
    requires forall k | 0 <= k < |ts| :: ts[k].status == Pending
    ensures StatusCounts(ts) == map[Pending := |ts|]
  {
    var xs := Statuses(ts);
    ConstantMultiset(xs, Pending);
    var c := StatusCounts(ts);
    assert xs[0] == Pending;
    forall st
      ensures st in c <==> st == Pending
    {
      if st in xs {
        var k :| 0 <= k < |xs| && xs[k] == st;
      }
    }
  }

  /** Right after `submit` of N > 0 tasks, `get_status_counts` is {pending: N}. */
  lemma SubmittedStatusCounts(s: Store, jobId: string, args: seq<(string, string)>, spec: string,
                              metadata: map<string, string>, cluster: string, now: int, submitTime: int)
    requires SubmitDone(s, jobId, args, spec, metadata, cluster, now, submitTime)
    requires |args| > 0
    ensures GetStatusCounts(s, jobId) == map[Pending := |args|]
  {
    SubmittedJobTasks(s, jobId, args, spec, metadata, cluster, now, submitTime);
    AllPendingCounts(JobTasks(s, jobId));
  }

  /** A sequence of one repeated value holds that value as often as it is long. */
  lemma {:induction false} ConstantMultiset(xs: seq<TaskStatus>, x: TaskStatus)
    requires forall k | 0 <= k < |xs| :: xs[k] == x
    ensures multiset(xs)[x] == |xs|
  {
    if |xs| > 0 {
      ConstantMultiset(xs[..|xs| - 1], x);
      assert xs == xs[..|xs| - 1] + [x];
    }
  }
}

=== FILE: json.dfy ===
/** The values the submission and listing code handles: what `json.loads`
    gives for a task spec and what `attr.asdict` gives for a task record.
    Dictionaries keep their insertion order, as Python's do, so a dictionary
    is a sequence of entries. */
module Json {
  import opened Wrappers

  datatype Value =
    | Null
    | Bool(b: bool)
    | Int(i: int)
    | Float(text: string)  // a float, carried by `repr(x)`, which is also its `str(x)`
    | Str(s: string)
    | List(items: seq<Value>)
    | Dict(entries: seq<(string, Value)>)

  type Entries = seq<(string, Value)>

  /** `list(d.keys())`. */
  function KeysOf(e: Entries): (r: seq<string>)
    ensures |r| == |e| && forall i :: 0 <= i < |e| ==> r[i] == e[i].0
  {
    if |e| == 0 then [] else [e[0].0] + KeysOf(e[1..])
  }

  predicate HasKey(e: Entries, k: string) {
    k in KeysOf(e)
  }

  /** No key appears twice, as in every dictionary Python builds. */
  predicate UniqueKeys(e: Entries) {
    forall i, j :: 0 <= i < j < |e| ==> e[i].0 != e[j].0
  }

  /** `d.get(k)`, with `None` for a missing key. */
  function Get(e: Entries, k: string): (r: Option<Value>)
    ensures r.Some? <==> HasKey(e, k)
    ensures r.Some? ==> exists i :: 0 <= i < |e| && e[i] == (k, r.value)
  {
    if |e| == 0 then None
    else if e[0].0 == k then Some(e[0].1)
    else
      var r := Get(e[1..], k);
      assert KeysOf(e) == [e[0].0] + KeysOf(e[1..]);
      if r.Some? then
        var i :| 0 <= i < |e[1..]| && e[1..][i] == (k, r.value);
        assert e[i + 1] == (k, r.value);
        r
      else r
  }

  /** `d[k] = v`: an existing key keeps its position, a new one goes last. */
  function Put(e: Entries, k: string, v: Value): (r: Entries)
    ensures Get(r, k) == Some(v)
    ensures forall j | j != k :: Get(r, j) == Get(e, j)
    ensures forall i :: 0 <= i < |r| ==> r[i] == (k, v) || r[i] in e
  {
    if |e| == 0 then [(k, v)]
    else if e[0].0 == k then
      var r := [(k, v)] + e[1..];
      assert r[1..] == e[1..];
      r
    else
      var t := Put(e[1..], k, v);
      var r := [e[0]] + t;
      assert r[1..] == t;
      r
  }

  /** Writing a key adds it to the keys and removes none. */
  lemma PutKeys(e: Entries, k: string, v: Value, j: string)
    ensures HasKey(Put(e, k, v), j) <==> HasKey(e, j) || j == k
  {
    var r := Put(e, k, v);
    assert Get(r, j).Some? <==> HasKey(r, j);
    assert Get(e, j).Some? <==> HasKey(e, j);
  }

  /** A key that is there is read from one of the entries. */
  lemma GetMember(e: Entries, k: string)
    ensures HasKey(e, k) ==> (k, Get(e, k).value) in e
  {
  }

  /** Reading back what was just written. */
  lemma PutGet(e: Entries, k: string, v: Value, j: string)
    ensures Get(Put(e, k, v), j) == if j == k then Some(v) else Get(e, j)
  {
  }
}

=== FILE: records.dfy ===
/** The record queries of sparklespray/list.py: dotted-path reads and
    writes on nested dictionaries, projection onto a field list, the
    `var=value` / `var!=value` filters, flattening for CSV output and the
    choice of whether a listing needs each task's full definition.

    A record is a dictionary (`Entries`). Python's `None` and JSON `null`
    are both `Null`, as `d.get(e)` makes them indistinguishable to `_get`. */
module Records {
  import opened Wrappers
  import opened Strings
  import opened Collections
  import opened Json

  /** `path.split(".")`. */
  function Path(field: string): (r: seq<string>)
    ensures |r| >= 1
  {
    Split(field, '.')
  }

  // ---------------------------------------------------------------------
  // _get and _set

  /** `_get(d, path)` on the path's elements: a missing step or a `None` on
      the way gives `None`; a step into anything else but a dictionary
      fails the `isinstance(d, dict)` assertion. */
  function GetPath(d: Value, p: seq<string>): (r: Result<Value>)
    ensures |p| == 0 ==> r == Success(d)
    ensures |p| > 0 && d == Null ==> r == Success(Null)
    ensures |p| > 0 && d != Null && !d.Dict? ==> r.Failure?
    ensures |p| > 0 && d.Dict? ==> r == GetPath(Get(d.entries, p[0]).GetOr(Null), p[1..])
    decreases |p|
  {
    if |p| == 0 then Success(d)
    else if d == Null then Success(Null)
    else if !d.Dict? then Failure(AssertionFailed(p[0]))
    else GetPath(Get(d.entries, p[0]).GetOr(Null), p[1..])
  }

  /** `_get(d, path)` for a record. */
  function GetField(d: Entries, field: string): Result<Value> {
    GetPath(Dict(d), Path(field))
  }

  /** A field without dots reads the key itself, `None` when it is missing. */
  lemma GetPlainField(d: Entries, field: string)
    requires '.' !in field
    ensures GetField(d, field) == Success(Get(d, field).GetOr(Null))
  {
    assert Path(field) == [field] by {
      assert FindFrom(field, '.', 0) == -1;
    }
  }

  /** Once a prefix of the path reads `None`, so does the whole path. */
  lemma {:induction false} GetStopsAtNull(d: Value, a: seq<string>, b: seq<string>)
    requires GetPath(d, a) == Success(Null)
    ensures GetPath(d, a + b) == Success(Null)
    decreases |a|
  {
    if |a| > 0 && d != Null {
      assert (a + b)[0] == a[0] && (a + b)[1..] == a[1..] + b;
      GetStopsAtNull(Get(d.entries, a[0]).GetOr(Null), a[1..], b);
    } else if |a| == 0 {
      assert a + b == b;
      GetFromNull(b);
    }
  }

  lemma GetFromNull(b: seq<string>)
    ensures GetPath(Null, b) == Success(Null)
  {
  }

  /** The value stored at a path: `None` when a step is missing or is not a
      dictionary. Unlike `_get`, it tells a stored `None` from a missing key. */
  function Find(v: Value, p: seq<string>): (r: Option<Value>)
    decreases |p|
  {
    if |p| == 0 then Some(v)
    else if !v.Dict? then None
    else
      match Get(v.entries, p[0])
      case None => None
      case Some(w) => Find(w, p[1..])
  }

  /** `_get` reads every stored value. */
  lemma {:induction false} FindGet(v: Value, p: seq<string>)
    requires Find(v, p).Some?
    ensures GetPath(v, p) == Success(Find(v, p).value)
    decreases |p|
  {
    if |p| > 0 {
      FindGet(Get(v.entries, p[0]).value, p[1..]);
    }
  }

  /** Writing along a path can go through a step only when that step is
      missing or already a dictionary. */
  predicate CanSet(d: Entries, p: seq<string>)
    requires |p| >= 1
    decreases |p|
  {
    var child := Get(d, p[0]);
    |p| == 1 || child.None? || (child.value.Dict? && CanSet(child.value.entries, p[1..]))
  }

  /** `_set(d, path, value)` on the path's elements: missing steps become
      `{}`; a step already holding anything but a dictionary makes the
      source's `in` or item assignment raise `TypeError`. */
  function SetPath(d: Entries, p: seq<string>, v: Value): (r: Result<Entries>)
    requires |p| >= 1
    ensures r.Success? <==> CanSet(d, p)
    ensures r.Failure? ==> r.error.TypeMismatch?
    decreases |p|
  {
    if |p| == 1 then Success(Put(d, p[0], v))
    else
      var child := Get(d, p[0]);
      if child.Some? && !child.value.Dict? then Failure(TypeMismatch(p[0]))
      else
        var base := if child.Some? then child.value.entries else [];
        var sub :- SetPath(base, p[1..], v);
        Success(Put(d, p[0], Dict(sub)))
  }

  /** `_set(d, field, value)` on a record. */
  function SetField(d: Entries, field: string, v: Value): Result<Entries> {
    SetPath(d, Path(field), v)
  }

  /** Every path can be written into an empty dictionary. */
  lemma {:induction false} CanSetEmpty(p: seq<string>)
    requires |p| >= 1
    ensures CanSet([], p)
  {
  }

  /** Reading back a path just written gives the value written. */
  lemma {:induction false} GetAfterSet(d: Entries, p: seq<string>, v: Value)
    requires |p| >= 1 && CanSet(d, p)
    ensures SetPath(d, p, v).Success?
    ensures GetPath(Dict(SetPath(d, p, v).value), p) == Success(v)
    decreases |p|
  {
    if |p| > 1 {
      var c := Get(d, p[0]);
      var base := if c.Some? then c.value.entries else [];
      GetAfterSet(base, p[1..], v);
    }
  }

  /** `_set(d, field, v)` followed by `_get(d, field)` reads `v`, whenever
      the steps that already exist are dictionaries. */
  lemma SetFieldGet(d: Entries, field: string, v: Value)
    requires CanSet(d, Path(field))
    ensures SetField(d, field, v).Success?
    ensures GetField(SetField(d, field, v).value, field) == Success(v)
  {
    GetAfterSet(d, Path(field), v);
  }

  predicate IsPrefix(a: seq<string>, b: seq<string>) {
    |a| <= |b| && b[..|a|] == a
  }

  /** Neither path leads through or to the other. */
  predicate Independent(a: seq<string>, b: seq<string>) {
    !IsPrefix(a, b) && !IsPrefix(b, a)
  }

  /** Paths with the same first step: one is a prefix of the other exactly
      when their tails are. */
  lemma ConsPrefix(a: seq<string>, b: seq<string>)
    requires |a| >= 1 && |b| >= 1 && a[0] == b[0]
    ensures IsPrefix(a, b) <==> IsPrefix(a[1..], b[1..])
  {
    if |a| <= |b| {
      assert b[..|a|] == [b[0]] + b[1..][..|a| - 1];
      assert a == [a[0]] + a[1..];
    }
  }

  lemma IndependentTails(a: seq<string>, b: seq<string>)
    requires |a| >= 1 && |b| >= 1 && Independent(a, b) && a[0] == b[0]
    ensures |a| >= 2 && |b| >= 2 && Independent(a[1..], b[1..])
  {
    ConsPrefix(a, b);
    ConsPrefix(b, a);
    EmptyPrefix(a[1..]);
    EmptyPrefix(b[1..]);
  }

  lemma EmptyPrefix(x: seq<string>)
    ensures IsPrefix([], x)
  {
  }

  /** Writing one path leaves the reading of every independent path as it was. */
  lemma {:induction false} SetKeepsIndependent(d: Entries, q: seq<string>, v: Value, x: seq<string>)
    requires |q| >= 1 && |x| >= 1 && CanSet(d, q) && Independent(x, q)
    ensures SetPath(d, q, v).Success?
    ensures GetPath(Dict(SetPath(d, q, v).value), x) == GetPath(Dict(d), x)
    decreases |q|
  {
    var r := SetPath(d, q, v).value;
    if x[0] != q[0] {
      assert Get(r, x[0]) == Get(d, x[0]);
    } else {
      IndependentTails(x, q);
      var c := Get(d, q[0]);
      var base := if c.Some? then c.value.entries else [];
      SetKeepsIndependent(base, q[1..], v, x[1..]);
      if c.None? {
        assert GetPath(Dict([]), x[1..]) == Success(Null);
      }
    }
  }

  /** Writing one path does not block writing an independent one. */
  lemma {:induction false} SetKeepsCanSet(d: Entries, q: seq<string>, v: Value, x: seq<string>)
    requires |q| >= 1 && |x| >= 1 && CanSet(d, q) && CanSet(d, x) && Independent(x, q)
    ensures SetPath(d, q, v).Success?
    ensures CanSet(SetPath(d, q, v).value, x)
    decreases |q|
  {
    var r := SetPath(d, q, v).value;
    if |x| > 1 {
      if x[0] != q[0] {
        assert Get(r, x[0]) == Get(d, x[0]);
      } else {
        IndependentTails(x, q);
        var c := Get(d, q[0]);
        var base := if c.Some? then c.value.entries else [];
        CanSetEmpty(x[1..]);
        SetKeepsCanSet(base, q[1..], v, x[1..]);
      }
    }
  }

  // ---------------------------------------------------------------------
  // project

  /** Some path in `shared` leads to `p` or through it. */
  predicate InShared(shared: set<seq<string>>, p: seq<string>) {
    exists q :: q in shared && IsPrefix(q, p)
  }

  /** Some path in `shared` leads strictly through `p`: writing at `p`
      writes into a dictionary the result shares with the record. */
  predicate WritesThrough(shared: set<seq<string>>, p: seq<string>) {
    exists q :: q in shared && |q| < |p| && IsPrefix(q, p)
  }

  /** The loop of `project(d, fields)` from `result` on, where `rec` is the
      record as the loop's writes have left it so far.

      `_get` hands back the record's own nested dictionaries, and `_set`
      stores them in the result as they are, so the result and the record
      share them. `shared` holds the paths at which the result holds such a
      dictionary; the record holds the same object at the same path. A `_set`
      whose path goes through a shared dictionary writes into the record as
      well, so the same write is applied to `rec`; every field is read from
      `rec`. A write at `p` replaces whatever the result shared at or below
      `p`, and shares `p` itself when the value is a dictionary. */
  function ProjectInto(rec: Entries, fields: seq<string>, result: Entries, shared: set<seq<string>>): (r: Result<Entries>)
    decreases |fields|
  {
    if |fields| == 0 then Success(result)
    else
      var p := Path(fields[0]);
      var v :- GetPath(Dict(rec), p);
      var next :- SetPath(result, p, v);
      var rec' :- if WritesThrough(shared, p) then SetPath(rec, p, v) else Success(rec);
      ProjectInto(rec', fields[1..], next, Reshare(shared, p, v))
  }

  /** The shared paths after writing `v` at `p`: what was shared at or below
      `p` is replaced, and `p` itself is shared when `v` is a dictionary. */
  function Reshare(shared: set<seq<string>>, p: seq<string>, v: Value): set<seq<string>> {
    var kept := set q | q in shared && !IsPrefix(p, q);
    if v.Dict? then kept + {p} else kept
  }

  lemma InReshare(shared: set<seq<string>>, p: seq<string>, v: Value, x: seq<string>)
    ensures InShared(Reshare(shared, p, v), x) ==> InShared(shared, x) || IsPrefix(p, x)
  {
    if InShared(Reshare(shared, p, v), x) {
      var q :| q in Reshare(shared, p, v) && IsPrefix(q, x);
    }
  }

  /** `project(d, fields)`. */
  function Project(d: Entries, fields: seq<string>): Result<Entries> {
    ProjectInto(d, fields, [], {})
  }

  /** The projection loop as it would run if `_get` returned copies: every
      field is read from the record as it was passed in. */
  function ProjectCopyInto(d: Entries, fields: seq<string>, result: Entries): (r: Result<Entries>)
    decreases |fields|
  {
    if |fields| == 0 then Success(result)
    else
      var v :- GetField(d, fields[0]);
      var next :- SetField(result, fields[0], v);
      ProjectCopyInto(d, fields[1..], next)
  }

  /** On `{"a": {}}` with the fields `a`, `a.x.y` and `a.x`, the second write
      creates `x` inside the record's own `a`, so the third read finds it:
      the projection is `{"a": {"x": {"y": None}}}`, where reading copies
      would give `{"a": {"x": None}}`. */
  lemma ProjectAliasExample()
    ensures Project([("a", Dict([]))], ["a", "a.x.y", "a.x"]) == Success([("a", Dict([("x", Dict([("y", Null)]))]))])
    ensures ProjectCopyInto([("a", Dict([]))], ["a", "a.x.y", "a.x"], []) == Success([("a", Dict([("x", Null)]))])
  {
    var d: Entries := [("a", Dict([]))];
    var r2: Entries := [("a", Dict([("x", Dict([("y", Null)]))]))];
    AliasStep1(d);
    AliasStep2(d, r2);
    AliasStep3(r2);
    CopyExample(d);
  }

  /** One round of the projection loop, once its read and writes are known. */
  lemma ProjectIntoStep(rec: Entries, fields: seq<string>, result: Entries, shared: set<seq<string>>, v: Value, next: Entries, rec': Entries)
    requires |fields| > 0
    requires GetPath(Dict(rec), Path(fields[0])) == Success(v)
    requires SetPath(result, Path(fields[0]), v) == Success(next)
    requires (if WritesThrough(shared, Path(fields[0])) then SetPath(rec, Path(fields[0]), v) else Success(rec)) == Success(rec')
    ensures ProjectInto(rec, fields, result, shared) == ProjectInto(rec', fields[1..], next, Reshare(shared, Path(fields[0]), v))
  {
  }

  /** `a` is copied in: the result now shares the record's `a`. */
  lemma AliasStep1(d: Entries)
    requires d == [("a", Dict([]))]
    ensures ProjectInto(d, ["a", "a.x.y", "a.x"], [], {}) == ProjectInto(d, ["a.x.y", "a.x"], d, {["a"]})
  {
    PathOf1("a");
    assert ["a", "a.x.y", "a.x"][1..] == ["a.x.y", "a.x"];
    assert !WritesThrough({}, ["a"]);
    assert GetPath(Dict(d), ["a"]) == Success(Dict([]));
    assert SetPath([], ["a"], Dict([])) == Success(d);
    assert Reshare({}, ["a"], Dict([])) == {["a"]};
    ProjectIntoStep(d, ["a", "a.x.y", "a.x"], [], {}, Dict([]), d, d);
  }

  /** `a.x.y` reads `None` and, through the shared `a`, creates `x` in both
      the result and the record. */
  lemma AliasStep2(d: Entries, r2: Entries)
    requires d == [("a", Dict([]))] && r2 == [("a", Dict([("x", Dict([("y", Null)]))]))]
    ensures ProjectInto(d, ["a.x.y", "a.x"], d, {["a"]}) == ProjectInto(r2, ["a.x"], r2, {["a"]})
  {
    var p := ["a", "x", "y"];
    PathAXY();
    assert ["a.x.y", "a.x"][1..] == ["a.x"];
    ThroughA(p);
    ReadAXY(d);
    WriteAXY(d);
    ReshareBelow({["a"]}, ["a"], p);
    ProjectIntoStep(d, ["a.x.y", "a.x"], d, {["a"]}, Null, r2, r2);
  }

  /** `a.x` reads the dictionary the last write made in the record. */
  lemma AliasStep3(r2: Entries)
    requires r2 == [("a", Dict([("x", Dict([("y", Null)]))]))]
    ensures ProjectInto(r2, ["a.x"], r2, {["a"]}) == Success(r2)
  {
    var p := ["a", "x"];
    PathOf2("a", "x");
    assert "a" + "." + "x" == "a.x";
    ThroughA(p);
    var inner := Dict([("y", Null)]);
    assert GetPath(Dict(r2), p) == Success(inner);
    assert Put([("x", inner)], "x", inner) == [("x", inner)];
    assert SetPath([("x", inner)], ["x"], inner) == Success([("x", inner)]);
    assert p[1..] == ["x"];
    assert Get(r2, "a") == Some(Dict([("x", inner)]));
    assert Put(r2, "a", Dict([("x", inner)])) == r2;
    assert SetPath(r2, p, inner) == Success(r2);
    assert ["a.x"][1..] == [];
    ProjectIntoStep(r2, ["a.x"], r2, {["a"]}, inner, r2, r2);
  }

  /** On `{"a": {"b": {}}}` with the fields `a.b`, `a.b.c` and `a`, the
      second write goes into the record's own `b`, so reading `a` afterwards
      finds `c` in it: the projection is `{"a": {"b": {"c": None}}}`. */
  lemma ProjectPrefixReadExample()
    ensures Project([("a", Dict([("b", Dict([]))]))], ["a.b", "a.b.c", "a"]) == Success([("a", Dict([("b", Dict([("c", Null)]))]))])
  {
    var d: Entries := [("a", Dict([("b", Dict([]))]))];
    var e: Entries := [("a", Dict([("b", Dict([("c", Null)]))]))];
    PrefixStep1(d);
    PrefixStep2(d, e);
    PrefixStep3(e);
  }

  /** `a.b` is copied in: the result now shares the record's `b`. */
  lemma PrefixStep1(d: Entries)
    requires d == [("a", Dict([("b", Dict([]))]))]
    ensures ProjectInto(d, ["a.b", "a.b.c", "a"], [], {}) == ProjectInto(d, ["a.b.c", "a"], d, {["a", "b"]})
  {
    var p := ["a", "b"];
    PathOf2("a", "b");
    assert "a" + "." + "b" == "a.b";
    assert ["a.b", "a.b.c", "a"][1..] == ["a.b.c", "a"];
    assert !WritesThrough({}, p);
    assert p[1..] == ["b"];
    assert GetPath(Dict(d), p) == Success(Dict([]));
    assert SetPath([], ["b"], Dict([])) == Success([("b", Dict([]))]);
    assert SetPath([], p, Dict([])) == Success(d);
    assert Reshare({}, p, Dict([])) == {p};
    ProjectIntoStep(d, ["a.b", "a.b.c", "a"], [], {}, Dict([]), d, d);
  }

  /** `a.b.c` reads `None` and, through the shared `b`, writes `c` into the
      result and the record alike. */
  lemma PrefixStep2(d: Entries, e: Entries)
    requires d == [("a", Dict([("b", Dict([]))]))] && e == [("a", Dict([("b", Dict([("c", Null)]))]))]
    ensures ProjectInto(d, ["a.b.c", "a"], d, {["a", "b"]}) == ProjectInto(e, ["a"], e, {["a", "b"]})
  {
    var p := ["a", "b", "c"];
    PathOf3("a", "b", "c");
    assert "a" + "." + "b" + "." + "c" == "a.b.c";
    assert ["a.b.c", "a"][1..] == ["a"];
    assert IsPrefix(["a", "b"], p);
    assert WritesThrough({["a", "b"]}, p);
    ReadABC(d);
    WriteABC(d, e);
    ReshareBelow({["a", "b"]}, ["a", "b"], p);
    ProjectIntoStep(d, ["a.b.c", "a"], d, {["a", "b"]}, Null, e, e);
  }

  /** `a` reads the record's `a`, which now holds `c` under `b`. */
  lemma PrefixStep3(e: Entries)
    requires e == [("a", Dict([("b", Dict([("c", Null)]))]))]
    ensures ProjectInto(e, ["a"], e, {["a", "b"]}) == Success(e)
  {
    var inner := Dict([("b", Dict([("c", Null)]))]);
    PathOf1("a");
    assert !WritesThrough({["a", "b"]}, ["a"]);
    assert GetPath(Dict(e), ["a"]) == Success(inner);
    assert Put(e, "a", inner) == e;
    assert SetPath(e, ["a"], inner) == Success(e);
    assert ["a"][1..] == [];
    ProjectIntoStep(e, ["a"], e, {["a", "b"]}, inner, e, e);
  }

  lemma ReadABC(d: Entries)
    requires d == [("a", Dict([("b", Dict([]))]))]
    ensures GetPath(Dict(d), ["a", "b", "c"]) == Success(Null)
  {
    var p := ["a", "b", "c"];
    assert p[1..] == ["b", "c"] && p[1..][1..] == ["c"];
    assert GetPath(Dict([]), ["c"]) == Success(Null);
    assert GetPath(Dict([("b", Dict([]))]), ["b", "c"]) == Success(Null);
  }

  lemma WriteABC(d: Entries, e: Entries)
    requires d == [("a", Dict([("b", Dict([]))]))] && e == [("a", Dict([("b", Dict([("c", Null)]))]))]
    ensures SetPath(d, ["a", "b", "c"], Null) == Success(e)
  {
    var p := ["a", "b", "c"];
    assert p[1..] == ["b", "c"] && p[1..][1..] == ["c"];
    assert SetPath([], ["c"], Null) == Success([("c", Null)]);
    assert Put([("b", Dict([]))], "b", Dict([("c", Null)])) == [("b", Dict([("c", Null)]))];
    assert SetPath([("b", Dict([]))], ["b", "c"], Null) == Success([("b", Dict([("c", Null)]))]);
    assert Put(d, "a", Dict([("b", Dict([("c", Null)]))])) == e;
  }

  lemma ThroughA(p: seq<string>)
    requires |p| >= 2 && p[0] == "a"
    ensures WritesThrough({["a"]}, p)
  {
    assert IsPrefix(["a"], p);
  }

  /** Writing a non-dictionary strictly below the only shared path keeps it shared. */
  lemma ReshareBelow(shared: set<seq<string>>, q: seq<string>, p: seq<string>)
    requires shared == {q} && |q| < |p|
    ensures Reshare(shared, p, Null) == shared
  {
    assert !IsPrefix(p, q);
  }

  lemma PathAXY()
    ensures Path("a.x.y") == ["a", "x", "y"]
  {
    PathOf3("a", "x", "y");
    assert "a" + "." + "x" + "." + "y" == "a.x.y";
  }

  /** Reading `a.x.y` from `{"a": {}}` gives `None`. */
  lemma ReadAXY(r: Entries)
    requires r == [("a", Dict([]))]
    ensures GetPath(Dict(r), ["a", "x", "y"]) == Success(Null)
  {
    var p := ["a", "x", "y"];
    assert p[1..] == ["x", "y"] && p[1..][1..] == ["y"];
    assert GetPath(Dict([]), ["x", "y"]) == GetPath(Null, ["y"]) == Success(Null);
  }

  /** Writing `None` at `a.x.y` into `{"a": {}}` creates the dictionary `x`. */
  lemma WriteAXY(r: Entries)
    requires r == [("a", Dict([]))]
    ensures SetPath(r, ["a", "x", "y"], Null) == Success([("a", Dict([("x", Dict([("y", Null)]))]))])
  {
    var p := ["a", "x", "y"];
    assert p[1..] == ["x", "y"] && p[1..][1..] == ["y"];
    assert SetPath([], ["y"], Null) == Success([("y", Null)]);
    assert SetPath([], ["x", "y"], Null) == Success([("x", Dict([("y", Null)]))]);
    assert Get(r, "a") == Some(Dict([]));
    assert Put(r, "a", Dict([("x", Dict([("y", Null)]))])) == [("a", Dict([("x", Dict([("y", Null)]))]))];
  }

  /** Reading copies, `a.x` finds no `x` in the record's `a`. */
  lemma CopyExample(d: Entries)
    requires d == [("a", Dict([]))]
    ensures ProjectCopyInto(d, ["a", "a.x.y", "a.x"], []) == Success([("a", Dict([("x", Null)]))])
  {
    var r2: Entries := [("a", Dict([("x", Dict([("y", Null)]))]))];
    CopyStep1(d);
    CopyStep2(d, r2);
    CopyStep3(d, r2);
  }

  lemma CopyStep1(d: Entries)
    requires d == [("a", Dict([]))]
    ensures ProjectCopyInto(d, ["a", "a.x.y", "a.x"], []) == ProjectCopyInto(d, ["a.x.y", "a.x"], d)
  {
    PathOf1("a");
    assert ["a", "a.x.y", "a.x"][1..] == ["a.x.y", "a.x"];
    assert GetField(d, "a") == Success(Dict([]));
    assert SetField([], "a", Dict([])) == Success(d);
  }

  lemma CopyStep2(d: Entries, r2: Entries)
    requires d == [("a", Dict([]))] && r2 == [("a", Dict([("x", Dict([("y", Null)]))]))]
    ensures ProjectCopyInto(d, ["a.x.y", "a.x"], d) == ProjectCopyInto(d, ["a.x"], r2)
  {
    PathAXY();
    assert ["a.x.y", "a.x"][1..] == ["a.x"];
    ReadAXY(d);
    WriteAXY(d);
  }

  lemma CopyStep3(d: Entries, r2: Entries)
    requires d == [("a", Dict([]))] && r2 == [("a", Dict([("x", Dict([("y", Null)]))]))]
    ensures ProjectCopyInto(d, ["a.x"], r2) == Success([("a", Dict([("x", Null)]))])
  {
    PathOf2("a", "x");
    assert "a" + "." + "x" == "a.x";
    assert ["a.x"][1..] == [];
    assert GetField(d, "a.x") == Success(Null);
    assert Put([("x", Dict([("y", Null)]))], "x", Null) == [("x", Null)];
    assert SetPath([("x", Dict([("y", Null)]))], ["x"], Null) == Success([("x", Null)]);
    assert ["a", "x"][1..] == ["x"];
    assert Get(r2, "a") == Some(Dict([("x", Dict([("y", Null)]))]));
    assert Put(r2, "a", Dict([("x", Null)])) == [("a", Dict([("x", Null)]))];
    assert SetField(r2, "a.x", Null) == Success([("a", Dict([("x", Null)]))]);
  }

  lemma PathOf1(a: string)
    requires '.' !in a
    ensures Path(a) == [a]
  {
    assert FindFrom(a, '.', 0) == -1;
  }

  lemma PathOf2(a: string, b: string)
    requires '.' !in a && '.' !in b
    ensures Path(a + "." + b) == [a, b]
  {
    var s := a + "." + b;
    assert FindFrom(s, '.', 0) == |a| by {
      assert s[|a|] == '.';
      assert forall i :: 0 <= i < |a| ==> s[i] == a[i];
    }
    assert s[..|a|] == a && s[|a| + 1..] == b;
    PathOf1(b);
    assert Split(s, '.') == [a] + Split(b, '.');
  }

  lemma PathOf3(a: string, b: string, c: string)
    requires '.' !in a && '.' !in b && '.' !in c
    ensures Path(a + "." + b + "." + c) == [a, b, c]
  {
    var s := a + "." + b + "." + c;
    assert FindFrom(s, '.', 0) == |a| by {
      assert s[|a|] == '.';
      assert forall i :: 0 <= i < |a| ==> s[i] == a[i];
    }
    assert s[..|a|] == a && s[|a| + 1..] == b + "." + c;
    PathOf2(b, c);
    assert Split(s, '.') == [a] + Split(b + "." + c, '.');
  }

  /** No field is a dotted prefix of another (nor a repeat of one). */
  predicate IndependentFields(fields: seq<string>) {
    forall i, j :: 0 <= i < j < |fields| ==> Independent(Path(fields[i]), Path(fields[j]))
  }

  /** Every field reads without failing. */
  predicate AllReadable(d: Entries, fields: seq<string>) {
    forall k :: 0 <= k < |fields| ==> GetField(d, fields[k]).Success?
  }

  /** `result` reads every field as `d` does. */
  predicate Agrees(result: Entries, d: Entries, fields: seq<string>) {
    forall k :: 0 <= k < |fields| ==> GetField(result, fields[k]) == GetField(d, fields[k])
  }

  /** Every field can still be written into `result`. */
  predicate Open(result: Entries, fields: seq<string>) {
    forall k :: 0 <= k < |fields| ==> CanSet(result, Path(fields[k]))
  }

  /** Projection onto independent fields fails only when reading one of them
      fails, and otherwise reads every field as the record does. */
  lemma ProjectGets(d: Entries, fields: seq<string>)
    requires IndependentFields(fields)
    ensures Project(d, fields).Success? <==> AllReadable(d, fields)
    ensures Project(d, fields).Success? ==>
      forall k :: 0 <= k < |fields| ==> GetField(Project(d, fields).value, fields[k]) == GetField(d, fields[k])
  {
    forall k | 0 <= k < |fields|
      ensures CanSet([], Path(fields[k]))
    {
      CanSetEmpty(Path(fields[k]));
    }
    assert [] + fields == fields;
    ProjectIntoGets(d, [], fields, []);
    ProjectIntoCopies(d, fields, [], {});
  }

  /** No path in `shared` leads to or through any of the fields. */
  predicate Unshared(shared: set<seq<string>>, fields: seq<string>) {
    forall k :: 0 <= k < |fields| ==> !InShared(shared, Path(fields[k]))
  }

  /** With independent fields no write goes through a dictionary the result
      shares with the record, so the record never changes and the projection
      is the one that reads copies. */
  lemma {:induction false} ProjectIntoCopies(d: Entries, fields: seq<string>, result: Entries, shared: set<seq<string>>)
    requires IndependentFields(fields) && Unshared(shared, fields)
    ensures ProjectInto(d, fields, result, shared) == ProjectCopyInto(d, fields, result)
    decreases |fields|
  {
    if |fields| > 0 {
      var p := Path(fields[0]);
      assert !InShared(shared, p);
      NotThrough(shared, p);
      var v := GetPath(Dict(d), p);
      if v.Success? && SetPath(result, p, v.value).Success? {
        var next := SetPath(result, p, v.value).value;
        ProjectIntoStep(d, fields, result, shared, v.value, next, d);
        UnsharedTail(fields, shared, v.value);
        ProjectIntoCopies(d, fields[1..], next, Reshare(shared, p, v.value));
      }
    }
  }

  lemma NotThrough(shared: set<seq<string>>, p: seq<string>)
    requires !InShared(shared, p)
    ensures !WritesThrough(shared, p)
  {
  }

  /** After the first write, the remaining fields are still independent and
      still out of every shared dictionary. */
  lemma UnsharedTail(fields: seq<string>, shared: set<seq<string>>, v: Value)
    requires |fields| > 0 && IndependentFields(fields) && Unshared(shared, fields)
    ensures IndependentFields(fields[1..]) && Unshared(Reshare(shared, Path(fields[0]), v), fields[1..])
  {
    var p := Path(fields[0]);
    var rest := fields[1..];
    assert forall i :: 0 <= i < |rest| ==> rest[i] == fields[i + 1];
    forall k | 0 <= k < |rest|
      ensures !InShared(Reshare(shared, p, v), Path(rest[k]))
    {
      assert Independent(p, Path(fields[k + 1]));
      assert !InShared(shared, Path(fields[k + 1]));
      InReshare(shared, p, v, Path(rest[k]));
    }
  }

  lemma {:induction false} ProjectIntoGets(d: Entries, done: seq<string>, fields: seq<string>, result: Entries)
    requires IndependentFields(done + fields)
    requires Agrees(result, d, done) && Open(result, fields)
    ensures ProjectCopyInto(d, fields, result).Success? <==> AllReadable(d, fields)
    ensures ProjectCopyInto(d, fields, result).Success? ==> Agrees(ProjectCopyInto(d, fields, result).value, d, done + fields)
    decreases |fields|
  {
    if |fields| == 0 {
      assert done + fields == done;
    } else {
      var f := fields[0];
      var rest := fields[1..];
      FieldsCons(d, done, fields, result);
      CopyUnfold(d, fields, result);
      if GetField(d, f).Success? {
        var v := GetField(d, f).value;
        ProjectStep(d, done, f, rest, result, v);
        var next := SetField(result, f, v).value;
        ProjectIntoGets(d, done + [f], rest, next);
      }
    }
  }

  /** Taking the first field off the loop: the rest is still readable and open. */
  lemma FieldsCons(d: Entries, done: seq<string>, fields: seq<string>, result: Entries)
    requires |fields| > 0 && Open(result, fields)
    ensures done + fields == (done + [fields[0]]) + fields[1..]
    ensures AllReadable(d, fields) <==> GetField(d, fields[0]).Success? && AllReadable(d, fields[1..])
    ensures CanSet(result, Path(fields[0])) && Open(result, fields[1..])
  {
    assert forall k :: 0 <= k < |fields[1..]| ==> fields[1..][k] == fields[k + 1];
  }

  /** The first round of the copying loop. */
  lemma CopyUnfold(d: Entries, fields: seq<string>, result: Entries)
    requires |fields| > 0
    ensures GetField(d, fields[0]).Failure? ==> ProjectCopyInto(d, fields, result).Failure?
    ensures GetField(d, fields[0]).Success? && SetField(result, fields[0], GetField(d, fields[0]).value).Success? ==>
      ProjectCopyInto(d, fields, result) == ProjectCopyInto(d, fields[1..], SetField(result, fields[0], GetField(d, fields[0]).value).value)
  {
  }

  /** One round of the projection loop keeps the loop's invariant. */
  lemma ProjectStep(d: Entries, done: seq<string>, f: string, rest: seq<string>, result: Entries, v: Value)
    requires IndependentFields((done + [f]) + rest)
    requires Agrees(result, d, done) && CanSet(result, Path(f)) && Open(result, rest)
    requires GetField(d, f) == Success(v)
    ensures SetField(result, f, v).Success?
    ensures Agrees(SetField(result, f, v).value, d, done + [f])
    ensures Open(SetField(result, f, v).value, rest)
  {
    var all := (done + [f]) + rest;
    var next := SetField(result, f, v).value;
    GetAfterSet(result, Path(f), v);
    assert all[|done|] == f;
    forall k | 0 <= k < |done + [f]|
      ensures GetField(next, (done + [f])[k]) == GetField(d, (done + [f])[k])
    {
      if k < |done| {
        assert all[k] == done[k] == (done + [f])[k];
        SetKeepsIndependent(result, Path(f), v, Path(done[k]));
      }
    }
    forall k | 0 <= k < |rest|
      ensures CanSet(next, Path(rest[k]))
    {
      assert all[|done| + 1 + k] == rest[k];
      SetKeepsCanSet(result, Path(f), v, Path(rest[k]));
    }
  }

  // ---------------------------------------------------------------------
  // make_predicate

  datatype Op = Equals | NotEquals

  /** A parsed filter expression: `_get(record, path) == value` or `!=`. */
  datatype Condition = Condition(path: string, op: Op, value: string)

  function OpText(op: Op): string {
    match op
    case Equals => "="
    case NotEquals => "!="
  }

  /** The characters of the regular expression's `[A-Za-z0-9.]`. */
  predicate IsPathChar(c: char) {
    ('A' <= c <= 'Z') || ('a' <= c <= 'z') || ('0' <= c <= '9') || c == '.'
  }

  predicate IsPathText(s: string) {
    |s| >= 1 && forall k :: 0 <= k < |s| ==> IsPathChar(s[k])
  }

  /** The length of the longest run of path characters at the start of `s`:
      what the greedy `[A-Za-z0-9.]+` takes. */
  function PathLength(s: string): (n: nat)
    ensures n <= |s|
    ensures forall k :: 0 <= k < n ==> IsPathChar(s[k])
    ensures n < |s| ==> !IsPathChar(s[n])
  {
    if |s| == 0 || !IsPathChar(s[0]) then 0 else 1 + PathLength(s[1..])
  }

  /** `make_predicate(expr)`: the match of `([A-Za-z0-9.]+)(=|!=)(.*)` at
      the start of `expr`, or the failed assertion when there is none. Since
      neither `=` nor `!` is a path character, backtracking the greedy
      variable never finds another match.

      A parsed expression starts with its variable, its operator and its
      value, in that order; an expression that does not parse fails the
      assertion that names it. */
  function MakePredicate(expr: string): (r: Result<Condition>)
    ensures r.Failure? ==> r.error == AssertionFailed(expr)
    ensures r.Success? ==>
      && IsPathText(r.value.path)
      && '\n' !in r.value.value
      && StartsWith(expr, r.value.path + OpText(r.value.op) + r.value.value)
  {
    var n := PathLength(expr);
    var rest := expr[n..];
    if n == 0 then Failure(AssertionFailed(expr))
    else if StartsWith(rest, "=") then
      OperatorThenValue(expr, n, "=", TakeLine(rest[1..]));
      Success(Condition(expr[..n], Equals, TakeLine(rest[1..])))
    else if StartsWith(rest, "!=") then
      OperatorThenValue(expr, n, "!=", TakeLine(rest[2..]));
      Success(Condition(expr[..n], NotEquals, TakeLine(rest[2..])))
    else Failure(AssertionFailed(expr))
  }

  lemma OperatorThenValue(expr: string, n: nat, op: string, value: string)
    requires n + |op| <= |expr| && StartsWith(expr[n..], op) && StartsWith(expr[n + |op|..], value)
    ensures StartsWith(expr, expr[..n] + op + value)
  {
    var w := expr[..n] + op + value;
    assert |w| <= |expr|;
    forall i | 0 <= i < |w|
      ensures expr[i] == w[i]
    {
      if i < n {
      } else if i < n + |op| {
        assert expr[n..][i - n] == op[i - n];
      } else {
        assert expr[n + |op|..][i - n - |op|] == value[i - n - |op|];
      }
    }
    assert expr[..|w|] == w;
  }

  /** Writing a condition out as filter text and parsing it gives it back. */
  lemma ParseFilterText(c: Condition)
    requires IsPathText(c.path) && '\n' !in c.value
    ensures MakePredicate(c.path + OpText(c.op) + c.value) == Success(c)
  {
    var expr := c.path + OpText(c.op) + c.value;
    assert expr == c.path + (OpText(c.op) + c.value);
    PathLengthOf(c.path, OpText(c.op) + c.value);
    assert expr[..|c.path|] == c.path && expr[|c.path|..] == OpText(c.op) + c.value;
    MakePredicateAt(expr, |c.path|, c.op, c.value);
    assert TakeLine(c.value) == c.value;
  }

  /** Writing a condition out and parsing it gives it back, whatever follows
      a newline after the value. */
  lemma ParseCondition(c: Condition, tail: string)
    requires IsPathText(c.path) && '\n' !in c.value
    ensures MakePredicate(c.path + OpText(c.op) + c.value + "\n" + tail) == Success(c)
  {
    var after := c.value + "\n" + tail;
    var rest := OpText(c.op) + after;
    var expr := c.path + rest;
    assert c.path + OpText(c.op) + c.value + "\n" + tail == expr;
    PathLengthOf(c.path, rest);
    assert expr[..|c.path|] == c.path && expr[|c.path|..] == rest;
    TakeLineOf(c.value, tail);
    MakePredicateAt(expr, |c.path|, c.op, after);
  }

  /** What the parser does once the variable's extent is known. */
  lemma MakePredicateAt(expr: string, n: nat, op: Op, after: string)
    requires 0 < n == PathLength(expr)
    requires expr[n..] == OpText(op) + after
    ensures MakePredicate(expr) == Success(Condition(expr[..n], op, TakeLine(after)))
  {
    var rest := OpText(op) + after;
    if op == Equals {
      assert StartsWith(rest, "=") && rest[1..] == after;
    } else {
      assert !StartsWith(rest, "=") && StartsWith(rest, "!=") && rest[2..] == after;
    }
  }

  lemma TakeLineOf(line: string, tail: string)
    requires '\n' !in line
    ensures TakeLine(line + "\n" + tail) == line
  {
    var s := line + "\n" + tail;
    assert s[|line|] == '\n';
    assert forall k :: 0 <= k < |line| ==> s[k] == line[k];
    assert FindFrom(s, '\n', 0) == |line|;
    assert s[..|line|] == line;
  }

  /** A path followed by a non-path character: the run stops there. */
  lemma {:induction false} PathLengthOf(p: string, rest: string)
    requires IsPathText(p) && |rest| >= 1 && !IsPathChar(rest[0])
    ensures PathLength(p + rest) == |p|
    decreases |p|
  {
    if |p| > 1 {
      assert (p + rest)[1..] == p[1..] + rest;
      PathLengthOf(p[1..], rest);
    } else {
      assert (p + rest)[1..] == rest;
    }
  }

  /** A parsed filter on one record: the outcome of `_get` compared with the
      value text. A failure of `_get` propagates. */
  function Holds(c: Condition, record: Entries): (r: Result<bool>)
    ensures r.Failure? <==> GetField(record, c.path).Failure?
    ensures r.Success? ==> (r.value <==> (GetField(record, c.path).value == Str(c.value)) == c.op.Equals?)
  {
    var v :- GetField(record, c.path);
    Success(if c.op == Equals then v == Str(c.value) else v != Str(c.value))
  }

  /** `var!=value` holds exactly on the records where `var=value` does not. */
  lemma NotEqualsComplements(path: string, value: string, record: Entries)
    ensures Holds(Condition(path, NotEquals, value), record).Failure? <==> Holds(Condition(path, Equals, value), record).Failure?
    ensures Holds(Condition(path, NotEquals, value), record).Success? ==>
      Holds(Condition(path, NotEquals, value), record).value == !Holds(Condition(path, Equals, value), record).value
  {
  }

  // ---------------------------------------------------------------------
  // process_records

  /** `[make_predicate(f) for f in filter_expressions]`: succeeds exactly when
      every expression parses, and then holds their conditions in order;
      otherwise it raises a failed assertion. */
  function MakePredicates(exprs: seq<string>): (r: Result<seq<Condition>>)
    ensures r.Success? <==> forall k :: 0 <= k < |exprs| ==> MakePredicate(exprs[k]).Success?
    ensures r.Success? ==>
      && |r.value| == |exprs|
      && forall k :: 0 <= k < |exprs| ==> MakePredicate(exprs[k]) == Success(r.value[k])
    ensures r.Failure? ==> r.error.AssertionFailed?
  {
    if |exprs| == 0 then Success([])
    else
      var rest := MakePredicates(exprs[1..]);
      MakePredicatesStepParses(exprs, rest);
      MakePredicatesStepValues(exprs, rest);
      Prepend(MakePredicate(exprs[0]), rest)
  }

  /** `[x] + xs` once both are computed, the head first. */
  function Prepend<T>(head: Result<T>, rest: Result<seq<T>>): Result<seq<T>> {
    var x :- head;
    var xs :- rest;
    Success([x] + xs)
  }

  lemma MakePredicatesStepParses(exprs: seq<string>, rest: Result<seq<Condition>>)
    requires |exprs| > 0
    requires rest.Success? <==> forall k :: 0 <= k < |exprs[1..]| ==> MakePredicate(exprs[1..][k]).Success?
    requires rest.Failure? ==> rest.error.AssertionFailed?
    ensures Prepend(MakePredicate(exprs[0]), rest).Success? <==> forall k :: 0 <= k < |exprs| ==> MakePredicate(exprs[k]).Success?
    ensures Prepend(MakePredicate(exprs[0]), rest).Failure? ==> Prepend(MakePredicate(exprs[0]), rest).error.AssertionFailed?
  {
    assert forall k :: 1 <= k < |exprs| ==> exprs[k] == exprs[1..][k - 1];
  }

  lemma MakePredicatesStepValues(exprs: seq<string>, rest: Result<seq<Condition>>)
    requires |exprs| > 0
    requires rest.Success? ==> |rest.value| == |exprs[1..]|
    requires rest.Success? ==> forall k :: 0 <= k < |exprs[1..]| ==> MakePredicate(exprs[1..][k]) == Success(rest.value[k])
    ensures Prepend(MakePredicate(exprs[0]), rest).Success? ==> |Prepend(MakePredicate(exprs[0]), rest).value| == |exprs|
    ensures Prepend(MakePredicate(exprs[0]), rest).Success? ==>
      forall k :: 0 <= k < |exprs| ==> MakePredicate(exprs[k]) == Success(Prepend(MakePredicate(exprs[0]), rest).value[k])
  {
    assert forall k :: 1 <= k < |exprs| ==> exprs[k] == exprs[1..][k - 1];
  }

  /** The inner `predicate(record)`: the filters in order, stopping at the
      first that does not hold. */
  function AllHold(cs: seq<Condition>, record: Entries): (r: Result<bool>)
    ensures r == Success(true) <==> forall k :: 0 <= k < |cs| ==> Holds(cs[k], record) == Success(true)
    ensures r == Success(false) ==> exists k :: 0 <= k < |cs| && Holds(cs[k], record) == Success(false)
    ensures r.Failure? ==> exists k :: 0 <= k < |cs| && Holds(cs[k], record).Failure?
  {
    if |cs| == 0 then Success(true)
    else
      assert forall k :: 1 <= k < |cs| ==> cs[k] == cs[1..][k - 1];
      var b :- Holds(cs[0], record);
      if !b then Success(false) else AllHold(cs[1..], record)
  }

  /** The records a filter list lets through. */
  function Passing(cs: seq<Condition>): Entries -> bool {
    rec => AllHold(cs, rec) == Success(true)
  }

  /** `[rec for rec in records if predicate(rec)]`, raising at the first record
      whose predicate raises: it keeps, in order, the records every filter
      holds on, and raises when some filter raises on some record. */
  function Keep(records: seq<Entries>, cs: seq<Condition>): (r: Result<seq<Entries>>)
    ensures r.Failure? <==> exists k :: 0 <= k < |records| && AllHold(cs, records[k]).Failure?
    ensures r.Success? ==> r.value == Filter(records, Passing(cs))
  {
    if |records| == 0 then Success([])
    else
      var rest := Keep(records[1..], cs);
      KeepStepFails(records, cs, rest);
      KeepStepKeeps(records, cs, rest);
      KeepCons(AllHold(cs, records[0]), records[0], rest)
  }

  /** The first record's verdict in front of the records kept from the rest. */
  function KeepCons(b: Result<bool>, rec: Entries, rest: Result<seq<Entries>>): Result<seq<Entries>> {
    var keep :- b;
    var kept :- rest;
    Success((if keep then [rec] else []) + kept)
  }

  lemma KeepStepFails(records: seq<Entries>, cs: seq<Condition>, rest: Result<seq<Entries>>)
    requires |records| > 0
    requires rest.Failure? <==> exists k :: 0 <= k < |records[1..]| && AllHold(cs, records[1..][k]).Failure?
    ensures KeepCons(AllHold(cs, records[0]), records[0], rest).Failure? <==>
      exists k :: 0 <= k < |records| && AllHold(cs, records[k]).Failure?
  {
    var tail := records[1..];
    var b := AllHold(cs, records[0]);
    if b.Failure? {
      assert KeepCons(b, records[0], rest).Failure?;
    } else if rest.Failure? {
      assert KeepCons(b, records[0], rest).Failure?;
      var k :| 0 <= k < |tail| && AllHold(cs, tail[k]).Failure?;
      assert records[k + 1] == tail[k];
    } else {
      assert KeepCons(b, records[0], rest).Success?;
      assert forall k :: 0 <= k < |tail| ==> AllHold(cs, tail[k]).Success?;
      NoneFail(records, cs);
    }
  }

  /** No record fails when neither the first nor any of the rest does. */
  lemma NoneFail(records: seq<Entries>, cs: seq<Condition>)
    requires |records| > 0 && AllHold(cs, records[0]).Success?
    requires forall k :: 0 <= k < |records[1..]| ==> AllHold(cs, records[1..][k]).Success?
    ensures forall k :: 0 <= k < |records| ==> AllHold(cs, records[k]).Success?
  {
    forall k | 0 <= k < |records|
      ensures AllHold(cs, records[k]).Success?
    {
      if k > 0 {
        assert records[k] == records[1..][k - 1];
      }
    }
  }

  lemma KeepStepKeeps(records: seq<Entries>, cs: seq<Condition>, rest: Result<seq<Entries>>)
    requires |records| > 0
    requires rest.Success? ==> rest.value == Filter(records[1..], Passing(cs))
    ensures KeepCons(AllHold(cs, records[0]), records[0], rest).Success? ==>
      KeepCons(AllHold(cs, records[0]), records[0], rest).value == Filter(records, Passing(cs))
  {
    var b := AllHold(cs, records[0]);
    if b.Success? && rest.Success? {
      assert Passing(cs)(records[0]) == b.value;
    }
  }

  /** `[project(rec, fields) for rec in filtered]`. */
  function ProjectAll(records: seq<Entries>, fields: seq<string>): (r: Result<seq<Entries>>)
    ensures r.Success? <==> forall k :: 0 <= k < |records| ==> Project(records[k], fields).Success?
    ensures r.Success? ==> |r.value| == |records| && forall k :: 0 <= k < |records| ==> Project(records[k], fields) == Success(r.value[k])
  {
    if |records| == 0 then Success([])
    else
      assert forall k :: 1 <= k < |records| ==> records[k] == records[1..][k - 1];
      var p :- Project(records[0], fields);
      var rest :- ProjectAll(records[1..], fields);
      Success([p] + rest)
  }

  /** `process_records(records, fields, filter_expressions)`. */
  function ProcessRecords(records: seq<Entries>, fields: Option<seq<string>>, exprs: seq<string>): (r: Result<seq<Entries>>)
    ensures (exists k :: 0 <= k < |exprs| && MakePredicate(exprs[k]).Failure?) ==> r.Failure? && r.error.AssertionFailed?
    ensures r.Success? ==> MakePredicates(exprs).Success?
    ensures r.Success? && fields.None? ==> r.value == Filter(records, Passing(MakePredicates(exprs).value))
    ensures r.Success? && fields.Some? ==>
      var kept := Filter(records, Passing(MakePredicates(exprs).value));
      |r.value| == |kept| && forall k :: 0 <= k < |kept| ==> Project(kept[k], fields.value) == Success(r.value[k])
  {
    var cs :- MakePredicates(exprs);
    var kept :- Keep(records, cs);
    if fields.None? then Success(kept) else ProjectAll(kept, fields.value)
  }

  /** With no filters and no field list, the records come back unchanged. */
  lemma ProcessRecordsIdentity(records: seq<Entries>)
    ensures ProcessRecords(records, None, []) == Success(records)
  {
    assert forall k :: 0 <= k < |records| ==> Passing([])(records[k]);
    FilterAll(records, Passing([]));
  }

  /** A record is listed exactly when every filter holds on it. */
  lemma ProcessRecordsKeeps(records: seq<Entries>, exprs: seq<string>, rec: Entries)
    requires ProcessRecords(records, None, exprs).Success? && rec in records
    ensures rec in ProcessRecords(records, None, exprs).value <==>
      forall k :: 0 <= k < |exprs| ==> Holds(MakePredicate(exprs[k]).value, rec) == Success(true)
  {
    var cs := MakePredicates(exprs).value;
    assert forall k :: 0 <= k < |exprs| ==> cs[k] == MakePredicate(exprs[k]).value;
  }

  // ---------------------------------------------------------------------
  // flatten and write_csv

  function IntText(i: int): string {
    if i < 0 then "-" + NatToString(-i) else NatToString(i)
  }

  lemma IntTextReads(i: int)
    ensures i >= 0 ==> ParseNat(IntText(i)) == Some(i)
    ensures i < 0 ==> |IntText(i)| >= 2 && IntText(i)[0] == '-' && ParseNat(IntText(i)[1..]) == Some(-i)
  {
    if i < 0 {
      ParseNatToString(-i);
      assert IntText(i)[1..] == NatToString(-i);
    } else {
      ParseNatToString(i);
    }
  }

  function Quote(s: string): string {
    "'" + s + "'"
  }

  /** `repr(v)`, the form `str` gives a value inside a list or dictionary. */
  function Repr(v: Value): string
    decreases v, 2
  {
    match v
    case Str(s) => Quote(s)
    case _ => Text(v)
  }

  /** `str(v)`: a string is its own text, an integer is written in decimal
      and reads back as itself, and a list or dictionary is bracketed. */
  function Text(v: Value): (r: string)
    ensures v.Str? ==> r == v.s
    ensures v.Int? && v.i >= 0 ==> ParseNat(r) == Some(v.i)
    ensures v.Int? && v.i < 0 ==> |r| >= 2 && r[0] == '-' && ParseNat(r[1..]) == Some(-v.i)
    ensures v.List? ==> |r| >= 2 && r[0] == '[' && r[|r| - 1] == ']'
    ensures v.Dict? ==> |r| >= 2 && r[0] == '{' && r[|r| - 1] == '}'
    decreases v, 1
  {
    match v
    case Null => "None"
    case Bool(b) => if b then "True" else "False"
    case Int(i) =>
      IntTextReads(i);
      IntText(i)
    case Float(t) => t
    case Str(s) => s
    case List(items) =>
      var inner := Join(seq(|items|, k requires 0 <= k < |items| => Repr(items[k])), ", ");
      Enclosed("[", inner, "]");
      "[" + inner + "]"
    case Dict(entries) =>
      var inner := Join(seq(|entries|, k requires 0 <= k < |entries| => Quote(entries[k].0) + ": " + Repr(entries[k].1)), ", ");
      Enclosed("{", inner, "}");
      "{" + inner + "}"
  }

  lemma Enclosed(open: string, inner: string, close: string)
    requires |open| == 1 && |close| == 1
    ensures var r := open + inner + close; |r| >= 2 && r[0] == open[0] && r[|r| - 1] == close[0]
  {
  }

  predicate AllText(e: Entries) {
    forall k :: 0 <= k < |e| ==> e[k].1.Str?
  }

  /** `result[k + "." + inner_k] = inner_v` for the inner items, in order. */
  function PutPrefixed(acc: Entries, key: string, inner: Entries): (r: Entries)
    requires AllText(acc) && AllText(inner)
    ensures AllText(r)
    decreases |inner|
  {
    if |inner| == 0 then acc
    else
      var next := Put(acc, key + "." + inner[0].0, inner[0].1);
      PutPrefixed(next, key, inner[1..])
  }

  /** `flatten(d)`: nested dictionaries become dotted keys and every other
      value its `str`. */
  function Flatten(e: Entries): (r: Entries)
    ensures AllText(r)
    decreases Dict(e), |e| + 1
  {
    FlattenFrom(e, 0, [])
  }

  function FlattenFrom(e: Entries, i: nat, acc: Entries): (r: Entries)
    requires i <= |e| && AllText(acc)
    ensures AllText(r)
    decreases Dict(e), |e| - i
  {
    if i == |e| then acc
    else
      var (k, v) := e[i];
      assert v < e[i];
      var next :=
        if v.Dict? then PutPrefixed(acc, k, Flatten(v.entries))
        else PutText(acc, k, v);
      FlattenFrom(e, i + 1, next)
  }

  function PutText(acc: Entries, k: string, v: Value): (r: Entries)
    requires AllText(acc)
    ensures AllText(r)
  {
    Put(acc, k, Str(Text(v)))
  }

  /** Keys without dots and no key twice, at every level of nesting. */
  predicate PlainValue(v: Value)
    decreases v
  {
    v.Dict? ==>
      && UniqueKeys(v.entries)
      && forall i :: 0 <= i < |v.entries| ==> '.' !in v.entries[i].0 && PlainValue(v.entries[i].1)
  }

  /** A flattened item: its dotted key leads to a stored value that is not a
      dictionary, and the item's value is that value's `str`. */
  predicate LeadsToLeaf(e: Entries, item: (string, Value)) {
    var found := Find(Dict(e), Path(item.0));
    found.Some? && !found.value.Dict? && item.1 == Str(Text(found.value))
  }

  predicate AllLeadToLeaves(e: Entries, acc: Entries) {
    forall x | x in acc :: LeadsToLeaf(e, x)
  }

  /** In a dictionary without repeated keys, reading the key of an entry
      gives that entry's value. */
  lemma {:induction false} GetAt(e: Entries, i: nat)
    requires UniqueKeys(e) && i < |e|
    ensures Get(e, e[i].0) == Some(e[i].1)
  {
    if i > 0 {
      assert e[0].0 != e[i].0;
      assert e[1..][i - 1] == e[i];
      GetAt(e[1..], i - 1);
    }
  }

  lemma SplitPlain(k: string)
    requires '.' !in k
    ensures Path(k) == [k]
  {
    assert FindFrom(k, '.', 0) == -1;
  }

  lemma SplitDotted(k: string, rest: string)
    requires '.' !in k
    ensures Path(k + "." + rest) == [k] + Path(rest)
  {
    var s := k + "." + rest;
    assert s[|k|] == '.';
    assert forall j :: 0 <= j < |k| ==> s[j] == k[j];
    assert FindFrom(s, '.', 0) == |k|;
    assert s[..|k|] == k && s[|k| + 1..] == rest;
  }

  /** Every item of `flatten(d)` comes from a leaf of `d`. */
  lemma FlattenLeaves(e: Entries)
    requires PlainValue(Dict(e))
    ensures AllLeadToLeaves(e, Flatten(e))
    decreases Dict(e), |e| + 1
  {
    FlattenFromLeaves(e, 0, []);
  }

  lemma FlattenFromLeaves(e: Entries, i: nat, acc: Entries)
    requires PlainValue(Dict(e)) && i <= |e| && AllText(acc) && AllLeadToLeaves(e, acc)
    ensures AllLeadToLeaves(e, FlattenFrom(e, i, acc))
    decreases Dict(e), |e| - i
  {
    if i < |e| {
      var (k, v) := e[i];
      assert v < e[i];
      GetAt(e, i);
      var next :=
        if v.Dict? then PutPrefixed(acc, k, Flatten(v.entries))
        else PutText(acc, k, v);
      if v.Dict? {
        FlattenLeaves(v.entries);
        PutPrefixedLeaves(e, k, v.entries, Flatten(v.entries), acc);
      } else {
        SplitPlain(k);
        assert Find(Dict(e), [k]) == Some(v);
      }
      FlattenFromLeaves(e, i + 1, next);
    }
  }

  lemma {:induction false} PutPrefixedLeaves(e: Entries, k: string, c: Entries, inner: Entries, acc: Entries)
    requires '.' !in k && Get(e, k) == Some(Dict(c))
    requires AllText(acc) && AllText(inner)
    requires AllLeadToLeaves(e, acc) && AllLeadToLeaves(c, inner)
    ensures AllLeadToLeaves(e, PutPrefixed(acc, k, inner))
    decreases |inner|
  {
    if |inner| > 0 {
      var key := k + "." + inner[0].0;
      var next := Put(acc, key, inner[0].1);
      assert LeadsToLeaf(c, inner[0]);
      assert LeadsToLeaf(e, (key, inner[0].1)) by {
        SplitDotted(k, inner[0].0);
        assert ([k] + Path(inner[0].0))[1..] == Path(inner[0].0);
      }
      assert AllLeadToLeaves(e, next);
      assert AllLeadToLeaves(c, inner[1..]) by {
        assert forall x | x in inner[1..] :: x in inner;
      }
      PutPrefixedLeaves(e, k, c, inner[1..], next);
    }
  }

  /** An empty nested dictionary gives no column: neither its own key nor
      any key below it. */
  lemma FlattenSkipsEmpty(e: Entries, k: string)
    requires PlainValue(Dict(e)) && '.' !in k && Get(e, k) == Some(Dict([]))
    ensures !HasKey(Flatten(e), k)
    ensures forall rest :: !HasKey(Flatten(e), k + "." + rest)
  {
    var flat := Flatten(e);
    FlattenLeaves(e);
    SplitPlain(k);
    assert Find(Dict(e), Path(k)) == Some(Dict([]));
    GetMember(flat, k);
    forall rest
      ensures !HasKey(flat, k + "." + rest)
    {
      SplitDotted(k, rest);
      assert ([k] + Path(rest))[1..] == Path(rest);
      assert Find(Dict(e), Path(k + "." + rest)) == None;
      GetMember(flat, k + "." + rest);
    }
  }

  /** The keys of the flattened records, record by record, repeats kept. */
  function AllKeys(flat: seq<Entries>): (r: seq<string>)
    ensures forall key :: key in r <==> exists k :: 0 <= k < |flat| && HasKey(flat[k], key)
  {
    if |flat| == 0 then []
    else
      assert forall k :: 1 <= k < |flat| ==> flat[k] == flat[1..][k - 1];
      KeysOf(flat[0]) + AllKeys(flat[1..])
  }

  /** The header of `write_csv`: `keys = set(); keys.update(...); columns.sort()`. */
  function Columns(flat: seq<Entries>): (r: seq<string>)
    ensures SortedBy(r, Self) && NoDuplicates(r)
    ensures forall key :: key in r <==> exists k :: 0 <= k < |flat| && HasKey(flat[k], key)
  {
    SortedSet(AllKeys(flat))
  }

  /** `[rec.get(column, '') for column in columns]` as the CSV writer prints it. */
  function Row(rec: Entries, columns: seq<string>): (r: seq<string>)
    ensures |r| == |columns|
    ensures forall j :: 0 <= j < |columns| && !HasKey(rec, columns[j]) ==> r[j] == ""
    ensures forall j :: 0 <= j < |columns| && HasKey(rec, columns[j]) ==>
      exists v :: (columns[j], v) in rec && r[j] == Text(v)
  {
    forall j | 0 <= j < |columns|
      ensures HasKey(rec, columns[j]) ==> (columns[j], Get(rec, columns[j]).value) in rec
    {
      GetMember(rec, columns[j]);
    }
    seq(|columns|, j requires 0 <= j < |columns| => match Get(rec, columns[j]) case None => "" case Some(v) => Text(v))
  }

  /** The flattened records. */
  function FlattenAll(records: seq<Entries>): (r: seq<Entries>)
    ensures |r| == |records| && forall k :: 0 <= k < |records| ==> r[k] == Flatten(records[k])
  {
    seq(|records|, k requires 0 <= k < |records| => Flatten(records[k]))
  }

  /** `write_csv(records, fd)` as the rows handed to the CSV writer: the
      header, then one row per record. */
  function WriteCsv(records: seq<Entries>): (r: seq<seq<string>>)
    ensures |r| == |records| + 1
    ensures r[0] == Columns(FlattenAll(records))
    ensures r[1..] == Rows(records, r[0])
  {
    var columns := Columns(FlattenAll(records));
    [columns] + Rows(records, columns)
  }

  /** One row per record, each with one cell per column. */
  function Rows(records: seq<Entries>, columns: seq<string>): (r: seq<seq<string>>)
    ensures |r| == |records| && forall i :: 0 <= i < |records| ==> r[i] == Row(Flatten(records[i]), columns)
  {
    seq(|records|, i requires 0 <= i < |records| => Row(Flatten(records[i]), columns))
  }

  /** A column is there exactly when some flattened record has that key. */
  lemma CsvColumns(records: seq<Entries>, key: string)
    ensures key in WriteCsv(records)[0] <==> exists i :: 0 <= i < |records| && HasKey(Flatten(records[i]), key)
  {
  }

  // ---------------------------------------------------------------------
  // list_tasks

  function AnyArgs(xs: seq<string>): (r: bool)
    ensures r <==> exists k :: 0 <= k < |xs| && StartsWith(xs[k], "args.")
  {
    if |xs| == 0 then false
    else
      assert forall k :: 1 <= k < |xs| ==> xs[k] == xs[1..][k - 1];
      StartsWith(xs[0], "args.") || AnyArgs(xs[1..])
  }

  /** The flag of `list_tasks` that decides whether each task's full
      definition is fetched. */
  function NeedsFullTaskDef(fields: Option<seq<string>>, filters: seq<string>, paramsOnly: bool): (r: bool)
    ensures r <==>
      || fields.None?
      || (exists k :: 0 <= k < |fields.value| && StartsWith(fields.value[k], "args."))
      || (exists k :: 0 <= k < |filters| && StartsWith(filters[k], "args."))
      || paramsOnly
  {
    var fromFields := match fields case None => true case Some(fs) => AnyArgs(fs);
    var fromFilters := AnyArgs(filters);
    fromFields || fromFilters || paramsOnly
  }
}

=== FILE: recovery.dfy ===
/** The store-changing commands of kubeque/main.py: recovering claims whose
    owner is gone (`_update_if_owner_missing`, `_resub_preempted`), deleting
    a finished job (`_clean`), `reset_cmd`'s choice of statuses and the
    killing loop of `kill_cmd`.

    `ownerRunning` stands for `cluster.is_owner_running`; the store's
    verdict on each write is `accepted`, or the set `lost` of task ids whose
    write is rejected, as in JobQueue. */
module Recovery {
  import opened Wrappers
  import opened Collections
  import opened JobQueue

  /** A claimed task whose owner the cluster no longer runs. */
  predicate Orphaned(t: Task, ownerRunning: Option<string> -> bool) {
    t.status == Claimed && !ownerRunning(t.owner)
  }

  /** The status an orphaned claim returns to: killed if its job was killed, else pending. */
  function RecoveredStatus(job: Job): (st: TaskStatus)
    ensures st != Claimed
  {
    if job.status == JobKilled then Killed else Pending
  }

  /** An orphaned listing entry whose job record or task record is missing:
      `get_job(..., must=True)` or the re-read in `reset_task` raises. */
  predicate Unrecoverable(s: Store, t: Task, ownerRunning: Option<string> -> bool) {
    Orphaned(t, ownerRunning) && (t.jobId !in s.jobs || t.taskId !in s.tasks)
  }

  /** `_update_if_owner_missing(cluster, jq, task)` for the listing entry `t`. */
  function UpdateIfOwnerMissing(s: Store, t: Task, ownerRunning: Option<string> -> bool, now: int, accepted: bool): (r: Result<Store>)
    ensures !Orphaned(t, ownerRunning) ==> r == Success(s)
    ensures r.Failure? <==> Unrecoverable(s, t, ownerRunning)
    ensures r.Failure? ==> r.error == (if t.jobId !in s.jobs then NoSuchJob(t.jobId) else NoSuchTask(t.taskId))
    ensures r.Success? && !accepted ==> r.value == s
    ensures r.Success? ==> r.value.jobs == s.jobs && r.value.tasks.Keys == s.tasks.Keys
    ensures r.Success? ==> forall id | id in s.tasks && id != t.taskId :: r.value.tasks[id] == s.tasks[id]
    ensures r.Success? && Orphaned(t, ownerRunning) && accepted ==>
      r.value.tasks[t.taskId] == ResetRecord(s.tasks[t.taskId], RecoveredStatus(s.jobs[t.jobId]), now)
  {
    if t.status != Claimed then Success(s)
    else if ownerRunning(t.owner) then Success(s)
    else if t.jobId !in s.jobs then Failure(NoSuchJob(t.jobId))
    else ResetTaskById(s, t.taskId, RecoveredStatus(s.jobs[t.jobId]), now, accepted)
  }

  /** A recovered claim satisfies the ownership invariant again: it is neither
      claimed nor owned. */
  lemma UpdateIfOwnerMissingRestoresOwnership(s: Store, t: Task, ownerRunning: Option<string> -> bool, now: int)
    requires Orphaned(t, ownerRunning)
    requires UpdateIfOwnerMissing(s, t, ownerRunning, now, true).Success?
    ensures var r := UpdateIfOwnerMissing(s, t, ownerRunning, now, true).value;
      OwnerMatchesClaim(r.tasks[t.taskId]) && r.tasks[t.taskId].status != Claimed
  {
  }

  /** `for task in tasks: _update_if_owner_missing(cluster, jq, task)`; the
      first exception ends the loop. */
  function RecoverEach(s: Store, ts: seq<Task>, ownerRunning: Option<string> -> bool, now: int, lost: set<string>): (r: Result<Store>)
    ensures r.Failure? <==> exists k :: 0 <= k < |ts| && Unrecoverable(s, ts[k], ownerRunning)
    ensures r.Success? ==> r.value.jobs == s.jobs && r.value.tasks.Keys == s.tasks.Keys
    decreases |ts|
  {
    if |ts| == 0 then Success(s)
    else
      var t := ts[0];
      match UpdateIfOwnerMissing(s, t, ownerRunning, now, t.taskId !in lost)
      case Failure(e) => Failure(e)
      case Success(s1) =>
        assert forall k | 1 <= k < |ts| :: ts[k] == ts[1..][k - 1];
        RecoverEach(s1, ts[1..], ownerRunning, now, lost)
  }

  /** A task that no successful write of the loop touches keeps its record. */
  lemma {:induction false} RecoverEachKeeps(s: Store, ts: seq<Task>, ownerRunning: Option<string> -> bool, now: int, lost: set<string>, id: string)
    requires id in s.tasks
    requires forall k | 0 <= k < |ts| && ts[k].taskId == id :: !Orphaned(ts[k], ownerRunning) || id in lost
    requires RecoverEach(s, ts, ownerRunning, now, lost).Success?
    ensures RecoverEach(s, ts, ownerRunning, now, lost).value.tasks[id] == s.tasks[id]
    decreases |ts|
  {
    if |ts| > 0 {
      var t := ts[0];
      var s1 := UpdateIfOwnerMissing(s, t, ownerRunning, now, t.taskId !in lost).value;
      assert s1.tasks[id] == s.tasks[id];
      assert forall k | 0 <= k < |ts| - 1 :: ts[1..][k] == ts[k + 1];
      RecoverEachKeeps(s1, ts[1..], ownerRunning, now, lost, id);
    }
  }

  /** An orphaned entry whose write is accepted ends up unowned, in the status
      its job dictates. */
  lemma {:induction false} RecoverEachRecovers(s: Store, ts: seq<Task>, ownerRunning: Option<string> -> bool, now: int, lost: set<string>, k: nat)
    requires Consistent(ts)
    requires k < |ts| && Orphaned(ts[k], ownerRunning) && ts[k].taskId !in lost
    requires RecoverEach(s, ts, ownerRunning, now, lost).Success?
    ensures ts[k].jobId in s.jobs
    ensures var t := RecoverEach(s, ts, ownerRunning, now, lost).value.tasks[ts[k].taskId];
      t.status == RecoveredStatus(s.jobs[ts[k].jobId]) && t.owner == None
    decreases |ts|, 1
  {
    if k > 0 {
      var t := ts[0];
      var s1 := UpdateIfOwnerMissing(s, t, ownerRunning, now, t.taskId !in lost).value;
      var rest := ts[1..];
      assert rest[k - 1] == ts[k];
      RecoverEachCons(s, ts, ownerRunning, now, lost);
      ConsistentTail(ts);
      RecoverEachRecovers(s1, rest, ownerRunning, now, lost, k - 1);
    } else {
      RecoverEachRecoversFirst(s, ts, ownerRunning, now, lost);
    }
  }

  /** `RecoverEachRecovers` for the first entry: a later entry for the same
      task writes the same record again, and otherwise the record stays. */
  lemma {:induction false} RecoverEachRecoversFirst(s: Store, ts: seq<Task>, ownerRunning: Option<string> -> bool, now: int, lost: set<string>)
    requires Consistent(ts)
    requires |ts| > 0 && Orphaned(ts[0], ownerRunning) && ts[0].taskId !in lost
    requires RecoverEach(s, ts, ownerRunning, now, lost).Success?
    ensures ts[0].jobId in s.jobs
    ensures var t := RecoverEach(s, ts, ownerRunning, now, lost).value.tasks[ts[0].taskId];
      t.status == RecoveredStatus(s.jobs[ts[0].jobId]) && t.owner == None
    decreases |ts|, 0
  {
    var t := ts[0];
    var s1 := UpdateIfOwnerMissing(s, t, ownerRunning, now, true).value;
    var rest := ts[1..];
    RecoverEachCons(s, ts, ownerRunning, now, lost);
    ConsistentTail(ts);
    assert forall j | 0 <= j < |rest| :: rest[j] == ts[j + 1];
    if exists j :: 0 <= j < |rest| && rest[j].taskId == t.taskId {
      var j :| 0 <= j < |rest| && rest[j].taskId == t.taskId;
      assert rest[j] == t;
      RecoverEachRecovers(s1, rest, ownerRunning, now, lost, j);
    } else {
      RecoverEachKeeps(s1, rest, ownerRunning, now, lost, t.taskId);
    }
  }

  /** A loop that completes ran its first step and then the rest of the loop from there. */
  lemma {:induction false} RecoverEachCons(s: Store, ts: seq<Task>, ownerRunning: Option<string> -> bool, now: int, lost: set<string>)
    requires |ts| > 0 && RecoverEach(s, ts, ownerRunning, now, lost).Success?
    ensures UpdateIfOwnerMissing(s, ts[0], ownerRunning, now, ts[0].taskId !in lost).Success?
    ensures RecoverEach(s, ts, ownerRunning, now, lost) ==
      RecoverEach(UpdateIfOwnerMissing(s, ts[0], ownerRunning, now, ts[0].taskId !in lost).value, ts[1..], ownerRunning, now, lost)
  {
  }

  /** `_resub_preempted(cluster, jq, jobid)`: recovers the job's orphaned claims. */
  function ResubPreempted(s: Store, jobId: string, ownerRunning: Option<string> -> bool, now: int, lost: set<string>): (r: Result<Store>)
    ensures r.Success? ==> r.value.jobs == s.jobs && r.value.tasks.Keys == s.tasks.Keys
    ensures r.Failure? <==> exists t | t in JobTasks(s, jobId) :: Unrecoverable(s, t, ownerRunning)
  {
    var claimed := JobTasksWithStatus(s, jobId, Claimed);
    assert forall t | t in JobTasks(s, jobId) && Orphaned(t, ownerRunning) :: t in claimed;
    RecoverEach(s, claimed, ownerRunning, now, lost)
  }

  /** After `_resub_preempted`, every claim of the job whose owner is gone and
      whose write was accepted is unowned and back to pending (killed for a
      killed job); every other task is as it was. */
  lemma ResubPreemptedEffect(s: Store, jobId: string, ownerRunning: Option<string> -> bool, now: int, lost: set<string>, id: string)
    requires id in s.tasks
    requires ResubPreempted(s, jobId, ownerRunning, now, lost).Success?
    ensures var t := s.tasks[id];
      var r := ResubPreempted(s, jobId, ownerRunning, now, lost).value;
      if t in JobTasks(s, jobId) && Orphaned(t, ownerRunning) && id !in lost
      then t.jobId in s.jobs && r.tasks[id].status == RecoveredStatus(s.jobs[t.jobId]) && r.tasks[id].owner == None
      else r.tasks[id] == t
  {
    var claimed := JobTasksWithStatus(s, jobId, Claimed);
    ReadFromConsistent(s, claimed);
    var t := s.tasks[id];
    if t in JobTasks(s, jobId) && Orphaned(t, ownerRunning) && id !in lost {
      assert t in claimed;
      var k :| 0 <= k < |claimed| && claimed[k] == t;
      RecoverEachRecovers(s, claimed, ownerRunning, now, lost, k);
    } else {
      forall k | 0 <= k < |claimed| && claimed[k].taskId == id
        ensures !Orphaned(claimed[k], ownerRunning) || id in lost
      {
        assert claimed[k] in JobTasks(s, jobId);
      }
      RecoverEachKeeps(s, claimed, ownerRunning, now, lost, id);
    }
  }

  /** `jq.delete_job(job_id)`: removes the job and the tasks it lists. */
  function DeleteJob(s: Store, jobId: string): (r: Store)
    ensures r.jobs == s.jobs - {jobId}
    ensures jobId in s.jobs ==> forall id | id in s.jobs[jobId].tasks :: id !in r.tasks
    ensures forall id | id in s.tasks && (jobId !in s.jobs || id !in s.jobs[jobId].tasks) ::
      id in r.tasks && r.tasks[id] == s.tasks[id]
    ensures forall id | id in r.tasks :: id in s.tasks && r.tasks[id] == s.tasks[id]
  {
    var listed := if jobId in s.jobs then set id | id in s.jobs[jobId].tasks else {};
    Store(s.jobs - {jobId}, s.tasks - listed)
  }

  /** Whether some task of the job is claimed (`STATUS_CLAIMED in status_counts`). */
  predicate HasClaims(s: Store, jobId: string) {
    Claimed in GetStatusCounts(s, jobId)
  }

  /** `_clean(cluster, jq, jobid, force)`: the store afterwards and whether the
      job was deleted. */
  function Clean(s: Store, jobId: string, force: bool, ownerRunning: Option<string> -> bool, now: int, lost: set<string>): (r: Result<(Store, bool)>)
    ensures force ==> r == Success((DeleteJob(s, jobId), true))
    ensures r.Success? && r.value.1 ==> jobId !in r.value.0.jobs
    ensures r.Success? && !r.value.1 ==> !force && r.value.0.jobs == s.jobs && HasClaims(r.value.0, jobId)
    ensures r.Failure? ==> !force && HasClaims(s, jobId)
  {
    if force || !HasClaims(s, jobId) then Success((DeleteJob(s, jobId), true))
    else
      var s1 :- ResubPreempted(s, jobId, ownerRunning, now, lost);
      if HasClaims(s1, jobId) then Success((s1, false))
      else Success((DeleteJob(s1, jobId), true))
  }

  /** A claim that survives the recovery pass: its owner runs, or its reset was lost. */
  predicate SurvivingClaim(t: Task, ownerRunning: Option<string> -> bool, lost: set<string>) {
    t.status == Claimed && (ownerRunning(t.owner) || t.taskId in lost)
  }

  /** Without `force`, `_clean` deletes the job exactly when no claim of the
      job survives the recovery pass. */
  lemma CleanDeletesIff(s: Store, jobId: string, ownerRunning: Option<string> -> bool, now: int, lost: set<string>)
    requires Clean(s, jobId, false, ownerRunning, now, lost).Success?
    ensures Clean(s, jobId, false, ownerRunning, now, lost).value.1 <==>
      forall t | t in JobTasks(s, jobId) :: !SurvivingClaim(t, ownerRunning, lost)
  {
    CountedClaims(s, jobId);
    if HasClaims(s, jobId) {
      var s1 := ResubPreempted(s, jobId, ownerRunning, now, lost).value;
      CountedClaims(s1, jobId);
      SameListing(s, s1, jobId, ownerRunning, now, lost);
    }
  }

  /** `STATUS_CLAIMED in get_status_counts(job)` iff some listed task is claimed. */
  lemma CountedClaims(s: Store, jobId: string)
    ensures HasClaims(s, jobId) <==> exists t | t in JobTasks(s, jobId) :: t.status == Claimed
  {
    var ts := JobTasks(s, jobId);
    if HasClaims(s, jobId) {
      var k :| 0 <= k < |Statuses(ts)| && Statuses(ts)[k] == Claimed;
      assert ts[k] in ts;
    }
    if exists t | t in ts :: t.status == Claimed {
      var t :| t in ts && t.status == Claimed;
      var k :| 0 <= k < |ts| && ts[k] == t;
      assert Statuses(ts)[k] == Claimed;
    }
  }

  /** After the recovery pass, some task of the job is claimed iff some claim survived. */
  lemma SameListing(s: Store, s1: Store, jobId: string, ownerRunning: Option<string> -> bool, now: int, lost: set<string>)
    requires ResubPreempted(s, jobId, ownerRunning, now, lost) == Success(s1)
    ensures (exists t | t in JobTasks(s1, jobId) :: t.status == Claimed) <==>
      exists t | t in JobTasks(s, jobId) :: SurvivingClaim(t, ownerRunning, lost)
  {
    if exists t | t in JobTasks(s1, jobId) :: t.status == Claimed {
      var t1 :| t1 in JobTasks(s1, jobId) && t1.status == Claimed;
      var id := t1.taskId;
      ResubPreemptedEffect(s, jobId, ownerRunning, now, lost, id);
      var t := s.tasks[id];
      assert t == t1;
      assert t in JobTasks(s, jobId) by {
        var ids := s.jobs[jobId].tasks;
        var k :| 0 <= k < |JobTasks(s1, jobId)| && JobTasks(s1, jobId)[k] == t1;
        ListedInBoth(s, s1, jobId, id);
      }
      assert SurvivingClaim(t, ownerRunning, lost);
    }
    if exists t | t in JobTasks(s, jobId) :: SurvivingClaim(t, ownerRunning, lost) {
      var t :| t in JobTasks(s, jobId) && SurvivingClaim(t, ownerRunning, lost);
      var id := t.taskId;
      ResubPreemptedEffect(s, jobId, ownerRunning, now, lost, id);
      ListedInBoth(s, s1, jobId, id);
      assert s1.tasks[id] == t;
    }
  }

  /** A task id is listed for the job in both stores of a recovery pass, and
      the listings hold each store's record for it. */
  lemma ListedInBoth(s: Store, s1: Store, jobId: string, id: string)
    requires s1.jobs == s.jobs && s1.tasks.Keys == s.tasks.Keys
    requires id in s.tasks
    ensures s.tasks[id] in JobTasks(s, jobId) <==> s1.tasks[id] in JobTasks(s1, jobId)
  {
    ListedById(s, jobId, id);
    ListedById(s1, jobId, id);
  }

  /** A stored record is in the job's listing iff the job lists its id. */
  lemma ListedById(s: Store, jobId: string, id: string)
    requires id in s.tasks
    ensures s.tasks[id] in JobTasks(s, jobId) <==> jobId in s.jobs && id in s.jobs[jobId].tasks
  {
    if s.tasks[id] in JobTasks(s, jobId) {
      var ts := JobTasks(s, jobId);
      var k :| 0 <= k < |ts| && ts[k] == s.tasks[id];
      ListedIds(s, s.jobs[jobId].tasks, k);
    }
  }

  /** Each entry of `TasksByIds(ids)` is the record of one of `ids`. */
  lemma {:induction false} ListedIds(s: Store, ids: seq<string>, k: nat)
    requires k < |TasksByIds(s, ids)|
    ensures TasksByIds(s, ids)[k].taskId in ids
    decreases |ids|
  {
    if ids[0] in s.tasks {
      if k > 0 {
        ListedIds(s, ids[1..], k - 1);
      }
    } else {
      ListedIds(s, ids[1..], k);
    }
  }

  /** `reset_cmd`'s statuses to clear: with `--all` complete tasks too. */
  function ResetStatuses(all: bool): (r: set<TaskStatus>)
    ensures Claimed in r && Failed in r && Killed in r
    ensures Pending !in r && Lost !in r
    ensures Complete in r <==> all
  {
    if all then {Claimed, Failed, Complete, Killed} else {Claimed, Failed, Killed}
  }

  /** `reset_cmd` for one job: `jq.reset(jobid, owner, statuses_to_clear)`. */
  function ResetCmd(s: Store, jobId: string, owner: Option<string>, all: bool, now: int, lost: set<string>): (r: (Store, nat))
    ensures r.1 <= |JobTasks(s, jobId)|
    ensures r.0.jobs == SetJobStatus(s.jobs, jobId, Submitted)
  {
    Reset(s, jobId, owner, ResetStatuses(all), now, lost)
  }

  /** `reset_cmd` never touches a pending task, nor a complete one without `--all`. */
  lemma ResetCmdSpares(s: Store, jobId: string, owner: Option<string>, all: bool, now: int, lost: set<string>, id: string)
    requires id in s.tasks
    requires s.tasks[id].status == Pending || (s.tasks[id].status == Complete && !all)
    ensures ResetCmd(s, jobId, owner, all, now, lost).0.tasks[id] == s.tasks[id]
  {
    ResetKeepsUnselected(s, jobId, owner, ResetStatuses(all), now, lost, id);
  }

  /** `for task in tasks: jq.reset_task(task.task_id, status=status)`. */
  function ResetEachById(s: Store, ids: seq<string>, status: TaskStatus, now: int, lost: set<string>): (r: Result<Store>)
    ensures r.Failure? <==> exists k :: 0 <= k < |ids| && ids[k] !in s.tasks
    ensures r.Success? ==> r.value.jobs == s.jobs && r.value.tasks.Keys == s.tasks.Keys
    decreases |ids|
  {
    if |ids| == 0 then Success(s)
    else
      match ResetTaskById(s, ids[0], status, now, ids[0] !in lost)
      case Failure(e) => Failure(e)
      case Success(s1) =>
        assert forall k | 1 <= k < |ids| :: ids[k] == ids[1..][k - 1];
        ResetEachById(s1, ids[1..], status, now, lost)
  }

  /** Every listed id whose write is accepted ends up in `status`, unowned;
      every other task keeps its record. */
  lemma {:induction false} ResetEachByIdEffect(s: Store, ids: seq<string>, status: TaskStatus, now: int, lost: set<string>, id: string)
    requires id in s.tasks
    requires ResetEachById(s, ids, status, now, lost).Success?
    ensures var r := ResetEachById(s, ids, status, now, lost).value;
      if id in ids && id !in lost then r.tasks[id].status == status && r.tasks[id].owner == None
      else r.tasks[id] == s.tasks[id]
    decreases |ids|
  {
    if |ids| > 0 {
      var s1 := ResetTaskById(s, ids[0], status, now, ids[0] !in lost).value;
      assert ids == [ids[0]] + ids[1..];
      ResetEachByIdEffect(s1, ids[1..], status, now, lost, id);
    }
  }

  function TaskIds(ts: seq<Task>): (r: seq<string>)
    ensures |r| == |ts| && forall k :: 0 <= k < |ts| ==> r[k] == ts[k].taskId
  {
    seq(|ts|, k requires 0 <= k < |ts| => ts[k].taskId)
  }

  /** `kill_cmd` for one job. `clusterClaimed` is the answer of
      `get_tasks_for_cluster(job.cluster, STATUS_CLAIMED)`, a datastore query
      outside this model; stopping the cluster is a side effect on it. */
  function KillCmd(s: Store, jobId: string, keepCluster: bool, clusterClaimed: seq<Task>,
                   ownerRunning: Option<string> -> bool, now: int, lostRecovery: set<string>, lostKill: set<string>): (r: Result<Store>)
    ensures jobId !in s.jobs ==> r == Failure(NoSuchJob(jobId))
    ensures r.Success? ==> r.value.jobs == SetJobStatus(s.jobs, jobId, JobKilled) && r.value.tasks.Keys == s.tasks.Keys
  {
    var (s1, job) :- KillJob(s, jobId);
    var s2 :- if keepCluster then Success(s1) else RecoverEach(s1, clusterClaimed, ownerRunning, now, lostRecovery);
    KillPending(s2, jobId, now, lostKill)
  }

  /** The last loop of `kill_cmd`: every pending task of the job becomes killed. */
  function KillPending(s: Store, jobId: string, now: int, lost: set<string>): (r: Result<Store>)
    ensures r.Success?
    ensures r.value.jobs == s.jobs && r.value.tasks.Keys == s.tasks.Keys
  {
    var pending := JobTasksWithStatus(s, jobId, Pending);
    ResetEachById(s, TaskIds(pending), Killed, now, lost)
  }

  /** After the killing loop, the only pending tasks left in the job are those
      whose write the store rejected. */
  lemma KillPendingLeavesNoPending(s: Store, jobId: string, now: int, lost: set<string>)
    ensures var r := KillPending(s, jobId, now, lost).value;
      forall t | t in JobTasks(r, jobId) && t.status == Pending :: t.taskId in lost
  {
    var r := KillPending(s, jobId, now, lost).value;
    var pending := JobTasksWithStatus(s, jobId, Pending);
    var ids := TaskIds(pending);
    forall t | t in JobTasks(r, jobId) && t.status == Pending
      ensures t.taskId in lost
    {
      var id := t.taskId;
      var ts := JobTasks(r, jobId);
      var k :| 0 <= k < |ts| && ts[k] == t;
      assert id in r.tasks && r.tasks[id] == t;
      ResetEachByIdEffect(s, ids, Killed, now, lost, id);
      ListedById(r, jobId, id);
      ListedById(s, jobId, id);
      assert s.tasks[id] in JobTasks(s, jobId);
      assert s.tasks[id].status == Pending ==> s.tasks[id] in pending;
      assert s.tasks[id] in pending ==> id in ids by {
        if s.tasks[id] in pending {
          var j :| 0 <= j < |pending| && pending[j] == s.tasks[id];
          assert ids[j] == pending[j].taskId;
        }
      }
    }
  }

  /** After `kill_cmd`, the job's only pending tasks are those whose kill write
      the store rejected. */
  lemma KillCmdLeavesNoPending(s: Store, jobId: string, keepCluster: bool, clusterClaimed: seq<Task>,
                               ownerRunning: Option<string> -> bool, now: int, lostRecovery: set<string>, lostKill: set<string>)
    requires KillCmd(s, jobId, keepCluster, clusterClaimed, ownerRunning, now, lostRecovery, lostKill).Success?
    ensures var r := KillCmd(s, jobId, keepCluster, clusterClaimed, ownerRunning, now, lostRecovery, lostKill).value;
      forall t | t in JobTasks(r, jobId) && t.status == Pending :: t.taskId in lostKill
  {
    var s1 := KillJob(s, jobId).value.0;
    var s2 := if keepCluster then s1 else RecoverEach(s1, clusterClaimed, ownerRunning, now, lostRecovery).value;
    KillPendingLeavesNoPending(s2, jobId, now, lostKill);
  }

  /** Because the job is marked killed before the recovery pass, an orphaned
      claim of the job found on its cluster ends up killed, not pending. */
  lemma KillCmdKillsOrphans(s: Store, jobId: string, clusterClaimed: seq<Task>,
                            ownerRunning: Option<string> -> bool, now: int, lostRecovery: set<string>, lostKill: set<string>, k: nat)
    requires Consistent(clusterClaimed)
    requires k < |clusterClaimed| && clusterClaimed[k].jobId == jobId
    requires Orphaned(clusterClaimed[k], ownerRunning) && clusterClaimed[k].taskId !in lostRecovery
    requires KillCmd(s, jobId, false, clusterClaimed, ownerRunning, now, lostRecovery, lostKill).Success?
    ensures var r := KillCmd(s, jobId, false, clusterClaimed, ownerRunning, now, lostRecovery, lostKill).value;
      r.tasks[clusterClaimed[k].taskId].status == Killed && r.tasks[clusterClaimed[k].taskId].owner == None
  {
    var s1 := KillJob(s, jobId).value.0;
    var s2 := RecoverEach(s1, clusterClaimed, ownerRunning, now, lostRecovery).value;
    var id := clusterClaimed[k].taskId;
    RecoverEachRecovers(s1, clusterClaimed, ownerRunning, now, lostRecovery, k);
    assert s2.tasks[id].status == Killed;
    var ids := TaskIds(JobTasksWithStatus(s2, jobId, Pending));
    NotPendingNotKilled(s2, jobId, id);
    assert KillCmd(s, jobId, false, clusterClaimed, ownerRunning, now, lostRecovery, lostKill) == KillPending(s2, jobId, now, lostKill);
    ResetEachByIdEffect(s2, ids, Killed, now, lostKill, id);
  }

  /** The killing loop does not visit a task that is not pending. */
  lemma NotPendingNotKilled(s: Store, jobId: string, id: string)
    requires id in s.tasks && s.tasks[id].status != Pending
    ensures id !in TaskIds(JobTasksWithStatus(s, jobId, Pending))
  {
    var pending := JobTasksWithStatus(s, jobId, Pending);
    var ids := TaskIds(pending);
    forall j | 0 <= j < |ids|
      ensures ids[j] != id
    {
      assert pending[j] in JobTasks(s, jobId);
      var ts := JobTasks(s, jobId);
      var i :| 0 <= i < |ts| && ts[i] == pending[j];
      assert s.tasks[ids[j]] == pending[j];
    }
  }
}

=== FILE: strings.dfy ===
/** The small part of Python's `str` API the modelled code relies on:
    prefix/suffix tests, `find`, `rfind`, `split`, `join`, `str(int)` and
    the code-point ordering `sort()` uses. Strings are `seq<char>`. */
module Strings {
  import opened Wrappers

  predicate StartsWith(s: string, prefix: string) {
    |prefix| <= |s| && s[..|prefix|] == prefix
  }

  predicate EndsWith(s: string, suffix: string) {
    |suffix| <= |s| && s[|s| - |suffix|..] == suffix
  }

  /** `s.find(c, start)`: the first index at or after `start` holding `c`, or -1. */
  function FindFrom(s: string, c: char, start: nat): (r: int)
    ensures -1 <= r < |s|
    ensures r == -1 <==> forall i :: start <= i < |s| ==> s[i] != c
    ensures r >= 0 ==> start <= r && s[r] == c && forall i :: start <= i < r ==> s[i] != c
    decreases |s| - start
  {
    if start >= |s| then -1
    else if s[start] == c then start
    else FindFrom(s, c, start + 1)
  }

  /** `s.rfind(c)`: the last index holding `c`, or -1. */
  function LastIndexOf(s: string, c: char): (r: int)
    ensures -1 <= r < |s|
    ensures r == -1 <==> c !in s
    ensures r >= 0 ==> s[r] == c && c !in s[r + 1..]
  {
    if |s| == 0 then -1
    else if s[|s| - 1] == c then |s| - 1
    else
      var r := LastIndexOf(s[..|s| - 1], c);
      assert s[..|s| - 1] + [s[|s| - 1]] == s;
      r
  }

  /** `os.path.basename(p)`: everything after the last '/'. */
  function BaseName(p: string): (r: string)
    ensures '/' !in r
    ensures EndsWith(p, r)
    ensures '/' !in p ==> r == p
  {
    p[LastIndexOf(p, '/') + 1..]
  }

  /** The text before the first newline: what a regular-expression `.*` can match. */
  function TakeLine(s: string): (r: string)
    ensures StartsWith(s, r)
    ensures '\n' !in r
    ensures '\n' !in s ==> r == s
    ensures |r| < |s| ==> s[|r|] == '\n'
  {
    var i := FindFrom(s, '\n', 0);
    if i < 0 then s else s[..i]
  }

  /** `s.split(sep)` for a one-character separator: never empty. */
  function Split(s: string, sep: char): (r: seq<string>)
    ensures |r| >= 1
    ensures forall k :: 0 <= k < |r| ==> sep !in r[k]
    decreases |s|
  {
    var i := FindFrom(s, sep, 0);
    if i < 0 then [s] else [s[..i]] + Split(s[i + 1..], sep)
  }

  /** `sep.join(parts)`. */
  function Join(parts: seq<string>, sep: string): string {
    if |parts| == 0 then ""
    else if |parts| == 1 then parts[0]
    else parts[0] + sep + Join(parts[1..], sep)
  }

  /** Joining the pieces of a split gives back the original string. */
  lemma {:induction false} JoinSplit(s: string, sep: char)
    ensures Join(Split(s, sep), [sep]) == s
    decreases |s|
  {
    var i := FindFrom(s, sep, 0);
    if i >= 0 {
      var rest := s[i + 1..];
      JoinSplit(rest, sep);
      var parts := Split(s, sep);
      var tail := Split(rest, sep);
      assert parts == [s[..i]] + tail;
      assert parts[0] == s[..i] && parts[1..] == tail;
      assert Join(parts, [sep]) == s[..i] + [sep] + Join(tail, [sep]);
      assert s == s[..i] + [sep] + rest;
    }
  }

  /** Joining two non-empty runs of parts puts one separator between them. */
  lemma {:induction false} JoinAppend(a: seq<string>, b: seq<string>, sep: string)
    requires |a| >= 1 && |b| >= 1
    ensures Join(a + b, sep) == Join(a, sep) + sep + Join(b, sep)
    decreases |a|
  {
    if |a| == 1 {
      assert (a + b)[1..] == b;
    } else {
      JoinAppend(a[1..], b, sep);
      assert (a + b)[1..] == a[1..] + b;
    }
  }

  /** Splitting a join of separator-free parts gives back the parts. */
  lemma {:induction false} SplitJoin(parts: seq<string>, sep: char)
    requires |parts| >= 1
    requires forall k :: 0 <= k < |parts| ==> sep !in parts[k]
    ensures Split(Join(parts, [sep]), sep) == parts
    decreases |parts|
  {
    var s := Join(parts, [sep]);
    if |parts| == 1 {
      assert FindFrom(s, sep, 0) == -1;
    } else {
      var rest := Join(parts[1..], [sep]);
      SplitJoin(parts[1..], sep);
      assert s == parts[0] + [sep] + rest;
      var i := |parts[0]|;
      assert s[i] == sep;
      assert forall j :: 0 <= j < i ==> s[j] == parts[0][j];
      assert FindFrom(s, sep, 0) == i;
      assert s[..i] == parts[0];
      assert s[i + 1..] == rest;
    }
  }

  predicate IsDigit(c: char) {
    '0' <= c <= '9'
  }

  function DigitChar(d: nat): char
    requires d < 10
  {
    ('0' as int + d) as char
  }

  function DigitValue(c: char): nat
    requires IsDigit(c)
  {
    c as int - '0' as int
  }

  /** `str(n)` for a non-negative integer. */
  function NatToString(n: nat): (r: string)
    ensures |r| >= 1
    ensures forall k :: 0 <= k < |r| ==> IsDigit(r[k])
  {
    if n < 10 then [DigitChar(n)] else NatToString(n / 10) + [DigitChar(n % 10)]
  }

  /** The value of a non-empty string of decimal digits (`int(s)` on such a string). */
  function DigitsValue(s: string): nat
    requires forall k :: 0 <= k < |s| ==> IsDigit(s[k])
  {
    if |s| == 0 then 0 else 10 * DigitsValue(s[..|s| - 1]) + DigitValue(s[|s| - 1])
  }

  /** `int(s)` restricted to plain decimal digit strings. */
  function ParseNat(s: string): (r: Option<nat>)
    ensures r.Some? <==> |s| > 0 && forall k :: 0 <= k < |s| ==> IsDigit(s[k])
  {
    if |s| > 0 && forall k :: 0 <= k < |s| ==> IsDigit(s[k]) then Some(DigitsValue(s)) else None
  }

  /** `int(str(n)) == n`. */
  lemma {:induction false} ParseNatToString(n: nat)
    ensures ParseNat(NatToString(n)) == Some(n)
  {
    var s := NatToString(n);
    if n >= 10 {
      ParseNatToString(n / 10);
      assert s[..|s| - 1] == NatToString(n / 10);
      assert DigitValue(s[|s| - 1]) == n % 10;
    } else {
      assert |s| == 1 && s[..0] == [];
      assert DigitsValue(s) == DigitValue(s[0]) == n;
    }
  }

  /** Different numbers print differently. */
  lemma NatToStringInjective(a: nat, b: nat)
    requires NatToString(a) == NatToString(b)
    ensures a == b
  {
    ParseNatToString(a);
    ParseNatToString(b);
  }

  /** Python's string comparison: lexicographic on code points, a prefix first. */
  predicate LessEq(a: string, b: string) {
    |a| == 0 || (|b| > 0 && (a[0] < b[0] || (a[0] == b[0] && LessEq(a[1..], b[1..]))))
  }

  lemma {:induction false} LessEqTotal(a: string, b: string)
    ensures LessEq(a, b) || LessEq(b, a)
  {
    if |a| > 0 && |b| > 0 && a[0] == b[0] {
      LessEqTotal(a[1..], b[1..]);
    }
  }

  lemma {:induction false} LessEqAntisymmetric(a: string, b: string)
    requires LessEq(a, b) && LessEq(b, a)
    ensures a == b
  {
    if |a| > 0 && |b| > 0 {
      LessEqAntisymmetric(a[1..], b[1..]);
      assert a == [a[0]] + a[1..];
      assert b == [b[0]] + b[1..];
    }
  }

  lemma {:induction false} LessEqTransitive(a: string, b: string, c: string)
    requires LessEq(a, b) && LessEq(b, c)
    ensures LessEq(a, c)
  {
    if |a| > 0 && a[0] == b[0] && b[0] == c[0] {
      LessEqTransitive(a[1..], b[1..], c[1..]);
    }
  }
}

=== FILE: submit.dfy ===
/** The string and spec helpers of sparklespray/submit.py: URL rewriting,
    the merge of the common and per-task spec, the `src:dst` and
    `name=value,...` parsers, bucket paths, and the two configuration rules
    `submit` applies (boot disk size and preemptible attempts).

    A failed `assert` becomes `Failure(AssertionFailed)`; a raised exception
    or a failed `int(...)` becomes `Failure(Malformed)`. */
module Submit {
  import opened Wrappers
  import opened Strings
  import opened Json

  /** `"//" in u[start:]`. */
  predicate DoubleSlashFrom(u: string, start: nat)
    decreases |u| - start
  {
    start + 1 < |u| && ((u[start] == '/' && u[start + 1] == '/') || DoubleSlashFrom(u, start + 1))
  }

  /** The prefix with one trailing '/' added when it has none. */
  function WithSlash(prefix: string): string {
    if EndsWith(prefix, "/") then prefix else prefix + "/"
  }

  /** The path with one leading '/' removed. */
  function Unrooted(url: string): string {
    if StartsWith(url, "/") then url[1..] else url
  }

  /** `rewrite_url_with_prefix(url, default_url_prefix)`. A url holding ':' is
      taken as absolute; any other is appended to the prefix. */
  function RewriteUrlWithPrefix(url: string, prefix: string): (r: Result<string>)
    ensures ':' in url ==> (r.Success? ==> r.value == url)
    ensures r.Success? ==> !DoubleSlashFrom(r.value, 4)
    ensures r.Failure? ==> r.error.AssertionFailed? && DoubleSlashFrom(r.error.what, 4)
    ensures ':' !in url && r.Success? ==>
      var full := WithSlash(prefix) + Unrooted(url);
      && (EndsWith(full, "/") ==> r.value + "/" == full)
      && (!EndsWith(full, "/") ==> r.value == full)
    ensures ':' in prefix && r.Success? ==> ':' in r.value
    ensures r.Failure? <==> DoubleSlashFrom(if ':' in url then url else Rooted(url, prefix), 4)
  {
    var u := if ':' in url then url else Rooted(url, prefix);
    if DoubleSlashFrom(u, 4) then Failure(AssertionFailed(u)) else Success(u)
  }

  /** The relative `url` placed under `prefix`, with one trailing '/' stripped. */
  function Rooted(url: string, prefix: string): (r: string)
    ensures ':' in prefix ==> ':' in r
  {
    var full := WithSlash(prefix) + Unrooted(url);
    if EndsWith(full, "/") then
      assert ':' in prefix ==> ':' in full[..|full| - 1] by {
        if ':' in prefix {
          var i :| 0 <= i < |prefix| && prefix[i] == ':';
          assert full[i] == ':';
        }
      }
      full[..|full| - 1]
    else
      assert ':' in prefix ==> ':' in full by {
        if ':' in prefix {
          var i :| 0 <= i < |prefix| && prefix[i] == ':';
          assert full[i] == ':';
        }
      }
      full
  }

  /** With an absolute prefix, rewriting a rewritten url changes nothing. */
  lemma RewriteUrlIdempotent(url: string, prefix: string)
    requires ':' in prefix
    requires RewriteUrlWithPrefix(url, prefix).Success?
    ensures RewriteUrlWithPrefix(RewriteUrlWithPrefix(url, prefix).value, prefix) == RewriteUrlWithPrefix(url, prefix)
  {
  }

  /** A relative path lands under the default prefix, one '/' between them;
      an absolute one is kept; a doubled '/' past the scheme is refused. */
  lemma RewriteUrlExample()
    ensures RewriteUrlWithPrefix("/x", "gs://b") == Success("gs://b/x")
    ensures RewriteUrlWithPrefix("gs://c/y", "gs://b/") == Success("gs://c/y")
    ensures RewriteUrlWithPrefix("a//b", "gs://b") == Failure(AssertionFailed("gs://b/a//b"))
  {
    var u := "gs://b/x";
    assert WithSlash("gs://b") == "gs://b/";
    assert Unrooted("/x") == "x";
    assert Rooted("/x", "gs://b") == u;
    assert !DoubleSlashFrom(u, 6);
    assert !DoubleSlashFrom(u, 5);
    assert !DoubleSlashFrom(u, 4);
    var v := "gs://c/y";
    assert v[2] == ':';
    assert !DoubleSlashFrom(v, 6);
    assert !DoubleSlashFrom(v, 5);
    assert !DoubleSlashFrom(v, 4);
    var w := "gs://b/a//b";
    assert Unrooted("a//b") == "a//b";
    assert w[|w| - 1] == 'b';
    assert Rooted("a//b", "gs://b") == w;
    assert DoubleSlashFrom(w, 8);
    assert DoubleSlashFrom(w, 4);
  }

  /** `rewrite_url_in_dict(d, prop_name, default_url_prefix)`. A value that is
      not a string cannot be rewritten. */
  function RewriteUrlInDict(d: Entries, prop: string, prefix: string): (r: Result<Entries>)
    ensures !HasKey(d, prop) ==> r == Success(d)
    ensures r.Success? ==> forall j | j != prop :: Get(r.value, j) == Get(d, j)
    ensures r.Success? && HasKey(d, prop) ==>
      && Get(d, prop).value.Str? && RewriteUrlWithPrefix(Get(d, prop).value.s, prefix).Success?
      && Get(r.value, prop) == Some(Str(RewriteUrlWithPrefix(Get(d, prop).value.s, prefix).value))
    ensures HasKey(d, prop) ==> (r.Failure? <==>
      !Get(d, prop).value.Str? || RewriteUrlWithPrefix(Get(d, prop).value.s, prefix).Failure?)
  {
    match Get(d, prop)
    case None => Success(d)
    case Some(Str(url)) =>
      var u :- RewriteUrlWithPrefix(url, prefix);
      Success(Put(d, prop, Str(u)))
    case Some(_) => Failure(TypeMismatch(prop))
  }

  /** The attributes a task's own spec overrides in the common spec. */
  const OverriddenAttrs: seq<string> := ["helper_log", "command", "uploads"]

  /** `for attr in attrs: if attr in task: spec[attr] = task[attr]`. */
  function Override(spec: Entries, task: Entries, attrs: seq<string>): (r: Entries)
    ensures forall j :: Get(r, j) == if j in attrs && HasKey(task, j) then Get(task, j) else Get(spec, j)
    decreases |attrs|
  {
    if |attrs| == 0 then spec
    else
      var a := attrs[0];
      var spec1 := if HasKey(task, a) then Put(spec, a, Get(task, a).value) else spec;
      var r := Override(spec1, task, attrs[1..]);
      assert forall j :: j in attrs <==> j == a || j in attrs[1..];
      r
  }

  /** The downloads listed under `downloads`, when that is a list. */
  predicate ListAt(e: Entries, k: string) {
    HasKey(e, k) && Get(e, k).value.List?
  }

  /** `expand_task_spec(common, task)`: a copy of `common` with the task's
      overrides and the task's downloads after the common ones. `common` is a
      value here, so the source's deep copy leaves nothing to mutate. The
      common spec must hold a `downloads` list; the task's, when present,
      must be a list too. */
  function ExpandTaskSpec(common: Entries, task: Entries): (r: Result<Entries>)
    ensures r.Success? <==> ListAt(common, "downloads") && (HasKey(task, "downloads") ==> ListAt(task, "downloads"))
    ensures r.Failure? && !HasKey(common, "downloads") ==> r.error == KeyMissing("downloads")
    ensures r.Success? ==> forall j | j !in OverriddenAttrs && j != "downloads" :: Get(r.value, j) == Get(common, j)
    ensures r.Success? ==> forall j | j in OverriddenAttrs ::
      Get(r.value, j) == if HasKey(task, j) then Get(task, j) else Get(common, j)
    ensures r.Success? ==>
      var extra := if HasKey(task, "downloads") then Get(task, "downloads").value.items else [];
      Get(r.value, "downloads") == Some(List(Get(common, "downloads").value.items + extra))
  {
    var spec := Override(common, task, OverriddenAttrs);
    assert Get(spec, "downloads") == Get(common, "downloads");
    match Get(spec, "downloads")
    case None => Failure(KeyMissing("downloads"))
    case Some(List(ds)) =>
      (match Get(task, "downloads")
       case None =>
         assert ds + [] == ds;
         Success(spec)
       case Some(List(ts)) => Success(Put(spec, "downloads", List(ds + ts)))
       case Some(_) => Failure(TypeMismatch("downloads")))
    case Some(_) => Failure(TypeMismatch("downloads"))
  }

  /** Where `_split_source_dest` looks for the separating ':': past the
      scheme of a `gs://` path, from the start otherwise. */
  function ColonIndex(file: string): (r: int)
    ensures -1 <= r < |file|
    ensures r >= 0 ==> file[r] == ':'
  {
    if StartsWith(file, "gs://") then FindFrom(file, ':', 5) else FindFrom(file, ':', 0)
  }

  /** A rooted or bucket destination is replaced by its last path component. */
  function LocalDest(dest: string): (r: string)
    ensures StartsWith(dest, "/") || StartsWith(dest, "gs://") ==> '/' !in r && EndsWith(dest, r)
    ensures !(StartsWith(dest, "/") || StartsWith(dest, "gs://")) ==> r == dest
  {
    if StartsWith(dest, "/") || StartsWith(dest, "gs://") then BaseName(dest) else dest
  }

  /** `_split_source_dest(file)`: `(source, dest)`. The source is everything
      before the separating ':', and the destination is made from everything
      after it; with no ':' both come from the whole. */
  function SplitSourceDest(file: string): (r: (string, string))
    ensures ColonIndex(file) >= 0 ==>
      var raw := file[ColonIndex(file) + 1..];
      && file == r.0 + ":" + raw
      && r.1 == LocalDest(raw)
    ensures ColonIndex(file) < 0 ==> r == (file, LocalDest(file))
  {
    var i := ColonIndex(file);
    if i >= 0 then
      assert file == file[..i] + [file[i]] + file[i + 1..];
      (file[..i], LocalDest(file[i + 1..]))
    else (file, LocalDest(file))
  }

  /** A source with no ':' of its own and a relative destination come back
      out of `source:dest`. */
  lemma SplitSourceDestRoundTrip(source: string, dest: string)
    requires if StartsWith(source, "gs://") then ':' !in source[5..] else ':' !in source
    requires !StartsWith(dest, "/") && !StartsWith(dest, "gs://")
    ensures SplitSourceDest(source + ":" + dest) == (source, dest)
  {
    var file := source + ":" + dest;
    assert file[..|source|] == source && file[|source|] == ':' && file[|source| + 1..] == dest;
    if StartsWith(source, "gs://") {
      assert StartsWith(file, "gs://");
      assert forall i :: 5 <= i < |source| ==> file[i] == source[5..][i - 5];
      assert FindFrom(file, ':', 5) == |source|;
    } else {
      assert !StartsWith(file, "gs://") by {
        if |source| >= 5 {
          assert file[..5] == source[..5];
        } else if |source| != 2 {
          assert file[|source|] != "gs://"[|source|];
        } else if |file| >= 5 {
          assert file[3] == dest[0] && dest[0] != '/';
        }
      }
      assert forall i :: 0 <= i < |source| ==> file[i] == source[i];
      assert FindFrom(file, ':', 0) == |source|;
    }
  }

  /** The resource names `_parse_resources` accepts. */
  predicate KnownResource(name: string) {
    name == "memory" || name == "cpu"
  }

  /** One `name=value` piece: `re.match("([^=]+)=(.*)", piece)`. The name
      runs to the first '=' and cannot be empty; the value stops at a newline,
      as '.' does. */
  function ParseResource(piece: string): (r: Result<(string, string)>)
    ensures r.Success? ==> KnownResource(r.value.0) && '\n' !in r.value.1
    ensures r.Success? ==> StartsWith(piece, r.value.0 + "=" + r.value.1)
    ensures r.Failure? ==> r.error == Malformed(piece) || r.error.AssertionFailed?
    ensures r.Failure? <==> FindFrom(piece, '=', 0) <= 0 || !KnownResource(piece[..FindFrom(piece, '=', 0)])
  {
    var i := FindFrom(piece, '=', 0);
    if i <= 0 then Failure(Malformed(piece))
    else
      var name := piece[..i];
      if !KnownResource(name) then Failure(AssertionFailed(name))
      else
        var value := TakeLine(piece[i + 1..]);
        assert piece[..|name + "=" + value|] == name + "=" + value by {
          assert piece[..i + 1] == name + "=";
          assert piece[i + 1..][..|value|] == value;
        }
        Success((name, value))
  }

  /** The loop of `_parse_resources` over the comma pieces, writing into `spec`.
      It stops at the first piece that does not parse. */
  function ParseResourceList(pieces: seq<string>, spec: map<string, string>): (r: Result<map<string, string>>)
    ensures r.Success? <==> forall k :: 0 <= k < |pieces| ==> ParseResource(pieces[k]).Success?
    ensures r.Failure? ==> exists k :: 0 <= k < |pieces| && ParseResource(pieces[k]) == Failure(r.error)
    decreases |pieces|
  {
    if |pieces| == 0 then Success(spec)
    else
      var p :- ParseResource(pieces[0]);
      assert forall k :: 1 <= k < |pieces| ==> pieces[k] == pieces[1..][k - 1];
      ParseResourceList(pieces[1..], spec[p.0 := p.1])
  }

  /** The resources the pieces name. */
  function Names(pieces: seq<string>): set<string> {
    set k | 0 <= k < |pieces| && ParseResource(pieces[k]).Success? :: ParseResource(pieces[k]).value.0
  }

  /** No piece of the list names `n`. */
  predicate NotNamed(pieces: seq<string>, n: string) {
    forall k :: 0 <= k < |pieces| ==> ParseResource(pieces[k]).Success? ==> ParseResource(pieces[k]).value.0 != n
  }

  /** Piece `k` wins unless a later piece names the same resource. */
  predicate LastWins(pieces: seq<string>, k: nat, spec: map<string, string>)
    requires k < |pieces| && ParseResource(pieces[k]).Success?
  {
    var p := ParseResource(pieces[k]).value;
    p.0 in spec &&
    ((forall j :: k < j < |pieces| ==> ParseResource(pieces[j]).Success? ==> ParseResource(pieces[j]).value.0 != p.0) ==> spec[p.0] == p.1)
  }

  /** The parsed map holds what was there and the names of all pieces. */
  lemma {:induction false} ParseResourceListKeys(pieces: seq<string>, spec: map<string, string>)
    requires ParseResourceList(pieces, spec).Success?
    ensures ParseResourceList(pieces, spec).value.Keys == spec.Keys + Names(pieces)
    decreases |pieces|
  {
    if |pieces| > 0 {
      var p := ParseResource(pieces[0]).value;
      var tail := pieces[1..];
      assert forall k :: 1 <= k < |pieces| ==> pieces[k] == tail[k - 1];
      ParseResourceListKeys(tail, spec[p.0 := p.1]);
      NamesCons(pieces);
    }
  }

  lemma NamesCons(pieces: seq<string>)
    requires |pieces| > 0 && ParseResource(pieces[0]).Success?
    ensures Names(pieces) == {ParseResource(pieces[0]).value.0} + Names(pieces[1..])
  {
    var p := ParseResource(pieces[0]).value;
    var tail := pieces[1..];
    forall n | n in Names(pieces)
      ensures n == p.0 || n in Names(tail)
    {
      var k :| 0 <= k < |pieces| && ParseResource(pieces[k]).Success? && ParseResource(pieces[k]).value.0 == n;
      if k > 0 {
        assert tail[k - 1] == pieces[k];
      }
    }
    forall n | n in Names(tail)
      ensures n in Names(pieces)
    {
      var k :| 0 <= k < |tail| && ParseResource(tail[k]).Success? && ParseResource(tail[k]).value.0 == n;
      assert pieces[k + 1] == tail[k];
    }
  }

  /** A name keeps its old value when no piece names it. */
  lemma {:induction false} ParseResourceListKeeps(pieces: seq<string>, spec: map<string, string>, n: string)
    requires ParseResourceList(pieces, spec).Success?
    requires n in spec && NotNamed(pieces, n)
    ensures n in ParseResourceList(pieces, spec).value
    ensures ParseResourceList(pieces, spec).value[n] == spec[n]
    decreases |pieces|
  {
    if |pieces| > 0 {
      var p := ParseResource(pieces[0]).value;
      var tail := pieces[1..];
      assert forall k :: 1 <= k < |pieces| ==> pieces[k] == tail[k - 1];
      assert p.0 != n;
      ParseResourceListKeeps(tail, spec[p.0 := p.1], n);
    }
  }

  /** Each name ends up with the value of the last piece naming it. */
  lemma {:induction false} ParseResourceListLastWins(pieces: seq<string>, spec: map<string, string>, k: nat)
    requires ParseResourceList(pieces, spec).Success?
    requires k < |pieces|
    ensures ParseResource(pieces[k]).Success? && LastWins(pieces, k, ParseResourceList(pieces, spec).value)
    decreases |pieces|, 1
  {
    ParseResourceListCons(pieces, spec);
    if k == 0 {
      ParseResourceListFirstWins(pieces, spec);
    } else {
      var p := ParseResource(pieces[0]).value;
      ParseResourceListLastWins(pieces[1..], spec[p.0 := p.1], k - 1);
      LastWinsShift(pieces, k, ParseResourceList(pieces, spec).value);
    }
  }

  /** `ParseResourceListLastWins` for the first piece. */
  lemma {:induction false} ParseResourceListFirstWins(pieces: seq<string>, spec: map<string, string>)
    requires ParseResourceList(pieces, spec).Success? && |pieces| > 0
    ensures ParseResource(pieces[0]).Success? && LastWins(pieces, 0, ParseResourceList(pieces, spec).value)
    decreases |pieces|, 0
  {
    ParseResourceListCons(pieces, spec);
    var p := ParseResource(pieces[0]).value;
    var tail := pieces[1..];
    if NotNamed(tail, p.0) {
      ParseResourceListKeeps(tail, spec[p.0 := p.1], p.0);
    } else {
      var j :| 0 <= j < |tail| && ParseResource(tail[j]).Success? && ParseResource(tail[j]).value.0 == p.0;
      ParseResourceListLastWins(tail, spec[p.0 := p.1], j);
      assert pieces[j + 1] == tail[j];
    }
  }

  /** A successful parse of a non-empty list parsed its first piece and then the rest. */
  lemma ParseResourceListCons(pieces: seq<string>, spec: map<string, string>)
    requires ParseResourceList(pieces, spec).Success? && |pieces| > 0
    ensures ParseResource(pieces[0]).Success?
    ensures var p := ParseResource(pieces[0]).value;
      ParseResourceList(pieces[1..], spec[p.0 := p.1]) == ParseResourceList(pieces, spec)
  {
  }

  /** Winning among the later pieces is winning in the whole list. */
  lemma LastWinsShift(pieces: seq<string>, k: nat, spec: map<string, string>)
    requires 0 < k < |pieces| && ParseResource(pieces[k]).Success?
    requires LastWins(pieces[1..], k - 1, spec)
    ensures LastWins(pieces, k, spec)
  {
    assert forall j :: k < j < |pieces| ==> pieces[j] == pieces[1..][j - 1];
  }

  /** `_parse_resources(resources_str)`: `None` is no constraint. */
  function ParseResources(resources: Option<string>): (r: Result<map<string, string>>)
    ensures resources.None? ==> r == Success(map[])
    ensures r.Success? ==> forall n | n in r.value :: KnownResource(n) && '\n' !in r.value[n]
    ensures resources.Some? ==> r == ParseResourceList(Split(resources.value, ','), map[])
    ensures resources == Some("") ==> r == Failure(Malformed(""))
  {
    match resources
    case None => Success(map[])
    case Some(s) =>
      var r := ParseResourceList(Split(s, ','), map[]);
      if r.Success? then
        ParsedNamesKnown(Split(s, ','), r.value);
        r
      else
        assert s == "" ==> Split(s, ',') == [""];
        r
  }

  lemma ParsedNamesKnown(pieces: seq<string>, spec: map<string, string>)
    requires ParseResourceList(pieces, map[]) == Success(spec)
    ensures forall n | n in spec :: KnownResource(n) && '\n' !in spec[n]
  {
    ParseResourceListKeys(pieces, map[]);
    forall n | n in spec
      ensures KnownResource(n) && '\n' !in spec[n]
    {
      var k :| 0 <= k < |pieces| && ParseResource(pieces[k]).Success? && ParseResource(pieces[k]).value.0 == n;
      var last := LastNamed(pieces, n, k);
      ParseResourceListLastWins(pieces, map[], last);
    }
  }

  /** The last piece naming `n`, at or after `k`. */
  lemma LastNamed(pieces: seq<string>, n: string, k: nat) returns (last: nat)
    requires k < |pieces| && forall j :: 0 <= j < |pieces| ==> ParseResource(pieces[j]).Success?
    requires ParseResource(pieces[k]).value.0 == n
    ensures k <= last < |pieces| && ParseResource(pieces[last]).value.0 == n
    ensures forall j :: last < j < |pieces| ==> ParseResource(pieces[j]).value.0 != n
    decreases |pieces| - k
  {
    if exists j :: k < j < |pieces| && ParseResource(pieces[j]).value.0 == n {
      var j :| k < j < |pieces| && ParseResource(pieces[j]).value.0 == n;
      last := LastNamed(pieces, n, j);
    } else {
      last := k;
    }
  }

  /** The text `name=value` for one constraint. */
  function ResourceText(p: (string, string)): string {
    p.0 + "=" + p.1
  }

  /** Rendering constraints as `name=value,...` and parsing the text gives
      them back, the last of a repeated name winning. */
  lemma {:induction false} ParseResourcesRoundTrip(ps: seq<(string, string)>, spec: map<string, string>)
    requires |ps| >= 1
    requires forall k :: 0 <= k < |ps| ==> KnownResource(ps[k].0) && ',' !in ps[k].1 && '\n' !in ps[k].1
    ensures ParseResourceList(Split(Join(Texts(ps), ","), ','), spec) == Success(Written(spec, ps))
  {
    var texts := Texts(ps);
    forall k | 0 <= k < |texts|
      ensures ',' !in texts[k]
    {
      assert texts[k] == ps[k].0 + "=" + ps[k].1;
    }
    SplitJoin(texts, ',');
    ParseTexts(ps, spec);
  }

  function Texts(ps: seq<(string, string)>): (r: seq<string>)
    ensures |r| == |ps| && forall k :: 0 <= k < |ps| ==> r[k] == ResourceText(ps[k])
  {
    seq(|ps|, k requires 0 <= k < |ps| => ResourceText(ps[k]))
  }

  /** The map the constraints write, one after the other. */
  function Written(spec: map<string, string>, ps: seq<(string, string)>): map<string, string>
    decreases |ps|
  {
    if |ps| == 0 then spec else Written(spec[ps[0].0 := ps[0].1], ps[1..])
  }

  lemma {:induction false} ParseTexts(ps: seq<(string, string)>, spec: map<string, string>)
    requires forall k :: 0 <= k < |ps| ==> KnownResource(ps[k].0) && '\n' !in ps[k].1
    ensures ParseResourceList(Texts(ps), spec) == Success(Written(spec, ps))
    decreases |ps|
  {
    if |ps| > 0 {
      var piece := ResourceText(ps[0]);
      var n := |ps[0].0|;
      assert piece[n] == '=' && forall i :: 0 <= i < n ==> piece[i] == ps[0].0[i];
      assert FindFrom(piece, '=', 0) == n;
      assert piece[..n] == ps[0].0 && piece[n + 1..] == ps[0].1;
      assert ParseResource(piece) == Success(ps[0]);
      assert Texts(ps)[1..] == Texts(ps[1..]);
      ParseTexts(ps[1..], spec[ps[0].0 := ps[0].1]);
    }
  }

  /** `bucket` of `gs://bucket/key`: up to the first '/' after the scheme. */
  function BucketOf(path: string): (b: string)
    requires StartsWith(path, "gs://")
    ensures '/' !in b
    ensures FindFrom(path[5..], '/', 0) >= 0 ==> 5 + |b| < |path| && path == "gs://" + b + "/" + path[5 + |b| + 1..]
  {
    var rest := path[5..];
    var slash := FindFrom(rest, '/', 0);
    if slash < 0 then rest
    else
      SplitAtSlash(path, slash);
      rest[..slash]
  }

  /** Cutting `gs://` + `rest` at the first '/' of `rest`. */
  lemma SplitAtSlash(path: string, slash: nat)
    requires StartsWith(path, "gs://") && slash < |path| - 5
    requires path[5 + slash] == '/' && forall i :: 5 <= i < 5 + slash ==> path[i] != '/'
    ensures '/' !in path[5..][..slash]
    ensures path == "gs://" + path[5..][..slash] + "/" + path[5 + slash + 1..]
  {
    var b := path[5..][..slash];
    assert forall i :: 0 <= i < |b| ==> b[i] == path[5 + i];
    assert path == path[..5] + path[5..];
  }

  /** What follows the '/' after the bucket, or nothing when there is no '/'. */
  function AfterBucket(path: string): string
    requires StartsWith(path, "gs://")
  {
    if FindFrom(path[5..], '/', 0) < 0 then "" else path[5 + |BucketOf(path)| + 1..]
  }

  /** `key` of `gs://bucket/key`: after that '/', less one final newline,
      since `$` also matches before a string's last newline. */
  function KeyOf(path: string): (k: string)
    requires StartsWith(path, "gs://")
    ensures AfterBucket(path) == k || AfterBucket(path) == k + "\n"
  {
    DropNewline(AfterBucket(path))
  }

  /** A string less one final newline. */
  function DropNewline(s: string): (r: string)
    ensures s == r || s == r + "\n"
    ensures '\n' !in r ==> (s == r + "\n" <==> |s| > 0 && s[|s| - 1] == '\n')
  {
    if |s| > 0 && s[|s| - 1] == '\n' then
      assert s == s[..|s| - 1] + "\n";
      s[..|s| - 1]
    else s
  }

  /** `_obj_path_to_url(path)`: `re.match("gs://([^/]+)/(.+)$", path)`, then
      the bucket's public https address. */
  function ObjPathToUrl(path: string): (r: Result<string>)
    ensures r.Success? ==> StartsWith(path, "gs://") && IsObjPath(path)
    ensures r.Success? ==> r.value == "https://" + BucketOf(path) + ".storage.googleapis.com/" + KeyOf(path)
    ensures r.Failure? ==> r.error == AssertionFailed(path)
  {
    if StartsWith(path, "gs://") && IsObjPath(path) then
      Success("https://" + BucketOf(path) + ".storage.googleapis.com/" + KeyOf(path))
    else Failure(AssertionFailed(path))
  }

  /** The regular expression matches: a non-empty bucket without '/', a '/',
      then a non-empty key without newline, perhaps followed by one. */
  predicate IsObjPath(path: string)
    requires StartsWith(path, "gs://")
  {
    var b := BucketOf(path);
    var k := KeyOf(path);
    |b| > 0 && FindFrom(path[5..], '/', 0) >= 0 && |k| > 0 && '\n' !in k
  }

  /** An accepted path is exactly `gs://bucket/key`, or that and a newline. */
  lemma ObjPathShape(path: string)
    requires ObjPathToUrl(path).Success?
    ensures var b := BucketOf(path);
      var k := KeyOf(path);
      && '/' !in b
      && (path == "gs://" + b + "/" + k || path == "gs://" + b + "/" + k + "\n")
  {
  }

  /** Every bucket path of the accepted shape maps to its https address. */
  lemma ObjPathToUrlAccepts(b: string, k: string, newline: bool)
    requires |b| > 0 && '/' !in b && |k| > 0 && '\n' !in k
    ensures var path := "gs://" + b + "/" + k + (if newline then "\n" else "");
      ObjPathToUrl(path) == Success("https://" + b + ".storage.googleapis.com/" + k)
  {
    if newline {
      var tail := k + "\n";
      assert tail[..|tail| - 1] == k;
      assert "gs://" + b + "/" + k + "\n" == "gs://" + b + "/" + tail;
      ObjPathToUrlOf(b, tail);
    } else {
      assert k[|k| - 1] in k;
      assert "gs://" + b + "/" + k + "" == "gs://" + b + "/" + k;
      ObjPathToUrlOf(b, k);
    }
  }

  /** `gs://bucket/tail` maps to the address of the key `tail` names. */
  lemma ObjPathToUrlOf(b: string, tail: string)
    requires |b| > 0 && '/' !in b && |DropNewline(tail)| > 0 && '\n' !in DropNewline(tail)
    ensures ObjPathToUrl("gs://" + b + "/" + tail) == Success("https://" + b + ".storage.googleapis.com/" + DropNewline(tail))
  {
    BucketOfJoin(b, tail);
  }

  /** The bucket and the text after it come back out of `gs://bucket/tail`. */
  lemma BucketOfJoin(b: string, tail: string)
    requires '/' !in b
    ensures var path := "gs://" + b + "/" + tail;
      StartsWith(path, "gs://") && BucketOf(path) == b && FindFrom(path[5..], '/', 0) >= 0 && AfterBucket(path) == tail
  {
    var path := "gs://" + b + "/" + tail;
    assert StartsWith(path, "gs://");
    assert path[5..] == b + ("/" + tail);
    BucketPrefix(path[5..], b, "/" + tail);
    assert path[5 + |b| + 1..] == tail;
  }

  /** The first '/' of `b + rest` is the first of `rest` when `b` has none. */
  lemma BucketPrefix(s: string, b: string, rest: string)
    requires s == b + rest && '/' !in b && |rest| > 0 && rest[0] == '/'
    ensures FindFrom(s, '/', 0) == |b| && s[..|b|] == b
  {
    assert forall i :: 0 <= i < |b| ==> s[i] == b[i] && s[i] != '/';
    assert s[|b|] == '/';
    var r := FindFrom(s, '/', 0);
    assert r != -1;
    assert r >= |b|;
  }

  /** A path outside Cloud Storage is refused. */
  lemma ObjPathToUrlNeedsScheme(path: string)
    requires !StartsWith(path, "gs://")
    ensures ObjPathToUrl(path) == Failure(AssertionFailed(path))
  {
  }

  /** A path naming only a bucket, with or without the trailing '/', is refused. */
  lemma ObjPathToUrlNeedsKey(b: string)
    requires '/' !in b
    ensures ObjPathToUrl("gs://" + b).Failure?
    ensures ObjPathToUrl("gs://" + b + "/").Failure?
  {
    var bare := "gs://" + b;
    assert StartsWith(bare, "gs://") && bare[5..] == b;
    var slashed := "gs://" + b + "/";
    assert StartsWith(slashed, "gs://") && slashed[5..] == b + "/";
    BucketPrefix(slashed[5..], b, "/");
    assert slashed[5 + |b| + 1..] == "";
  }

  /** A path with an empty bucket name is refused. */
  lemma ObjPathToUrlNeedsBucket(k: string)
    ensures ObjPathToUrl("gs:///" + k).Failure?
  {
    var path := "gs:///" + k;
    assert StartsWith(path, "gs://") && path[5..][0] == '/';
    assert FindFrom(path[5..], '/', 0) == 0;
  }

  /** `int(s)`: an optional sign, then decimal digits. */
  function ParseInt(s: string): (r: Option<int>)
    ensures ParseNat(s).Some? ==> r == Some(ParseNat(s).value)
  {
    if |s| > 0 && s[0] == '-' then
      match ParseNat(s[1..]) case Some(n) => Some(0 - n as int) case None => None
    else if |s| > 0 && s[0] == '+' then
      match ParseNat(s[1..]) case Some(n) => Some(n) case None => None
    else match ParseNat(s) case Some(n) => Some(n) case None => None
  }

  /** `_get_bootDiskSizeGb(config)`: the configured size, 20 by default,
      never below 10. */
  function GetBootDiskSizeGb(config: map<string, string>): (r: Result<int>)
    ensures r.Success? ==> r.value >= 10
    ensures "bootDiskSizeGb" !in config ==> r == Success(20)
    ensures "bootDiskSizeGb" in config ==>
      match ParseInt(config["bootDiskSizeGb"])
      case None => r == Failure(Malformed(config["bootDiskSizeGb"]))
      case Some(n) => (r.Success? <==> n >= 10) && (r.Success? ==> r.value == n)
  {
    var flag := if "bootDiskSizeGb" in config then config["bootDiskSizeGb"] else "20";
    assert ParseNat("20") == Some(20) by {
      assert DigitsValue("20"[..1]) == 2;
    }
    match ParseInt(flag)
    case None => Failure(Malformed(flag))
    case Some(n) => if n >= 10 then Success(n) else Failure(AssertionFailed(flag))
  }

  /** Any size of at least 10, written as `str(n)`, is taken as given. */
  lemma BootDiskSizeRoundTrip(config: map<string, string>, n: nat)
    ensures GetBootDiskSizeGb(config["bootDiskSizeGb" := NatToString(n)]) ==
      if n >= 10 then Success(n) else Failure(AssertionFailed(NatToString(n)))
  {
    ParseNatToString(n);
  }

  /** Whether nodes start preemptible: the `--preemptible` flag, else the
      config's `preemptible`, `"n"` by default, which after `lower()` must be
      `y` or `n`. */
  function Preemptible(flag: bool, config: map<string, string>): (r: Result<bool>)
    ensures flag ==> r == Success(true)
    ensures !flag && "preemptible" !in config ==> r == Success(false)
    ensures !flag && "preemptible" in config ==>
      var v := config["preemptible"];
      && (r == Success(true) <==> v == "y" || v == "Y")
      && (r == Success(false) <==> v == "n" || v == "N")
      && (r.Failure? ==> r.error == Malformed(v))
  {
    if flag then Success(true)
    else
      var v := if "preemptible" in config then config["preemptible"] else "n";
      if v == "y" || v == "Y" then Success(true)
      else if v == "n" || v == "N" then Success(false)
      else Failure(Malformed(v))
  }

  /** `max_preemptable_attempts`: twice the target node count when nodes are
      preemptible, none otherwise. */
  function MaxPreemptibleAttempts(preemptible: bool, targetNodeCount: int): (r: int)
    ensures !preemptible ==> r == 0
    ensures r % 2 == 0
    ensures targetNodeCount >= 0 ==> r >= 0 && (r > 0 <==> preemptible && targetNodeCount > 0)
    ensures preemptible ==> r / 2 == targetNodeCount
  {
    if preemptible then targetNodeCount * 2 else 0
  }

  /** The attempts `submit` passes to the job queue, from the command line
      and configuration. */
  function SubmitAttempts(flag: bool, config: map<string, string>, targetNodeCount: nat): (r: Result<int>)
    ensures r.Success? ==> r.value >= 0 && r.value % 2 == 0
    ensures r.Success? ==> (r.value > 0 <==> targetNodeCount > 0 && Preemptible(flag, config) == Success(true))
    ensures r.Failure? <==> Preemptible(flag, config).Failure?
  {
    var p :- Preemptible(flag, config);
    Success(MaxPreemptibleAttempts(p, targetNodeCount))
  }
}

=== FILE: summary.dfy ===
/** The pure counters and predicates of kubeque/main.py over task listings:
    `_is_terminal_status`, `_is_complete`, the `TasksStatus` properties and
    `_summarize_task_statuses`. */
module Summary {
  import opened Wrappers
  import opened Strings
  import opened Collections
  import opened JobQueue

  /** `_is_terminal_status`: only failed and complete end a task; killed does not. */
  predicate IsTerminalStatus(st: TaskStatus)
    ensures IsTerminalStatus(st) ==> st != Pending && st != Claimed && st != Killed && st != Lost
    ensures st == Failed || st == Complete ==> IsTerminalStatus(st)
  {
    st == Failed || st == Complete
  }

  const AllStatuses: seq<TaskStatus> := [Pending, Claimed, Complete, Failed, Killed, Lost]

  /** The keys of a status-count map, in one fixed order. */
  function CountKeys(counts: map<TaskStatus, nat>): (r: seq<TaskStatus>)
    ensures forall st :: st in r <==> st in counts
  {
    EveryStatusListed();
    Filter(AllStatuses, (st: TaskStatus) => st in counts)
  }

  lemma EveryStatusListed()
    ensures forall st :: st in AllStatuses
  {
    forall st
      ensures st in AllStatuses
    {
      match st
      case Pending => assert AllStatuses[0] == st;
      case Claimed => assert AllStatuses[1] == st;
      case Complete => assert AllStatuses[2] == st;
      case Failed => assert AllStatuses[3] == st;
      case Killed => assert AllStatuses[4] == st;
      case Lost => assert AllStatuses[5] == st;
    }
  }

  /** The loop of `_is_complete` over `keys`, starting from `allTerminal`;
      `onNonTerminal` is the value it stores on meeting a non-terminal status. */
  function ScanTerminal(keys: seq<TaskStatus>, allTerminal: bool, onNonTerminal: bool): bool
    decreases |keys|
  {
    if |keys| == 0 then allTerminal
    else ScanTerminal(keys[1..], if IsTerminalStatus(keys[0]) then allTerminal else onNonTerminal, onNonTerminal)
  }

  /** A scan that only ever stores True ends True. */
  lemma {:induction false} ScanStoringTrue(keys: seq<TaskStatus>)
    ensures ScanTerminal(keys, true, true)
    decreases |keys|
  {
    if |keys| > 0 {
      ScanStoringTrue(keys[1..]);
    }
  }

  /** A scan that stores False on a non-terminal status decides "all terminal". */
  lemma {:induction false} ScanStoringFalse(keys: seq<TaskStatus>, allTerminal: bool)
    ensures ScanTerminal(keys, allTerminal, false) <==>
      allTerminal && forall k | 0 <= k < |keys| :: IsTerminalStatus(keys[k])
    decreases |keys|
  {
    if |keys| > 0 {
      ScanStoringFalse(keys[1..], allTerminal && IsTerminalStatus(keys[0]));
      assert forall k | 1 <= k < |keys| :: keys[k] == keys[1..][k - 1];
    }
  }

  /** `_is_complete(status_counts)` as written: the body assigns True where
      False was meant, so every input is reported complete. */
  function IsCompleteAsWritten(counts: map<TaskStatus, nat>): (r: bool)
    ensures r
  {
    var keys := CountKeys(counts);
    ScanStoringTrue(keys);
    ScanTerminal(keys, true, true)
  }

  /** `_is_complete` as evidently intended: complete iff every counted status is terminal. */
  function IsComplete(counts: map<TaskStatus, nat>): (r: bool)
    ensures r <==> forall st | st in counts :: IsTerminalStatus(st)
  {
    ScanDecides(counts);
    ScanTerminal(CountKeys(counts), true, false)
  }

  lemma ScanDecides(counts: map<TaskStatus, nat>)
    ensures ScanTerminal(CountKeys(counts), true, false) <==> forall st | st in counts :: IsTerminalStatus(st)
  {
    ScanDecidesFor(CountKeys(counts), counts);
  }

  lemma {:induction false} ScanDecidesFor(keys: seq<TaskStatus>, counts: map<TaskStatus, nat>)
    requires forall st :: st in keys <==> st in counts
    ensures ScanTerminal(keys, true, false) <==> forall st | st in counts :: IsTerminalStatus(st)
  {
    ScanStoringFalse(keys, true);
    var allKeys := forall k | 0 <= k < |keys| :: IsTerminalStatus(keys[k]);
    var allCounted := forall st | st in counts :: IsTerminalStatus(st);
    if allKeys {
      forall st | st in counts
        ensures IsTerminalStatus(st)
      {
        var k :| 0 <= k < |keys| && keys[k] == st;
      }
    }
    if allCounted {
      forall k | 0 <= k < |keys|
        ensures IsTerminalStatus(keys[k])
      {
        assert keys[k] in keys;
      }
    }
  }

  /** A job with one pending task shows the difference. */
  lemma IsCompleteAsWrittenAcceptsPending()
    ensures IsCompleteAsWritten(map[Pending := 1])
    ensures !IsComplete(map[Pending := 1])
  {
    assert !IsTerminalStatus(Pending);
  }

  /** `str(x)` of an optional string: Python prints a missing value as "None". */
  function Text(o: Option<string>): string {
    match o
    case None => "None"
    case Some(v) => v
  }

  /** A task that needs a node: claimed or pending. */
  predicate IsActive(t: Task) {
    t.status == Claimed || t.status == Pending
  }

  /** A failed task, or a complete one whose exit code does not print as "0". */
  predicate CountsAsFailed(t: Task) {
    t.status == Failed || (t.status == Complete && Text(t.exitCode) != "0")
  }

  /** `TasksStatus.active_tasks`: the loop counting claimed and pending tasks. */
  function ActiveTasks(ts: seq<Task>): (r: nat)
    ensures r <= |ts|
  {
    if |ts| == 0 then 0 else (if IsActive(ts[0]) then 1 else 0) + ActiveTasks(ts[1..])
  }

  /** `TasksStatus.failed_tasks`. */
  function FailedTasks(ts: seq<Task>): (r: nat)
    ensures r <= |ts|
  {
    if |ts| == 0 then 0 else (if CountsAsFailed(ts[0]) then 1 else 0) + FailedTasks(ts[1..])
  }

  lemma StatusesCons(ts: seq<Task>)
    requires |ts| > 0
    ensures Statuses(ts) == [ts[0].status] + Statuses(ts[1..])
  {
  }

  /** The number of active tasks is the claimed count plus the pending count
      that `get_status_counts` reports for the same listing. */
  lemma {:induction false} ActiveTasksFromCounts(ts: seq<Task>)
    ensures ActiveTasks(ts) == CountOf(StatusCounts(ts), Claimed) + CountOf(StatusCounts(ts), Pending)
  {
    ActiveTasksMultiset(ts);
  }

  lemma {:induction false} ActiveTasksMultiset(ts: seq<Task>)
    ensures ActiveTasks(ts) == multiset(Statuses(ts))[Claimed] + multiset(Statuses(ts))[Pending]
  {
    if |ts| > 0 {
      ActiveTasksMultiset(ts[1..]);
      StatusesCons(ts);
    }
  }

  /** The failed count lies between the failed count and the failed plus
      complete counts of `get_status_counts`; every failed task counts. */
  lemma {:induction false} FailedTasksFromCounts(ts: seq<Task>)
    ensures CountOf(StatusCounts(ts), Failed) <= FailedTasks(ts)
    ensures FailedTasks(ts) <= CountOf(StatusCounts(ts), Failed) + CountOf(StatusCounts(ts), Complete)
  {
    FailedTasksMultiset(ts);
  }

  lemma {:induction false} FailedTasksMultiset(ts: seq<Task>)
    ensures multiset(Statuses(ts))[Failed] <= FailedTasks(ts)
    ensures FailedTasks(ts) <= multiset(Statuses(ts))[Failed] + multiset(Statuses(ts))[Complete]
  {
    if |ts| > 0 {
      FailedTasksMultiset(ts[1..]);
      StatusesCons(ts);
    }
  }

  /** A complete task whose exit code does not print as "0". */
  predicate FailedCompletion(t: Task) {
    t.status == Complete && Text(t.exitCode) != "0"
  }

  /** The failed count is exactly the failed tasks `get_status_counts`
      reports plus the complete tasks whose exit code is not "0". */
  lemma FailedTasksExact(ts: seq<Task>)
    ensures FailedTasks(ts) == CountOf(StatusCounts(ts), Failed) + |Filter(ts, FailedCompletion)|
  {
    FailedTasksSplit(ts);
  }

  lemma {:induction false} FailedTasksSplit(ts: seq<Task>)
    ensures FailedTasks(ts) == multiset(Statuses(ts))[Failed] + |Filter(ts, FailedCompletion)|
  {
    if |ts| > 0 {
      FailedTasksSplit(ts[1..]);
      StatusesCons(ts);
    }
  }

  /** A complete task whose exit code prints as "0" is not a failure; any other
      complete task is. */
  lemma FailedTasksExitCode(t: Task)
    requires t.status == Complete
    ensures FailedTasks([t]) == (if Text(t.exitCode) == "0" then 0 else 1)
  {
    assert [t][1..] == [];
  }

  /** Active and failed tasks are disjoint, so together they never exceed the listing. */
  lemma {:induction false} ActivePlusFailedBound(ts: seq<Task>)
    ensures ActiveTasks(ts) + FailedTasks(ts) <= |ts|
  {
    if |ts| > 0 {
      ActivePlusFailedBound(ts[1..]);
    }
  }

  /** The label `_summarize_task_statuses` files a task under: the status
      name, followed for complete and failed tasks by their detail. */
  function Label(t: Task): (r: string)
    ensures StartsWith(r, StatusName(t.status))
    ensures t.status != Complete && t.status != Failed ==> r == StatusName(t.status)
    ensures t.status == Complete ==> EndsWith(r, Text(t.exitCode) + ")")
    ensures t.status == Failed ==> EndsWith(r, Text(t.failureReason) + ")")
  {
    match t.status
    case Complete => "complete(code=" + Text(t.exitCode) + ")"
    case Failed => "failed(" + Text(t.failureReason) + ")"
    case _ => StatusName(t.status)
  }

  /** A label tells which status its tasks are in: the status names differ
      in their first two letters. */
  lemma LabelDeterminesStatus(t: Task, u: Task)
    requires Label(t) == Label(u)
    ensures t.status == u.status
  {
    var a := StatusName(t.status);
    var b := StatusName(u.status);
    var r := Label(t);
    assert |a| >= 4 && |b| >= 4;
    assert r[..|a|] == a && r[..|b|] == b;
    assert a[0] == r[0] == b[0] && a[1] == r[1] == b[1];
    match t.status
    case Pending =>
    case Claimed =>
    case Complete =>
    case Failed =>
    case Killed =>
    case Lost =>
  }

  function Labels(ts: seq<Task>): (r: seq<string>)
    ensures |r| == |ts| && forall k :: 0 <= k < |ts| ==> r[k] == Label(ts[k])
  {
    seq(|ts|, k requires 0 <= k < |ts| => Label(ts[k]))
  }

  /** The `defaultdict` tally of labels. */
  function Tally(ls: seq<string>): (counts: map<string, nat>)
    ensures forall l :: l in counts <==> l in ls
    ensures forall l | l in counts :: counts[l] == multiset(ls)[l] >= 1
  {
    if |ls| == 0 then map[]
    else
      var init := ls[..|ls| - 1];
      var c := Tally(init);
      var l := ls[|ls| - 1];
      assert ls == init + [l];
      c[l := (if l in c then c[l] else 0) + 1]
  }

  /** `labels = list(counts.keys()); labels.sort()`: the dict's keys come in
      first-insertion order, then are sorted as strings. */
  function SortedLabels(ts: seq<Task>): (r: seq<string>)
    ensures SortedBy(r, Self)
    ensures NoDuplicates(r)
    ensures forall l :: l in r <==> l in Labels(ts)
  {
    SortedSet(Labels(ts))
  }

  /** The (label, count) pairs of the status line, in label order. */
  function SummaryItems(ts: seq<Task>): (r: seq<(string, nat)>)
    ensures ItemLabels(r) == SortedLabels(ts)
    ensures forall k | 0 <= k < |r| :: r[k].1 == multiset(Labels(ts))[r[k].0] >= 1
  {
    var ls := Labels(ts);
    var sorted := SortedLabels(ts);
    WithCounts(sorted, Tally(ls))
  }

  /** Each label paired with its count. */
  function WithCounts(labels: seq<string>, counts: map<string, nat>): (r: seq<(string, nat)>)
    requires forall k | 0 <= k < |labels| :: labels[k] in counts
    ensures ItemLabels(r) == labels
    ensures forall k | 0 <= k < |r| :: r[k].0 in counts && r[k].1 == counts[r[k].0]
  {
    var r := seq(|labels|, k requires 0 <= k < |labels| => (labels[k], counts[labels[k]]));
    assert ItemLabels(r) == labels;
    r
  }

  function ItemLabels(items: seq<(string, nat)>): (r: seq<string>)
    ensures |r| == |items| && forall k :: 0 <= k < |items| ==> r[k] == items[k].0
  {
    seq(|items|, k requires 0 <= k < |items| => items[k].0)
  }

  function ItemCounts(items: seq<(string, nat)>): nat {
    if |items| == 0 then 0 else items[0].1 + ItemCounts(items[1..])
  }

  /** `"{}: {}".format(l, counts[l])`. */
  function Entry(item: (string, nat)): string {
    item.0 + ": " + NatToString(item.1)
  }

  function Entries(items: seq<(string, nat)>): (r: seq<string>)
    ensures |r| == |items| && forall k :: 0 <= k < |items| ==> r[k] == Entry(items[k])
  {
    seq(|items|, k requires 0 <= k < |items| => Entry(items[k]))
  }

  /** `", ".join("{}: {}".format(l, counts[l]) for l in labels)`: empty exactly
      when there is nothing to count, and otherwise led by the first entry. */
  function SummaryText(items: seq<(string, nat)>): (r: string)
    ensures r == "" <==> |items| == 0
    ensures |items| >= 1 ==> StartsWith(r, Entry(items[0]))
    ensures |items| == 1 ==> r == Entry(items[0])
  {
    var es := Entries(items);
    if |items| >= 1 then
      assert |es[0]| >= 1;
      assert es[0] + ", " + Join(es[1..], ", ") == es[0] + (", " + Join(es[1..], ", "));
      Join(es, ", ")
    else Join(es, ", ")
  }

  /** One more (label, count) pair adds its entry after a comma. */
  lemma SummaryTextAppend(items: seq<(string, nat)>, item: (string, nat))
    requires |items| >= 1
    ensures SummaryText(items + [item]) == SummaryText(items) + ", " + Entry(item)
  {
    assert Entries(items + [item]) == Entries(items) + Entries([item]);
    JoinAppend(Entries(items), Entries([item]), ", ");
  }

  /** The `complete` flag of the loop: cleared by any non-terminal status. */
  function AllTerminal(ts: seq<Task>): (r: bool)
    ensures r <==> forall k | 0 <= k < |ts| :: IsTerminalStatus(ts[k].status)
  {
    if |ts| == 0 then true
    else
      assert forall k | 1 <= k < |ts| :: ts[k] == ts[1..][k - 1];
      IsTerminalStatus(ts[0].status) && AllTerminal(ts[1..])
  }

  /** `_summarize_task_statuses(tasks)`: the status line and the completion flag. */
  function SummarizeTaskStatuses(ts: seq<Task>): (r: (string, bool))
    ensures r.1 <==> forall k | 0 <= k < |ts| :: IsTerminalStatus(ts[k].status)
    ensures r.1 <==> IsComplete(StatusCounts(ts))
  {
    AllTerminalIsComplete(ts);
    (SummaryText(SummaryItems(ts)), AllTerminal(ts))
  }

  /** The loop's flag agrees with `_is_complete` over the status counts. */
  lemma AllTerminalIsComplete(ts: seq<Task>)
    ensures AllTerminal(ts) <==> IsComplete(StatusCounts(ts))
  {
    CountedStatuses(ts);
    if AllTerminal(ts) {
      forall st | st in StatusCounts(ts)
        ensures IsTerminalStatus(st)
      {
        var k :| 0 <= k < |ts| && ts[k].status == st;
      }
    }
  }

  /** A status is counted iff some task of the listing has it. */
  lemma CountedStatuses(ts: seq<Task>)
    ensures forall st :: st in StatusCounts(ts) <==> exists k :: 0 <= k < |ts| && ts[k].status == st
  {
    forall st
      ensures st in Statuses(ts) <==> exists k :: 0 <= k < |ts| && ts[k].status == st
    {
      if st in Statuses(ts) {
        var k :| 0 <= k < |Statuses(ts)| && Statuses(ts)[k] == st;
      }
    }
  }

  /** The counts in the status line add up to the number of tasks. */
  lemma SummaryCountsTotal(ts: seq<Task>)
    ensures ItemCounts(SummaryItems(ts)) == |ts|
  {
    var ls := Labels(ts);
    var keys := Dedup(ls);
    var f := (l: string) => multiset(ls)[l];
    ItemCountsAsSum(SummaryItems(ts), f);
    SumBySortBy(keys, Self, f);
    DedupCounts(ls);
  }

  /** `sum(f(x) for x in s)`. */
  function SumBy(s: seq<string>, f: string -> nat): nat {
    if |s| == 0 then 0 else f(s[0]) + SumBy(s[1..], f)
  }

  lemma {:induction false} ItemCountsAsSum(items: seq<(string, nat)>, f: string -> nat)
    requires forall k | 0 <= k < |items| :: items[k].1 == f(items[k].0)
    ensures ItemCounts(items) == SumBy(ItemLabels(items), f)
  {
    if |items| > 0 {
      ItemCountsAsSum(items[1..], f);
      assert ItemLabels(items)[1..] == ItemLabels(items[1..]);
    }
  }

  lemma {:induction false} SumByInsert(x: string, s: seq<string>, key: string -> string, f: string -> nat)
    ensures SumBy(Insert(x, s, key), f) == f(x) + SumBy(s, f)
  {
    if |s| > 0 && !LessEq(key(x), key(s[0])) {
      SumByInsert(x, s[1..], key, f);
      assert Insert(x, s, key)[1..] == Insert(x, s[1..], key);
    } else if |s| > 0 {
      assert Insert(x, s, key)[1..] == s;
    }
  }

  /** Sorting does not change a sum. */
  lemma {:induction false} SumBySortBy(s: seq<string>, key: string -> string, f: string -> nat)
    ensures SumBy(SortBy(s, key), f) == SumBy(s, f)
  {
    if |s| > 0 {
      SumBySortBy(s[1..], key, f);
      SumByInsert(s[0], SortBy(s[1..], key), key, f);
    }
  }

  lemma {:induction false} SumByAppend(s: seq<string>, x: string, f: string -> nat)
    ensures SumBy(s + [x], f) == SumBy(s, f) + f(x)
  {
    if |s| > 0 {
      SumByAppend(s[1..], x, f);
      assert (s + [x])[1..] == s[1..] + [x];
    }
  }

  /** Raising `f` by one at a single element the sequence holds once raises the sum by one. */
  lemma {:induction false} SumByBump(s: seq<string>, y: string, f: string -> nat, g: string -> nat)
    requires forall x | x in s :: g(x) == f(x) + (if x == y then 1 else 0)
    requires y in s && multiset(s)[y] == 1
    ensures SumBy(s, g) == SumBy(s, f) + 1
  {
    assert s == [s[0]] + s[1..];
    if s[0] == y {
      assert y !in multiset(s[1..]);
      SumByAgree(s[1..], f, g);
    } else {
      SumByBump(s[1..], y, f, g);
    }
  }

  lemma {:induction false} SumByAgree(s: seq<string>, f: string -> nat, g: string -> nat)
    requires forall x | x in s :: g(x) == f(x)
    ensures SumBy(s, g) == SumBy(s, f)
  {
    if |s| > 0 {
      SumByAgree(s[1..], f, g);
    }
  }

  /** Each distinct label counted as often as it occurs: the counts add up to the length. */
  lemma {:induction false} DedupCounts(ls: seq<string>)
    ensures SumBy(Dedup(ls), (l: string) => multiset(ls)[l]) == |ls|
  {
    if |ls| > 0 {
      var init := ls[..|ls| - 1];
      var y := ls[|ls| - 1];
      assert ls == init + [y];
      var d := Dedup(init);
      var f := (l: string) => multiset(init)[l];
      var g := (l: string) => multiset(ls)[l];
      DedupCounts(init);
      if y in d {
        assert y in multiset(d);
        SumByBump(d, y, f, g);
      } else {
        assert y !in init;
        SumByAgree(d, f, g);
        SumByAppend(d, y, g);
      }
    }
  }
}

=== FILE: watch.dfy ===
/** The `watch` loop of kubeque/watch.py, one pass of its body at a time.

    The cluster, the preemption detector and the resizer are outside this
    model: what they answer during a pass is an `Env`, and what the pass does
    to them is an `Effect` in the order the code performs it. The job queue
    is the store of `JobQueue`. Sleeping becomes the `Sleep(delay)` action. */
module Watch {
  import opened Wrappers
  import opened Strings
  import opened JobQueue

  /** The exception classes the loop tells apart. `OSError` stands for
      `OSError` and all its subclasses (`ConnectionError`, `TimeoutError`, ...),
      which `except OSError` catches alike; `Other` names a class outside both. */
  datatype Exc = OSError | RetryError | Other(name: string)

  /** The classes `_exception_guard` treats as non-fatal. */
  predicate Transient(e: Exc) {
    e.OSError? || e.RetryError?
  }

  /** How a `with _exception_guard(...)` block ends. */
  datatype Guarded =
    | Finished                    // the block raised nothing
    | Ignored(resetCalled: bool)  // a non-fatal exception was logged and dropped
    | Propagated(e: Exc)          // the exception leaves the block

  /** `_exception_guard(deferred_msg, reset)` around a block that raised `raised`:
      only `OSError` and `RetryError` are swallowed, calling `reset` when there
      is one; anything else escapes unchanged. */
  function ExceptionGuard(raised: Option<Exc>, hasReset: bool): (r: Guarded)
    ensures raised.None? <==> r.Finished?
    ensures r.Propagated? <==> raised.Some? && !Transient(raised.value)
    ensures r.Propagated? ==> r.e == raised.value
    ensures r.Ignored? ==> r.resetCalled == hasReset
  {
    match raised
    case None => Finished
    case Some(e) => if Transient(e) then Ignored(hasReset) else Propagated(e)
  }

  /** What `cluster.get_state()` returns, as far as the loop reads it. */
  datatype ClusterState = ClusterState(done: bool, summary: string, failedTaskCount: nat)

  /** The arguments of `watch` the loop body reads. `jobTaskCount` is `len(job.tasks)`;
      `hasMonitor` says whether a log monitor was set up. The delays are exact
      reals: the binary rounding of Python's float arithmetic is not modelled. */
  datatype Config = Config(initial: real, maxDelay: real, jobTaskCount: nat, hasMonitor: bool)

  /** The loop's local variables: `poll_delay`, `prev_summary` and `state`,
      which stays bound from the previous pass when a fetch fails. */
  datatype Loop = Loop(delay: real, prev: Option<string>, state: Option<ClusterState>)

  /** The variables before the first pass. */
  function Start(c: Config): (l: Loop)
    ensures l.delay == c.initial && l.prev.None? && l.state.None?
  {
    Loop(c.initial, None, None)
  }

  datatype Fetch = Fetched(state: ClusterState) | FetchRaised(e: Exc)

  /** An exception raised inside the preemption step once `at` resets are done. */
  datatype Fault = Fault(at: nat, e: Exc)

  /** What the outside world does during one pass: the outcome of `get_state()`,
      the ids `get_preempted(state)` reports, the faults of the guarded steps,
      the clock, and the ids whose reset write the store loses. */
  datatype Env = Env(fetched: Fetch, preempted: seq<string>, preemptFault: Option<Fault>,
                     resizeFault: Option<Exc>, logFault: Option<Exc>, now: int, lost: set<string>)

  /** The calls a pass makes on its collaborators, in order. */
  datatype Effect = LogSummary(summary: string) | ResetPreempted(id: string) | Resize | PollLog

  /** How a pass ends: sleep and go round again, leave the loop, or raise. On
      leaving, `dumpTail` says whether the single task's output is dumped. */
  datatype Action = Sleep(delay: real) | Exit(succeeded: bool, dumpTail: bool) | Raise(e: Exc)

  datatype Tick = Tick(loop: Loop, store: Store, effects: seq<Effect>, action: Action)

  function RealMin(a: real, b: real): real {
    if a <= b then a else b
  }

  /** The raise, if any, of the guarded `get_state()` block. */
  function FetchError(f: Fetch): Option<Exc> {
    if f.FetchRaised? then Some(f.e) else None
  }

  /** The fetch raised something the guard lets through. */
  predicate FetchFatal(env: Env) {
    env.fetched.FetchRaised? && !Transient(env.fetched.e)
  }

  /** The state the pass goes on with: the new one, or the one still bound from before. */
  function Observed(l: Loop, env: Env): Option<ClusterState> {
    if env.fetched.Fetched? then Some(env.fetched.state) else l.state
  }

  /** `poll_delay` after a pass that saw `summary`: back to the initial delay
      when the summary changed, otherwise half as long again, up to the maximum. */
  function NextDelay(c: Config, l: Loop, summary: string): (r: real)
    ensures l.prev != Some(summary) ==> r == c.initial
    ensures l.prev == Some(summary) ==> r <= c.maxDelay && r <= l.delay * 1.5
    ensures l.prev == Some(summary) ==> r == c.maxDelay || r == l.delay * 1.5
  {
    if l.prev != Some(summary) then c.initial else RealMin(l.delay * 1.5, c.maxDelay)
  }

  predicate DelayInRange(c: Config, d: real) {
    c.initial <= d <= c.maxDelay
  }

  /** With `0 <= initial <= max`, one pass keeps the delay between the two. */
  lemma NextDelayInRange(c: Config, l: Loop, summary: string)
    requires 0.0 <= c.initial <= c.maxDelay
    requires DelayInRange(c, l.delay)
    ensures DelayInRange(c, NextDelay(c, l, summary))
    ensures l.prev == Some(summary) ==> NextDelay(c, l, summary) >= l.delay
  {
  }

  /** The loop `for task_id in task_ids: jq.reset_task(task_id)` under the
      guard's body. It stops at the first raise: the injected fault, or the
      missing record (`get_task` gives `None`, whose attributes cannot be set). */
  function ResetAll(s: Store, ids: seq<string>, fault: Option<Fault>, now: int, lost: set<string>): (r: (Store, seq<Effect>, Option<Exc>))
    ensures r.0.jobs == s.jobs && r.0.tasks.Keys == s.tasks.Keys
    ensures |r.1| <= |ids| && forall k :: 0 <= k < |r.1| ==> r.1[k] == ResetPreempted(ids[k])
    ensures r.2.None? ==> |r.1| == |ids|
    ensures fault.None? && r.2.Some? ==>
      r.2 == Some(Other("AttributeError")) && exists k :: 0 <= k < |ids| && ids[k] !in s.tasks
    decreases |ids|
  {
    if fault.Some? && fault.value.at == 0 then (s, [], Some(fault.value.e))
    else if |ids| == 0 then (s, [], if fault.Some? then Some(fault.value.e) else None)
    else if ids[0] !in s.tasks then (s, [], Some(Other("AttributeError")))
    else
      var s1 := ResetTask(s, s.tasks[ids[0]], Pending, now, ids[0] !in lost);
      ResetTaskKeys(s, ids[0], Pending, now, ids[0] !in lost);
      var rest := if fault.Some? then Some(Fault(fault.value.at - 1, fault.value.e)) else None;
      var r := ResetAll(s1, ids[1..], rest, now, lost);
      ResetsCons(ids, r.1);
      (r.0, [ResetPreempted(ids[0])] + r.1, r.2)
  }

  /** The resets of the later ids, after the reset of the first. */
  lemma ResetsCons(ids: seq<string>, tail: seq<Effect>)
    requires |ids| > 0 && |tail| <= |ids| - 1
    requires forall k :: 0 <= k < |tail| ==> tail[k] == ResetPreempted(ids[1..][k])
    ensures forall k :: 0 <= k < |tail| + 1 ==> ([ResetPreempted(ids[0])] + tail)[k] == ResetPreempted(ids[k])
  {
    forall k | 0 <= k < |tail| + 1
      ensures ([ResetPreempted(ids[0])] + tail)[k] == ResetPreempted(ids[k])
    {
      if k > 0 {
        assert ([ResetPreempted(ids[0])] + tail)[k] == tail[k - 1];
      }
    }
  }

  /** A step that completes leaves every preempted id pending and unowned
      unless its write was lost; every other record is untouched. */
  lemma {:induction false} ResetAllEffect(s: Store, ids: seq<string>, fault: Option<Fault>, now: int, lost: set<string>, id: string)
    requires id in s.tasks
    requires ResetAll(s, ids, fault, now, lost).2.None?
    ensures var r := ResetAll(s, ids, fault, now, lost).0;
      if id in ids && id !in lost then r.tasks[id].status == Pending && r.tasks[id].owner == None
      else r.tasks[id] == s.tasks[id]
    decreases |ids|
  {
    if |ids| > 0 {
      var s1 := ResetTask(s, s.tasks[ids[0]], Pending, now, ids[0] !in lost);
      var rest := if fault.Some? then Some(Fault(fault.value.at - 1, fault.value.e)) else None;
      assert ids == [ids[0]] + ids[1..];
      ResetAllEffect(s1, ids[1..], rest, now, lost, id);
    }
  }

  /** The effects of a pass, as `ProceedEffects` states them for the part after the exit test. */
  lemma StepEffects(c: Config, l: Loop, s: Store, env: Env)
    ensures var r := Step(c, l, s, env);
      r.store.jobs == s.jobs && r.store.tasks.Keys == s.tasks.Keys
    ensures var r := Step(c, l, s, env);
      r.action.Sleep? ==> Resize in r.effects && (PollLog in r.effects <==> c.hasMonitor)
    ensures ResetsBeforeResize(Step(c, l, s, env).effects)
    ensures var r := Step(c, l, s, env);
      Resize in r.effects ==> PreemptionDone(s, env, r.store)
  {
    if !FetchFatal(env) && Observed(l, env).Some? && !Observed(l, env).value.done {
      ProceedEffects(c, l, s, env, Observed(l, env).value);
    }
  }

  /** One pass of `while True:` in `watch`: the guarded fetch, the exit test,
      then the rest of the pass in `Proceed`. */
  function Step(c: Config, l: Loop, s: Store, env: Env): (r: Tick)
    ensures FetchFatal(env) ==> r == Tick(l, s, [], Raise(env.fetched.e))
    ensures Observed(l, env).None? && !FetchFatal(env) ==> r == Tick(l, s, [], Raise(Other("UnboundLocalError")))
    ensures r.action.Exit? <==> !FetchFatal(env) && Observed(l, env).Some? && Observed(l, env).value.done
    ensures r.action.Exit? ==>
      && r.action.succeeded == (Observed(l, env).value.failedTaskCount == 0)
      && r.action.dumpTail == (Observed(l, env).value.failedTaskCount > 0 && c.jobTaskCount == 1)
      && r.effects == [] && r.store == s
    ensures r.loop.delay != l.delay ==>
      Observed(l, env).Some? && r.loop.delay == NextDelay(c, l, Observed(l, env).value.summary)
    ensures r.action.Sleep? ==> Observed(l, env).Some? && r.action.delay == r.loop.delay
    ensures r.action.Sleep? ==>
      var summary := Observed(l, env).value.summary;
      && r.loop.prev == Some(summary)
      && (l.prev != Some(summary) ==> r.loop.delay == c.initial && |r.effects| > 0 && r.effects[0] == LogSummary(summary))
      && (l.prev == Some(summary) ==> r.loop.delay == RealMin(l.delay * 1.5, c.maxDelay))
  {
    if ExceptionGuard(FetchError(env.fetched), false).Propagated? then Tick(l, s, [], Raise(env.fetched.e))
    else
      match Observed(l, env)
      case None => Tick(l, s, [], Raise(Other("UnboundLocalError")))
      case Some(st) =>
        if st.done then Tick(l.(state := Some(st)), s, [], Exit(st.failedTaskCount == 0, st.failedTaskCount > 0 && c.jobTaskCount == 1))
        else Proceed(c, l, s, env, st)
  }

  /** In the effects of a pass, every reset comes before the resize. */
  predicate ResetsBeforeResize(effects: seq<Effect>) {
    forall i, j :: 0 <= i < |effects| && 0 <= j < |effects| && effects[i].ResetPreempted? && effects[j] == Resize ==> i < j
  }

  /** The preemption step ran to its end or met only a non-fatal fault, and
      `after` is the store it left. */
  predicate PreemptionDone(s: Store, env: Env, after: Store) {
    var p := ResetAll(s, env.preempted, env.preemptFault, env.now, env.lost);
    after == p.0 && (p.2.None? || Transient(p.2.value))
  }

  /** The pass after the exit test: backoff, the guarded preemption step, the
      guarded resize and the guarded log poll. */
  function Proceed(c: Config, l: Loop, s: Store, env: Env, st: ClusterState): (r: Tick)
    ensures r.loop == Loop(NextDelay(c, l, st.summary), Some(st.summary), Some(st))
    ensures !r.action.Exit?
    ensures |r.effects| > 0 && l.prev != Some(st.summary) ==> r.effects[0] == LogSummary(st.summary)
    ensures l.prev != Some(st.summary) ==> |r.effects| > 0
    ensures r.action.Sleep? ==> r.action.delay == r.loop.delay
  {
    var l2 := Loop(NextDelay(c, l, st.summary), Some(st.summary), Some(st));
    var p := ResetAll(s, env.preempted, env.preemptFault, env.now, env.lost);
    var reset := Logged(l, st) + p.1;
    BeforeResize(reset, Logged(l, st), p.1);
    if ExceptionGuard(p.2, false).Propagated? then Tick(l2, p.0, reset, Raise(p.2.value))
    else AfterPreemption(c, l2, p.0, reset, env)
  }

  /** The summary is logged when it differs from the previous one. */
  function Logged(l: Loop, st: ClusterState): (r: seq<Effect>)
    ensures |r| <= 1 && forall k :: 0 <= k < |r| ==> r[k] == LogSummary(st.summary)
    ensures |r| == 1 <==> l.prev != Some(st.summary)
  {
    if l.prev != Some(st.summary) then [LogSummary(st.summary)] else []
  }

  /** Effects that can come before the resize: log lines and resets. */
  predicate Early(e: Effect) {
    e.LogSummary? || e.ResetPreempted?
  }

  /** A log line followed by the resets of the preemption step holds only early effects. */
  lemma BeforeResize(reset: seq<Effect>, logged: seq<Effect>, resets: seq<Effect>)
    requires reset == logged + resets
    requires forall k :: 0 <= k < |logged| ==> logged[k].LogSummary?
    requires forall k :: 0 <= k < |resets| ==> resets[k].ResetPreempted?
    ensures forall k :: 0 <= k < |reset| ==> Early(reset[k])
  {
    forall k | 0 <= k < |reset|
      ensures Early(reset[k])
    {
      if k < |logged| {
        assert reset[k] == logged[k];
      } else {
        assert reset[k] == resets[k - |logged|];
      }
    }
  }

  /** The effects of the rest of a pass: the store keeps its jobs and task
      ids, every reset comes before the resize, a pass that reaches the
      resize ran the preemption step to its end or past a non-fatal fault,
      and a pass that sleeps resized, and polled the log exactly when there
      is a log monitor. */
  lemma ProceedEffects(c: Config, l: Loop, s: Store, env: Env, st: ClusterState)
    ensures var r := Proceed(c, l, s, env, st);
      r.store.jobs == s.jobs && r.store.tasks.Keys == s.tasks.Keys
    ensures var r := Proceed(c, l, s, env, st);
      r.action.Sleep? ==> Resize in r.effects && (PollLog in r.effects <==> c.hasMonitor)
    ensures ResetsBeforeResize(Proceed(c, l, s, env, st).effects)
    ensures var r := Proceed(c, l, s, env, st);
      Resize in r.effects ==> PreemptionDone(s, env, r.store)
  {
    var l2 := Loop(NextDelay(c, l, st.summary), Some(st.summary), Some(st));
    var p := ResetAll(s, env.preempted, env.preemptFault, env.now, env.lost);
    var reset := Logged(l, st) + p.1;
    BeforeResize(reset, Logged(l, st), p.1);
    if ExceptionGuard(p.2, false).Propagated? {
      assert Proceed(c, l, s, env, st).effects == reset;
      assert forall k :: 0 <= k < |reset| ==> reset[k] != Resize;
    } else {
      var a := AfterPreemption(c, l2, p.0, reset, env);
      assert Proceed(c, l, s, env, st) == a;
      ResizeAfterEarly(reset, a.effects);
    }
  }

  /** Early effects, the resize, then log polls: every reset comes before the resize. */
  lemma ResizeAfterEarly(before: seq<Effect>, effects: seq<Effect>)
    requires forall k :: 0 <= k < |before| ==> Early(before[k])
    requires |effects| > |before| && effects[..|before|] == before && effects[|before|] == Resize
    requires forall k :: |before| < k < |effects| ==> effects[k] == PollLog
    ensures ResetsBeforeResize(effects)
  {
    assert forall k :: 0 <= k < |before| ==> effects[k] == before[k];
  }

  /** The guarded resize and the guarded log poll, after the effects `before`. */
  function AfterPreemption(c: Config, l: Loop, s: Store, before: seq<Effect>, env: Env): (r: Tick)
    requires forall k :: 0 <= k < |before| ==> Early(before[k])
    ensures r.loop == l && r.store == s && !r.action.Exit?
    ensures |r.effects| > |before| && r.effects[..|before|] == before && r.effects[|before|] == Resize
    ensures forall k :: |before| < k < |r.effects| ==> r.effects[k] == PollLog
    ensures r.action.Sleep? ==> r.action.delay == l.delay && (PollLog in r.effects <==> c.hasMonitor)
  {
    var resized := before + [Resize];
    forall k | 0 <= k < |resized|
      ensures resized[k] != PollLog
    {
      if k < |before| {
        assert resized[k] == before[k] && Early(before[k]);
      }
    }
    if ExceptionGuard(env.resizeFault, false).Propagated? then Tick(l, s, resized, Raise(env.resizeFault.value))
    else if !c.hasMonitor then Tick(l, s, resized, Sleep(l.delay))
    else
      var polled := resized + [PollLog];
      if ExceptionGuard(env.logFault, false).Propagated? then Tick(l, s, polled, Raise(env.logFault.value))
      else Tick(l, s, polled, Sleep(l.delay))
  }

  /** The passes the loop makes against a sequence of environments: it goes
      round while passes end in `Sleep` and stops after the first that does not. */
  function Run(c: Config, l: Loop, s: Store, envs: seq<Env>): (ticks: seq<Tick>)
    ensures |ticks| <= |envs|
    ensures forall k :: 0 <= k < |ticks| - 1 ==> ticks[k].action.Sleep?
    ensures forall k :: 0 <= k < |ticks| && ticks[k].action.Sleep? ==> ticks[k].action.delay == ticks[k].loop.delay
    decreases |envs|
  {
    if |envs| == 0 then []
    else
      var t := Step(c, l, s, envs[0]);
      if t.action.Sleep? then [t] + Run(c, t.loop, t.store, envs[1..]) else [t]
  }

  /** Across any run, the delay stays within `[initial_poll_delay, max_poll_delay]`
      when `0 <= initial_poll_delay <= max_poll_delay`. */
  lemma {:induction false} RunKeepsDelayInRange(c: Config, l: Loop, s: Store, envs: seq<Env>)
    requires 0.0 <= c.initial <= c.maxDelay
    requires DelayInRange(c, l.delay)
    ensures forall k :: 0 <= k < |Run(c, l, s, envs)| ==> DelayInRange(c, Run(c, l, s, envs)[k].loop.delay)
    decreases |envs|
  {
    if |envs| > 0 {
      var t := Step(c, l, s, envs[0]);
      StepKeepsDelayInRange(c, l, s, envs[0]);
      if t.action.Sleep? {
        var rest := Run(c, t.loop, t.store, envs[1..]);
        RunKeepsDelayInRange(c, t.loop, t.store, envs[1..]);
        assert Run(c, l, s, envs) == [t] + rest;
        DelaysInRangeCons(c, t, rest);
      }
    }
  }

  /** A tick in range followed by ticks in range are all in range. */
  lemma DelaysInRangeCons(c: Config, t: Tick, rest: seq<Tick>)
    requires DelayInRange(c, t.loop.delay)
    requires forall k :: 0 <= k < |rest| ==> DelayInRange(c, rest[k].loop.delay)
    ensures forall k :: 0 <= k < |[t] + rest| ==> DelayInRange(c, ([t] + rest)[k].loop.delay)
  {
    forall k | 0 <= k < |[t] + rest|
      ensures DelayInRange(c, ([t] + rest)[k].loop.delay)
    {
      if k > 0 {
        assert ([t] + rest)[k] == rest[k - 1];
      }
    }
  }

  /** One tick keeps the delay within the bounds. */
  lemma StepKeepsDelayInRange(c: Config, l: Loop, s: Store, env: Env)
    requires 0.0 <= c.initial <= c.maxDelay
    requires DelayInRange(c, l.delay)
    ensures DelayInRange(c, Step(c, l, s, env).loop.delay)
  {
    if Step(c, l, s, env).loop.delay != l.delay {
      NextDelayInRange(c, l, Observed(l, env).value.summary);
    }
  }

  /** From the start of `watch`, every sleep of every run is within the bounds. */
  lemma RunFromStartSleepsInRange(c: Config, s: Store, envs: seq<Env>, k: nat)
    requires 0.0 <= c.initial <= c.maxDelay
    requires k < |Run(c, Start(c), s, envs)|
    requires Run(c, Start(c), s, envs)[k].action.Sleep?
    ensures DelayInRange(c, Run(c, Start(c), s, envs)[k].action.delay)
  {
    RunKeepsDelayInRange(c, Start(c), s, envs);
  }

  /** When the resize runs and the preemption step met no transient fault,
      every preempted task was already reset to pending and unowned (unless
      the store lost that write). */
  lemma StepResetsPreemptedBeforeResize(c: Config, l: Loop, s: Store, env: Env, id: string)
    requires id in s.tasks && id in env.preempted && id !in env.lost
    requires env.preemptFault.None?
    requires Resize in Step(c, l, s, env).effects
    ensures Step(c, l, s, env).store.tasks[id].status == Pending
    ensures Step(c, l, s, env).store.tasks[id].owner == None
  {
    StepEffects(c, l, s, env);
    ResetAllEffect(s, env.preempted, env.preemptFault, env.now, env.lost, id);
  }

  /** Unchanged summaries from the start, with `initial = 1` and `max = 30`,
      back off as 1, 1.5, 2.25, then reset when the summary changes. */
  lemma BackoffExample(s: Store)
    ensures var c := Config(1.0, 30.0, 2, false);
      var st := ClusterState(false, "pending: 2", 0);
      var env := Env(Fetched(st), [], None, None, None, 0, {});
      var t1 := Step(c, Start(c), s, env);
      var t2 := Step(c, t1.loop, t1.store, env);
      var t3 := Step(c, t2.loop, t2.store, env);
      var t4 := Step(c, t3.loop, t3.store, env.(fetched := Fetched(st.(summary := "claimed: 2"))));
      && t1.action == Sleep(1.0) && t2.action == Sleep(1.5) && t3.action == Sleep(2.25)
      && t4.action == Sleep(1.0)
  {
  }

  /** A failed first fetch leaves `state` unbound: the loop dies instead of retrying. */
  lemma FirstFetchFailureIsFatal(c: Config, s: Store, env: Env)
    requires env.fetched == FetchRaised(OSError)
    ensures Step(c, Start(c), s, env).action == Raise(Other("UnboundLocalError"))
  {
  }

  /** `stdout_lines[-100:]`. */
  function LastLines(lines: seq<string>, n: nat): (r: seq<string>)
    ensures |r| <= n && |r| <= |lines|
    ensures |lines| <= n ==> r == lines
    ensures r == lines[|lines| - |r|..]
  {
    if |lines| <= n then lines else lines[|lines| - n..]
  }

  /** `dump_stdout_if_single_task`: the lines printed, or `None` when the job
      does not have exactly one task. `stdout` is the text at the `stdout_url`
      of that task's spec; the reads through `io` are outside this model. */
  function DumpStdoutIfSingleTask(s: Store, jobId: string, stdout: string): (r: Option<seq<string>>)
    ensures r.Some? <==> |JobTasks(s, jobId)| == 1
    ensures r.Some? ==> 1 <= |r.value| <= 100
    ensures r.Some? ==> forall k :: 0 <= k < |r.value| ==> '\n' !in r.value[k]
    ensures r.Some? ==> EndsWith(stdout, Join(r.value, "\n"))
    ensures r.Some? && |Split(stdout, '\n')| <= 100 ==> Join(r.value, "\n") == stdout
  {
    if |JobTasks(s, jobId)| != 1 then None
    else
      LastLinesOfText(stdout);
      LastLinesEndText(stdout);
      Some(LastLines(Split(stdout, '\n'), 100))
  }

  lemma LastLinesOfText(stdout: string)
    ensures var tail := LastLines(Split(stdout, '\n'), 100);
      && 1 <= |tail| <= 100
      && (forall k :: 0 <= k < |tail| ==> '\n' !in tail[k])
  {
    var lines := Split(stdout, '\n');
    var tail := LastLines(lines, 100);
    forall k | 0 <= k < |tail|
      ensures '\n' !in tail[k]
    {
      assert tail[k] == lines[|lines| - |tail| + k];
    }
  }

  lemma LastLinesEndText(stdout: string)
    ensures var tail := LastLines(Split(stdout, '\n'), 100);
      && EndsWith(stdout, Join(tail, "\n"))
      && (|Split(stdout, '\n')| <= 100 ==> Join(tail, "\n") == stdout)
  {
    var lines := Split(stdout, '\n');
    JoinSplit(stdout, '\n');
    TailOfJoin(lines, LastLines(lines, 100));
  }

  /** The last lines of a split are the end of the original text. */
  lemma TailOfJoin(lines: seq<string>, tail: seq<string>)
    requires |tail| >= 1 && |tail| <= |lines| && tail == lines[|lines| - |tail|..]
    ensures EndsWith(Join(lines, "\n"), Join(tail, "\n"))
  {
    var k := |lines| - |tail|;
    if k > 0 {
      assert lines == lines[..k] + tail;
      JoinAppend(lines[..k], tail, "\n");
    }
  }
}

=== FILE: wrappers.dfy ===
/** Failure-compatible wrappers shared by every module of the model.

    Python raises exceptions; the model returns a `Result` whose failure side
    names the kind of exception the source would raise at that point. */
module Wrappers {

  datatype Option<+T> = None | Some(value: T) {
    function GetOr(default: T): T {
      match this
      case Some(v) => v
      case None => default
    }
  }

  /** The exceptions the modelled code raises, by kind. */
  datatype Error =
    | ConcurrentUpdate(taskId: string)          // raise Exception("Detected concurrent update ...")
    | NoSuchTask(taskId: string)                // attribute access on a missing task record
    | NoSuchJob(jobId: string)                  // get_job(..., must=True) on a missing job
    | RestartBudgetExhausted(wanted: int, limit: int)
    | AssertionFailed(what: string)             // a failing `assert` statement
    | Malformed(piece: string)                  // raise Exception("... malformed ...")
    | KeyMissing(key: string)                   // KeyError
    | TypeMismatch(what: string)                // TypeError / AttributeError on a wrong type

  datatype Result<+T> = Success(value: T) | Failure(error: Error) {
    predicate IsFailure() {
      Failure?
    }

    function PropagateFailure<U>(): Result<U>
      requires Failure?
    {
      Failure(error)
    }

    function Extract(): T
      requires Success?
    {
      value
    }
  }
}
